=== FILE: README.md ===
# VoiceShield AI — a Dafny model of its deterministic core

VoiceShield AI is a voice-phishing and deepfake detector. It has two parts.

- A FastAPI backend. It scores uploaded audio with two classifiers, checks
  images for manipulation, transcribes calls and scores them for phishing
  keywords, separates speakers, estimates their age and gender, and keeps a
  table of registered voice fingerprints.
- A React Native app. It uploads recordings, monitors calls live in
  five-second chunks, keeps a history of analyses, falls back to an offline
  mock analysis when the server is unreachable, and offers a phishing quiz,
  a mock login and a list of guardian contacts for emergency texts.

This project models the rules around the machine-learning calls, not the
calls themselves. Every classifier probability, ELA score, cosine
similarity, transcript, cluster labelling, random draw, clock reading and
I/O result is a parameter. The rules applied to them are pure Dafny
functions over mathematical integers, reals, strings and sequences, and the
lemmas prove what the rules promise.

Files, one module each:

- `base.dfy`: `Option`/`Result`, sums, subsequences, JavaScript `%` and `Math.floor` division, and `[...new Set(xs)]`.
- `text.dfy`: decimal rendering, `padStart`, substring tests, ASCII lower-casing, digit stripping, `replace`, `split('/').pop()`, and an `m:ss` reader used to state round trips.
- `audio_buffer.dfy`: sample-buffer loading and length normalisation in the backend.
- `audio_verdict.dfy`: the audio ensemble score, verdict bands and detail scores.
- `image_decision.dfy`: the image classifier ensemble and the manipulation decision table.
- `voice_registry.dfy`: fingerprint registration, verification and identification.
- `context_scoring.dfy`: keyword risk scoring and summary bounds.
- `diarization.dfy`: segment filtering, cluster count, per-speaker grouping, and the primary speaker.
- `age_gender.dfy`: parsing of the age/gender label.
- `seeded_random.dfy`: the app's seeded generator and the advanced-analysis structure it fills.
- `history.dfy`: history entries, filtered views, prepend-with-cap, save and clear.
- `mock_analysis.dfy`: the offline mock result and `handleAnalyze`.
- `chunk_analysis.dfy`: the live-monitor chunk upload: its name, risk merge and retries.
- `live_monitor.dfy`: the live-monitor screen's switch, speaker mode and recording loop.
- `call_helpers.dfy`, `formatters.dfy`: the time, phone and risk-level helpers.
- `voice_analysis.dfy`: the simulated call-risk hook.
- `training.dfy`: the quiz; `auth.dfy`: the mock accounts; `guardian.dfy`: the guardian contacts.
- `result_geometry.dfy`: chart paths and the suspicious-region overlay.

Design choices:

- The voices table is a sequence of rows, not a map. Identification keeps
  the *first* row with the greatest similarity, so row order matters. The
  unique-name constraint of `backend/database.py` is the invariant
  `NamesUnique`, which registration preserves.
- JavaScript's `%` truncates toward zero (`JsRem`). Python's `int()` on a
  float truncates toward zero (`AudioVerdict.Trunc`). Both are written out
  because Dafny's `%` and `/` are Euclidean.
- Strings are sequences of code points. Where JavaScript counts UTF-16 code
  units (the mock hash's `charCodeAt` and `length`, the password length),
  `Text.Utf16` spells a string out as its code units, with surrogate pairs
  above U+FFFF.
- The mock `acousticFeature` is `55 + (seed / 2) % 45` with a fractional
  `seed / 2`. Over the reals this is exactly `55 + (seed % 90) / 2`, and
  `MockAnalysis.HalfRemainder` proves the two forms agree.
- Each live-monitor loop pass is an input value (`LiveMonitor.Pass`) that
  says what the recorder, the user and the analysis did during that pass.
  The loop is a step function from one pass to the next.

## Model

| member | source | states |
|---|---|---|
| AudioBuffer.LoadAudio | backend/server.py:176-189 | no frames gives no buffer; otherwise the concatenated frames, cut to exactly their first `sr·duration` samples when a duration is given and they are longer, and whole when they fit or no duration is given |
| AudioBuffer.Normalize | backend/server.py:209-214 | exactly `sr·duration` samples: a longer input is cut to its prefix, a shorter one is kept as a prefix followed by zeros |
| AudioBuffer.PreparedSamples | backend/server.py:201-214 | the buffer fed to the spectrogram has exactly `sr·duration` samples and is the prefix of the decoded audio when that is long enough |
| AudioBuffer.NormalizeIdempotent | backend/server.py:209-214 | normalising a normalised buffer changes nothing |
| AudioBuffer.LoadThenNormalize | backend/server.py:185-214 | the loader's duration cut is harmless: normalising its output equals normalising the raw concatenation |
| AudioBuffer.ConcatLength | backend/server.py:176-179 | the concatenated buffer is as long as all frames together, split at any frame |
| AudioVerdict.Trunc | backend/server.py:943-950 | Python `int()`: the integer part, truncated toward zero on both signs |
| AudioVerdict.EnsembleScore | backend/server.py:902-908 | without the second model the score is the CNN-LSTM score; with it the score lies between the two model scores |
| AudioVerdict.Band | backend/server.py:910-931 | for a score in [0,1], deepfake exactly when the score exceeds 0.5, with confidence in [35,99]; each band's confidence formula: from 0.7 the score in percent capped at 99, from 0.55 the score times 85, between 0.3 and 0.55 the larger of score and 1 − score times 70, up to 0.3 genuine with 1 − score in percent capped at 99 |
| AudioVerdict.EnsembleInUnit | backend/server.py:902-931 | two scores in [0,1] give an ensemble in [0,1], so the verdict is deepfake exactly when 0.7·cnn + 0.3·hf > 0.5 |
| AudioVerdict.DetailScores | backend/server.py:940-956 | each detail score is at most 100, and non-negative for non-negative variances and a score in [0,1] |
| ImageDecision.ArtificialIndex | backend/server.py:375-384 | the index of the first label naming an artificial class, or 0 when no label does |
| ImageDecision.ArtificialPercent | backend/server.py:363-392 | a crashed classifier yields nothing; otherwise the probability at the artificial index in percent, or nothing when the index lies past the probabilities |
| ImageDecision.Collected | backend/server.py:363-393 | at most one value per classifier, and percentages when all probabilities lie in [0,1] |
| ImageDecision.MeanWithin | backend/server.py:396-398 | the mean of percentages is a percentage |
| ImageDecision.EnsembleOf | backend/server.py:395-407 | no values gives 0 and "Unknown"; otherwise "Artificial" exactly above 50; a single value is kept as is; percentages stay in [0,100] |
| ImageDecision.Decide | backend/server.py:412-466 | with models, manipulated exactly when ai ≥ 75 and (ela ≥ 30 or ai > 85), or ai < 75 and ela ≥ 65, with confidence in [0,99]; without models, manipulated exactly when ela ≥ 70; and each of the table's nine branches with its confidence formula, such as min(0.75·ai + 0.25·ela, 99) for ai ≥ 75 and ela ≥ 50, or max(100 − ela, 50) for the genuine ELA-only fallback |
| ImageDecision.AnalyzeImage | backend/server.py:357-478 | with classifiers, the ensemble of the collected percentages and the decision table applied to it; without, "Unknown", ai 0 and the ELA-only fallback; classifiers that all raised leave ai at 0 and decide by ela ≥ 65 |
| VoiceRegistry.FirstIndexOf | backend/server.py:807-808 | the first row carrying the name |
| VoiceRegistry.Upsert | backend/server.py:807-815 | an existing name keeps the table's length; a new name is appended; rows with other names are unchanged; unique names stay unique and the name's row has the new fingerprint |
| VoiceRegistry.UpsertExactlyOne | backend/database.py:17 | after registration exactly one row carries the name |
| VoiceRegistry.UpsertOverrides | backend/server.py:807-815 | registering twice under one name is registering the second fingerprint |
| VoiceRegistry.RegisterVoice | backend/server.py:802-817 | a missing fingerprint is a 400 that leaves the table alone; otherwise the upsert |
| VoiceRegistry.VerifyVoice | backend/server.py:824-849 | an unknown name is a 404, a missing fingerprint a 400; otherwise a result whose similarity is that of the fingerprint to the first row of that name, matching exactly when it exceeds 80 |
| VoiceRegistry.Identify | backend/server.py:974-989 | the greatest similarity (from 0) over all rows, reached at the first row that attains it; "Unknown" without a fingerprint or below 70 |
| ContextScoring.KeywordsDistinct | backend/server.py:744-749 | the dictionary's keywords are pairwise different |
| ContextScoring.Matches | backend/server.py:751-756 | the matched entries are a subsequence of the dictionary, and an entry matches exactly when the text contains its keyword |
| ContextScoring.MatchedWords | backend/server.py:751-756 | a keyword is reported exactly when it is a dictionary keyword the text contains |
| ContextScoring.MatchedWordsOnce | backend/server.py:751-756 | a dictionary listing each keyword once reports each keyword once |
| ContextScoring.MatchesKeep | backend/server.py:753-756 | a contained last keyword is appended to the earlier matches |
| ContextScoring.MatchesDrop | backend/server.py:753-756 | a last keyword the text lacks adds nothing |
| ContextScoring.RiskScore | backend/server.py:751-758 | at most 100, exactly 100 once the matched weight reaches 20, and otherwise five times the matched weight |
| ContextScoring.NoKeywordNoRisk | backend/server.py:751-758 | a text without keywords matches nothing and weighs 0 |
| ContextScoring.SummaryBounds | backend/server.py:766-767 | for a transcript over 50 characters, a maximum in [25,100] above a minimum in [12,20] |
| ContextScoring.Summary | backend/server.py:760-775 | short texts or a missing summariser keep the text; a summariser answer is used as it is; a failing summariser gives the first 100 characters and "..." |
| ContextScoring.AnalyzeContext | backend/server.py:725-787 | risk at most 100; recognition failure and other errors give their fixed results; a transcript keeps its text, reports the dictionary keywords it contains in dictionary order, and carries the keyword risk score and the summary of that text |
| ContextScoring.DetectedOnce | backend/server.py:744-756 | each detected keyword is listed once |
| Diarization.Slice | backend/server.py:570 | Python's clamped slice of the waveform |
| Diarization.Segments | backend/server.py:565-587 | the kept segments are the detected spans, in order, with every span shorter than 8000 samples dropped and every other kept |
| Diarization.NClusters | backend/server.py:596-605 | never more than the embeddings; by default 2 from four embeddings on and 1 below; a requested count is kept when it fits |
| Diarization.SpeakerId | backend/server.py:613 | every name starts with "Speaker " |
| Diarization.SpeakerIdNumber | backend/server.py:613 | the number after "Speaker " is the cluster label plus one |
| Diarization.SpeakerIdInjective | backend/server.py:613 | different clusters get different names |
| Diarization.AddTo | backend/server.py:614-628 | a known id's group grows by the segment, a new id's group is appended with it, and other groups are untouched |
| Diarization.GroupIds | backend/server.py:610-628 | the groups are the distinct speaker ids in order of first appearance |
| Diarization.GroupAllSpec | backend/server.py:610-628 | the groups `GroupAll` builds: each holds exactly the segments paired with its id, in order, and their total duration |
| Diarization.GroupsNonEmpty | backend/server.py:614-626 | every group holds at least one segment |
| Diarization.GroupIdsNamed | backend/server.py:612-613 | every group is named after a cluster label |
| Diarization.Speakers | backend/server.py:610-647 | one result per distinct label, in order of first appearance, named "Speaker <label + 1>"; each result has the spans, the total duration and the demographics of the joined audio of exactly the segments carrying its label; none is empty |
| Diarization.SpeakersIds | backend/server.py:611-632 | the speaker names are the distinct label names in order of first appearance |
| Diarization.SummariesDescribe | backend/server.py:610-647 | every speaker result describes exactly the segments paired with its name |
| Diarization.SpeakersShape | backend/server.py:610-647 | at most one result per label and at least one when there are labels; every name starts with "Speaker " and every result has segments |
| Diarization.Diarize | backend/server.py:523-660 | no model or waveform gives `None`, no kept segment gives an empty list; otherwise a result exactly when the clustering into `NClusters` clusters succeeds (a failure is the `except` path), and then the per-speaker results of its labels |
| Diarization.PrimaryIndex | backend/server.py:967 | Python `max` by duration: the first speaker of greatest duration |
| Diarization.SpeakerDemographics | backend/server.py:963-971 | without speakers the single-speaker analysis; otherwise the demographics of the first speaker of greatest duration |
| AgeGender.ParseLabel | backend/server.py:700-719 | Female exactly when the label contains "female", Male when it contains "male" but not "female", then Child, else Unknown with the raw label as age group; a recognised label without "<gender>_" keeps the whole label as age group |
| AgeGender.FemaleContainsMale | backend/server.py:703-706 | every label containing "female" contains "male", which is why "female" is tested first |
| AgeGender.FemaleAgeGroup | backend/server.py:703-718 | "female_<rest>" yields Female with age group <rest> |
| AgeGender.MaleAgeGroup | backend/server.py:705-718 | "male_<rest>" yields Male with age group <rest> |
| AgeGender.ChildAgeGroup | backend/server.py:707-718 | "child_<rest>" yields Child with age group <rest> |
| SeededRandom.Next | src/utils/advancedAnalysis.js:5 | a non-negative seed steps to a seed in [0, 233280) |
| SeededRandom.Scale | src/utils/advancedAnalysis.js:6 | a seed in [0, 233280) scales into [min, max) |
| SeededRandom.Random | src/utils/advancedAnalysis.js:4-7 | one draw advances the seed by one step and lies in [min, max) |
| SeededRandom.Draws | src/utils/advancedAnalysis.js:11-20 | `n` draws, each in [min, max) |
| SeededRandom.DrawsClosedForm | src/utils/advancedAnalysis.js:4-7 | draw `i` is the seed after `i + 1` steps, scaled, so the draws are fixed by the seed |
| SeededRandom.IterateShift | src/utils/advancedAnalysis.js:5 | one step then `k` steps is `k + 1` steps |
| SeededRandom.Matrix | src/utils/advancedAnalysis.js:11-13 | rows of equal length, every value in [min, max) |
| SeededRandom.Pick | src/utils/advancedAnalysis.js:41-42 | a draw in [0, length) picks a valid entry |
| SeededRandom.Spectral | src/utils/advancedAnalysis.js:16-21 | four arrays of 50 values |
| SeededRandom.Fingerprint | src/utils/advancedAnalysis.js:24-33 | pitch, jitter and shimmer within their ranges |
| SeededRandom.Speaker | src/utils/advancedAnalysis.js:36-44 | confidence in [60,95), a valid age range and accent, and a speaker number in [1,99] when one is drawn |
| SeededRandom.Indicators | src/utils/advancedAnalysis.js:47-53 | every indicator in [50,100) |
| SeededRandom.Emotions | src/utils/advancedAnalysis.js:56-63 | every emotion in [0,100) |
| SeededRandom.Quality | src/utils/advancedAnalysis.js:66-71 | each quality figure within its range |
| SeededRandom.Generate | src/utils/advancedAnalysis.js:2-72 | a 13 × 20 MFCC matrix in [−20,20), four 50-value spectral arrays and the eight fingerprint figures within their ranges, speaker confidence in [60,95), an age range and accent from their lists, a gender of 남성 or 여성, a matched id "speaker_<1..99>" when one is drawn, and indicators, emotions and quality within their ranges |
| MockAnalysis.FileName | src/hooks/useDeepfakeAnalysis.js:13 | a present, non-empty name is kept; otherwise "recording.m4a" |
| MockAnalysis.HashSnoc | src/hooks/useDeepfakeAnalysis.js:17-19 | one more code unit adds its value weighted by its position |
| MockAnalysis.HashLoop | src/hooks/useDeepfakeAnalysis.js:15-19 | the loop computes Σ u[i]·(i+1) over the UTF-16 code units of the string |
| MockAnalysis.Seed | src/hooks/useDeepfakeAnalysis.js:13-19 | the seed is the hash of the code units of the effective name followed by those of the decimal size, 0 when absent |
| MockAnalysis.EmojiSeed | src/hooks/useDeepfakeAnalysis.js:16-19 | a name outside the Basic Multilingual Plane is hashed as its two surrogates: "🎤" of size 0 gives 170004 |
| MockAnalysis.Normalized | src/hooks/useDeepfakeAnalysis.js:20-21 | a value in [0,1), the generator's step scaled to [0,1) |
| MockAnalysis.MaliciousIsFakeOrPhishing | src/hooks/useDeepfakeAnalysis.js:22 | the "deepfake" alternative adds nothing to "fake" |
| MockAnalysis.Classify | src/hooks/useDeepfakeAnalysis.js:25-38 | with the name tests read as lower-case searches, malicious names are deepfakes in [80,99); safe names are genuine in [5,30); other names are deepfakes exactly for even seeds, in [70,99) or [10,50) |
| MockAnalysis.MockDetails | src/hooks/useDeepfakeAnalysis.js:39-41 | frequency 60 + seed mod 40, temporal 50 + 2·seed mod 50, acoustic in [55,100) |
| MockAnalysis.HalfRemainder | src/hooks/useDeepfakeAnalysis.js:41 | `(seed / 2) % 45` with the half kept equals `(seed % 90) / 2` |
| MockAnalysis.MockResult | src/hooks/useDeepfakeAnalysis.js:12-64 | the offline result carries the effective name, the verdict and confidence `Classify` gives for the name and seed, the detail scores of the seed, and the advanced analysis of the seed |
| MockAnalysis.SameNameAndSizeSameResult | src/hooks/useDeepfakeAnalysis.js:13-19 | equal name and size give an equal result |
| MockAnalysis.ServerItem | src/hooks/useDeepfakeAnalysis.js:98-111 | the server entry carries the answer's verdict, confidence, details, context and speaker, the picked name as it is, the clock as id, and the advanced analysis seeded by the second clock reading |
| MockAnalysis.HandleAnalyze | src/hooks/useDeepfakeAnalysis.js:66-131 | no file changes nothing; the mock result is used exactly without a server answer; the result heads the history, followed by the first 19 old entries |
| History.OfKind | src/hooks/useHistory.js:52-54 | the entries of that type, in order |
| History.WithVerdict | src/hooks/useHistory.js:57-61 | the entries of that verdict, in order |
| History.ReverseMembers | src/hooks/useHistory.js:63-65 | reversing twice gives the list back and keeps its members |
| History.Filtered | src/hooks/useHistory.js:48-67 | a subsequence of the history, reversed for "asc", holding exactly the entries that pass the type and status filters |
| History.FilteredDefault | src/hooks/useHistory.js:48-66 | "all", "all", "desc" shows the whole history |
| History.VerdictViewsPartition | src/hooks/useHistory.js:57-61 | the deepfake and safe views split the list |
| History.StatusCountsAdd | src/hooks/useHistory.js:48-67 | the deepfake count plus the safe count is the count under "all" |
| History.OfKindCounts | src/hooks/useHistory.js:52-54 | the type view holds every entry of that type exactly as often as the history does, and no other entry |
| History.WithVerdictCounts | src/hooks/useHistory.js:57-61 | the verdict view holds every entry of that verdict exactly as often as the history does, and no other entry |
| History.ReversePermutes | src/hooks/useHistory.js:63-65 | reversing keeps every entry as often as it occurs |
| History.FilteredCounts | src/hooks/useHistory.js:48-67 | the view holds every entry passing both filters exactly as often as the history does, in either order, and no other entry |
| History.Prepend | src/hooks/useDeepfakeAnalysis.js:127 | the new entry followed by at most 19 of the old entries in order, at most 20 in all |
| History.SaveOverrides | src/hooks/useHistory.js:24-27 | a later save overrides an earlier one, and saving the current list changes nothing |
| History.Clear | src/hooks/useHistory.js:33-45 | a confirmed clear empties the list and the shown result; cancelling changes nothing |
| ChunkAnalysis.UploadName | src/context/AppContext.js:254-260 | the uri's last '/'-segment, or "recording.m4a" when that is empty |
| ChunkAnalysis.ContextRisk | src/context/AppContext.js:284-287 | the context's risk score when present and non-zero, else 0, which is `riskScore || 0` with an absent score read as 0 |
| ChunkAnalysis.MergedRisk | src/context/AppContext.js:284-290 | never below the context risk; raised to at least 90 for a deepfake above 80% |
| ChunkAnalysis.AnalyzeChunk | src/context/AppContext.js:251-314 | every attempt but the last failed retryably, by an abort or a network failure; the run ends on a retryable failure only at attempt 2; a result exactly when the last attempt answered ok; at most three attempts from 0 |
| ChunkAnalysis.AbortThenAnswer | src/context/AppContext.js:304-309 | a timed-out first attempt is retried, and the answer to the second attempt is the result |
| ChunkAnalysis.AtMostThreeAttempts | src/context/AppContext.js:305-310 | from the default count a chunk is fetched one to three times |
| ChunkAnalysis.NotOkNoRetry | src/context/AppContext.js:298-301 | a non-ok response ends at once with no result |
| LiveMonitor.StopHaltsLoop | src/screens/LiveMonitorScreen.js:75-79 | stopping twice is stopping once; a stopped loop's next pass does nothing; switching on after a stop does not restart the loop |
| LiveMonitor.Toggle | src/screens/LiveMonitorScreen.js:28-33 | flips the switch, and switching off stops speaker monitoring |
| LiveMonitor.ToggleTwiceWhenStopped | src/screens/LiveMonitorScreen.js:28-33 | toggling twice from a stopped state returns to it |
| LiveMonitor.Start | src/screens/LiveMonitorScreen.js:51-73 | starts exactly with permission and audio mode, otherwise changes nothing |
| LiveMonitor.ToggleSpeaker | src/screens/LiveMonitorScreen.js:42-49 | stops speaker mode, or enters it when starting succeeds |
| LiveMonitor.MergeKeywords | src/screens/LiveMonitorScreen.js:136 | no duplicates, the members of both lists, the previous list as prefix, then only new keywords, all in order of first appearance in the previous list followed by the found ones |
| LiveMonitor.ApplyAnalysis | src/screens/LiveMonitorScreen.js:125-150 | a warning with merged keywords exactly when the context risk exceeds 30; safe-listening otherwise; plain listening without context |
| LiveMonitor.Step | src/screens/LiveMonitorScreen.js:91-176 | a stopped loop does nothing; failures retry after 2 s; a taken chunk continues after 0.5 s exactly when not stopped |
| LiveMonitor.StoppedStaysStopped | src/screens/LiveMonitorScreen.js:92 | no pass restarts a stopped loop |
| LiveMonitor.PassSchedulesOrStops | src/screens/LiveMonitorScreen.js:152-174 | a pass schedules the next exactly while the loop runs, after 0.5 s or 2 s |
| LiveMonitor.KeywordsAccumulate | src/screens/LiveMonitorScreen.js:133-137 | while the loop runs, earlier keywords stay at the front and none repeat |
| LiveMonitor.WarningIgnoresBoost | src/screens/LiveMonitorScreen.js:129-141 | a boosted risk of 90 with a context risk of 0 shows as safe |
| LiveMonitor.WarningShowsScore | src/screens/LiveMonitorScreen.js:134 | different scores give different warning texts, so the warning shows the score |
| CallHelpers.CallDurationReadsBack | src/utils/callHelpers.js:2-6 | `formatCallDuration` of a count reads back as that count: minutes of at least two digits, a colon, seconds of two digits below 60 |
| CallHelpers.FormatPhoneNumber | src/utils/callHelpers.js:9-22 | empty gives empty; 11 digits give 3-4-4 and 10 digits 3-3-4, stripping back to the digits; any other length is kept |
| CallHelpers.FormatPhoneIdempotent | src/utils/callHelpers.js:9-22 | formatting a formatted number changes nothing |
| CallHelpers.RiskFromConfidence | src/utils/callHelpers.js:25-29 | danger exactly above 70, warning exactly in (40,70], safe otherwise |
| CallHelpers.RiskMonotone | src/utils/callHelpers.js:25-29 | a higher confidence never gives a lower level |
| CallHelpers.CallStatusDistinct | src/utils/callHelpers.js:32-37 | equal status texts mean both calls are ringing or neither is, and when ringing the same direction |
| Formatters.TimeReadsBack | src/utils/formatters.js:2-6 | `formatTime` of a count reads back as that count, with minutes without leading zeros and two-digit seconds below 60 |
| Formatters.DurationBelowOneSecond | src/utils/formatters.js:9-12 | no count and any count under a second read "0:00" |
| Formatters.DurationReadsBack | src/utils/formatters.js:9-12 | `formatDuration` of milliseconds reads back as the whole seconds they hold |
| Formatters.FormatDate | src/utils/formatters.js:16-27 | empty or absent input gives ""; otherwise the localized text, so with a non-empty localized text the result is "" exactly for empty or absent input |
| VoiceAnalysis.NewLevel | src/hooks/useVoiceAnalysis.js:40-46 | the hook's thresholds agree with `getRiskLevelFromConfidence` |
| VoiceAnalysis.BeginThenSettle | src/hooks/useVoiceAnalysis.js:36-57 | starting marks the analysis pending, and settling after it shows the drawn confidence, its level and no pending analysis |
| VoiceAnalysis.Settle | src/hooks/useVoiceAnalysis.js:48-57 | shows the drawn confidence and its level, and raises the alert exactly on danger |
| VoiceAnalysis.SettleForgetsPrevious | src/hooks/useVoiceAnalysis.js:48-51 | the shown state after an analysis does not depend on the previous one |
| VoiceAnalysis.LevelPresentation | src/hooks/useVoiceAnalysis.js:76-96 | `getRiskColor` and `getRiskText` give each level its own colour and label |
| VoiceAnalysis.PresentationInjective | src/hooks/useVoiceAnalysis.js:76-96 | colour and label determine the level |
| Training.OneRightAnswerEach | src/screens/TrainingScreen.js:6-40 | every question has exactly one right answer |
| Training.KindLabelsDistinct | src/screens/TrainingScreen.js:134-136 | the three questions get pairwise different header labels |
| Training.Answer | src/screens/TrainingScreen.js:52-61 | the score rises exactly for a right answer; answering twice changes nothing; the score bound is kept |
| Training.Next | src/screens/TrainingScreen.js:63-71 | moves on and clears the choice before the last question, shows the result on it; the bound is kept |
| Training.RestartForgets | src/screens/TrainingScreen.js:73-79 | a restart returns to the first question with score 0, no choice and no result screen, whatever came before |
| Training.ScoreBounded | src/screens/TrainingScreen.js:155-156 | the score never exceeds the questions reached, nor three |
| Training.ResultMessage | src/screens/TrainingScreen.js:91-93 | praise exactly for a perfect score |
| Training.RightChoice | src/screens/TrainingScreen.js:6-40 | a right answer of each question |
| Training.PerfectRun | src/screens/TrainingScreen.js:52-93 | three right answers end on the result screen with the praise |
| Auth.FindUser | src/context/AuthContext.js:45-47 | the first user with exactly these credentials, or none when no user has them |
| Auth.Login | src/context/AuthContext.js:39-61 | succeeds exactly for non-empty credentials some user has and a successful session write, then as the first such user; any failure changes nothing |
| Auth.Signup | src/context/AuthContext.js:63-89 | fails and changes nothing for an empty field or a password of fewer than six UTF-16 code units; otherwise appends the user, and logs in as it exactly when the session write succeeds, keeping the previous login state when it fails |
| Auth.SignupThenLogin | src/context/AuthContext.js:45-85 | after a valid signup, even one whose session write failed, the same credentials log in, as the new user unless an earlier one has them |
| Auth.DuplicateSignupLogsInFirst | src/context/AuthContext.js:45-82 | signing up again with an account's credentials keeps logging in as the earlier account |
| Auth.Logout | src/context/AuthContext.js:91-108 | confirming with a successful removal clears the user and the flag; cancelling or a failed removal changes nothing |
| Auth.MockAccountsLogIn | src/context/AuthContext.js:10-13 | both built-in accounts log in with their own credentials only |
| Guardian.SaveRetry | src/screens/GuardianScreen.js:28-35 | a failed write keeps the screen, a retry equals a direct write, a repeated write changes nothing, and writing the current list changes nothing |
| Guardian.AddContact | src/screens/GuardianScreen.js:37-49 | an empty field changes nothing; otherwise the contact is appended and the form cleared |
| Guardian.WithoutId | src/screens/GuardianScreen.js:58 | exactly the contacts with other ids, in order |
| Guardian.WithoutIdCounts | src/screens/GuardianScreen.js:58 | every contact with another id is kept as often as it occurs, and every contact with the id is gone |
| Guardian.WithoutAbsentId | src/screens/GuardianScreen.js:58 | removing an unused id keeps the list |
| Guardian.RemoveContact | src/screens/GuardianScreen.js:51-63 | once confirmed and written, exactly that id's contacts go |
| Guardian.Recipients | src/screens/GuardianScreen.js:73 | one phone per contact, in list order |
| Guardian.SendEmergencyAlert | src/screens/GuardianScreen.js:65-83 | nothing without contacts or SMS; otherwise the message to every contact's phone |
| Guardian.AddedContactIsAlerted | src/screens/GuardianScreen.js:42-73 | an added contact receives the next alert |
| Guardian.RemovedContactNotAlerted | src/screens/GuardianScreen.js:58-73 | a removed contact's phone receives no alert |
| ResultGeometry.Level | src/components/ResultSection.js:24 | a value in [0,100] maps into [0, height], 0 to the bottom and 100 to the top |
| ResultGeometry.LevelDecreasing | src/components/ResultSection.js:34 | larger values are drawn higher |
| ResultGeometry.Step | src/components/ResultSection.js:21 | the n − 1 gaps span the width |
| ResultGeometry.PointsSpan | src/components/ResultSection.js:21-26 | the points run from 0 to the width, strictly left to right for a positive width, each at its value's height |
| ResultGeometry.LinePath | src/components/ResultSection.js:29-38 | empty data moves to the origin; otherwise a move to the first point and a line to each further one |
| ResultGeometry.AreaPath | src/components/ResultSection.js:19-28 | empty data moves to the origin; otherwise lines through all points, closed via the bottom corners |
| ResultGeometry.AreaFollowsLine | src/components/ResultSection.js:19-38 | the area outline follows the line path |
| ResultGeometry.ContainFit | src/components/ResultSection.js:60-68 | the fitted image stays inside the view, fills one side, and is centred with non-negative offsets |
| ResultGeometry.OverlayInsideView | src/components/ResultSection.js:60-78 | every region point inside the image lands inside the view after the fit |
| ResultGeometry.PlacedInsideView | src/components/ResultSection.js:60-78 | every image point lands inside the view |
| ResultGeometry.SuspiciousOverlay | src/components/ResultSection.js:53-92 | drawn exactly when the layout, the regions and the image size are all known |
| Base.DistinctInOrder | src/screens/LiveMonitorScreen.js:136 | `[...new Set(xs)]`: no duplicates, and exactly the elements of the input |
| Base.DistinctInOrderFirstAppearance | src/screens/LiveMonitorScreen.js:136 | the de-duplicated elements keep the order of their first appearances |
| Base.DistinctAppend | src/screens/LiveMonitorScreen.js:136 | de-duplicating a distinct list followed by more keeps that list as prefix |
| Base.JsRem | src/utils/callHelpers.js:4 | JavaScript `%`: for a non-negative dividend the ordinary remainder; for a negative one a value in (−m, 0] |
| Base.JsRemOdd | src/utils/callHelpers.js:4 | the remainder of −a is minus the remainder of a, which fixes the value for a negative dividend |
| Base.JsRemQuotient | src/utils/callHelpers.js:4 | dividend minus remainder is m times the quotient truncated toward zero |
| Base.FloorDiv | src/utils/callHelpers.js:3 | `Math.floor(a / m)` |
| Base.Filter | backend/server.py:572-574 | the result is a subsequence of the input (order kept) whose members are exactly the input's elements that pass the test |
| Base.FilterCounts | backend/server.py:572-574 | each passing element is kept as often as it occurs in the input; failing ones not at all |
| Text.PadStart | src/utils/callHelpers.js:5 | `padStart`: the text at the end, preceded by padding up to the width |
| Text.LastSegment | src/context/AppContext.js:254 | `split('/').pop()`: the part after the last separator |
| Text.RemoveAll | backend/server.py:718 | Python `replace(p, '')`, never longer than the input |
| Text.RemoveAbsent | backend/server.py:718 | removing a pattern that does not occur changes nothing |
| Text.Digits | src/utils/callHelpers.js:13 | `replace(/\D/g, '')`: only digits, never longer than the input |
| Text.DigitsAppend | src/utils/callHelpers.js:13 | stripping a concatenation is concatenating the stripped parts |
| Text.DigitsChar | src/utils/callHelpers.js:13 | a single character is kept exactly when it is a digit |
| Text.Lower | src/hooks/useDeepfakeAnalysis.js:22-23 | ASCII lower-casing for the case-insensitive name tests |
| Text.ContainsIff | backend/server.py:754 | `word in text` holds exactly when some position starts an occurrence |
| Text.CodeUnits | src/hooks/useDeepfakeAnalysis.js:18 | a character of the Basic Multilingual Plane is one code unit equal to its code; any other is a high surrogate followed by a low surrogate |
| Text.CodeUnitsDecode | src/hooks/useDeepfakeAnalysis.js:18 | the surrogate pair decodes back to the character |
| Text.Utf16Append | src/hooks/useDeepfakeAnalysis.js:16-18 | the code units of a concatenation are those of the parts, one after the other |
| Text.Utf16Basic | src/hooks/useDeepfakeAnalysis.js:17-18 | a string within the Basic Multilingual Plane has one code unit per character, equal to its code |

## Left out

- Machine learning: the CNN-LSTM and transformer classifiers, the image
  classifiers, ELA, OpenCV, silero VAD, speaker embeddings, agglomerative
  clustering, speech recognition and summarisation. Their outputs are
  parameters.
- Feature arithmetic that only feeds those libraries: the mel spectrogram,
  MFCCs, cosine distance and the variances behind the detail scores.
- HTTP endpoints, temporary files and their cleanup, the database session,
  device storage, alerts, toasts, haptics, navigation, SMS sending, sharing
  and animations. Where they decide something (the login session's and the
  guardian list's storage writes succeeding, a confirmation, SMS
  availability), that decision is a parameter. The history write is not one:
  the list is updated before it and its failure is caught and ignored.
- Timers and concurrency: the 5 s recording wait, the 0.5 s and 2 s loop
  delays (kept only as values), the 15 s abort timer, the 1 s retry pause,
  the 5 s analysis interval and 1.5 s delay of the call-risk hook, and the
  interleaving of a stop with a pass in flight. A stop while a chunk is
  analysed is modelled as happening before the result is applied.
- Floating point: all numbers are exact reals or integers. `toFixed`,
  `toLocaleString` (the date text is a parameter), the sine and cosine
  display curves, and the loss of precision when the seed is `Date.now()`
  are not modelled.
- ImageDecision.ArtificialIndex: labels are lower-cased in ASCII only, not by
  Python's Unicode `lower()`; a label whose non-ASCII letters lower-case to
  "artificial", "ai" or "fake" is not recognised.
- The two clock readings of a server-backed analysis (the entry's id and the
  advanced-analysis seed) are independent parameters; that the second is not
  earlier than the first is not modelled.
- The server's `context` and `speaker` payloads are kept as opaque JSON values.
- The chart paths are not modelled for exactly one data point, where the
  source divides by zero; `LinePath` and `AreaPath` require another length.
- ResultGeometry.ContainFit: requires positive image dimensions, which the
  server always reports.
- ImageDecision.Collected: states the count and the range of the values,
  not that they are exactly the non-raising classifiers' percentages.
- ImageDecision.EnsembleOf: states the verdict rule, the range and the
  single-classifier case, not the mean and the 15% disagreement cut as values.
- ImageDecision.AnalyzeImage: its values are exactly those of `EnsembleOf`
  and `Decide`, so it inherits the gaps of `Collected` and `EnsembleOf`.
- AudioVerdict.DetailScores: states bounds, not the values of the scores.
- The formatting of the advanced analysis into display text, the quiz's
  question, answer and explanation texts, and the call screen's own copy of
  the call-duration formatter are not modelled.
- The other screens and components (home, history list, image detection,
  voice ID, settings, onboarding, protection, call widgets) are layout or
  I/O and are not part of this model.

=== FILE: age_gender.dfy ===
/**
 * Interpretation of the age/gender classifier's predicted label (strings
 * such as "female_20s" or "male_child"): a gender chosen by substring
 * test, and an age group obtained by deleting the gender prefix.  The
 * classifier itself and its argmax are not modelled; its label is an input.
 */
module AgeGender {
  import opened Text

  datatype Demographics = Demographics(rawLabel: string, gender: string, ageGroup: string)

  /**
   * The label parser: "female" is tested before "male" (every label
   * containing "female" also contains "male"), then "child".
   */
  function ParseLabel(predicted: string): (d: Demographics)
    ensures d.rawLabel == predicted
    ensures d.gender in {"Female", "Male", "Child", "Unknown"}
    ensures d.gender == "Female" <==> Contains(predicted, "female")
    ensures d.gender == "Male" <==> !Contains(predicted, "female") && Contains(predicted, "male")
    ensures d.gender == "Child" <==> !Contains(predicted, "male") && Contains(predicted, "child")
    ensures d.gender == "Unknown" <==> !Contains(predicted, "male") && !Contains(predicted, "child")
    ensures d.gender == "Unknown" ==> d.ageGroup == predicted
    ensures d.gender != "Unknown" ==> |d.ageGroup| <= |predicted|
    ensures d.gender != "Unknown" && !Contains(predicted, Lower(d.gender) + "_") ==> d.ageGroup == predicted
  {
    FemaleContainsMale(predicted);
    var gender :=
      if Contains(predicted, "female") then "Female"
      else if Contains(predicted, "male") then "Male"
      else if Contains(predicted, "child") then "Child"
      else "Unknown";
    var pat := Lower(gender) + "_";
    assert !Contains(predicted, pat) ==> RemoveAll(predicted, pat) == predicted by {
      if !Contains(predicted, pat) { RemoveAbsent(predicted, pat); }
    }
    Demographics(predicted, gender, if gender != "Unknown" then RemoveAll(predicted, pat) else predicted)
  }

  /** Every occurrence of "female" holds an occurrence of "male". */
  lemma FemaleContainsMale(s: string)
    ensures Contains(s, "female") ==> Contains(s, "male")
  {
    if Contains(s, "female") {
      ContainsIff(s, "female");
      var i :| OccursAt(s, "female", i);
      assert s[i + 2..i + 6] == "male";
      assert OccursAt(s, "male", i + 2);
      ContainsIff(s, "male");
    }
  }

  /** Deleting a pattern that heads the string deletes it there and continues behind it. */
  lemma RemoveLeading(pat: string, rest: string)
    requires |pat| > 0
    ensures RemoveAll(pat + rest, pat) == RemoveAll(rest, pat)
  {
    assert (pat + rest)[..|pat|] == pat;
    assert (pat + rest)[|pat|..] == rest;
  }

  /**
   * A predicted "female_<rest>" yields the age group <rest> when <rest> holds
   * no further "female_".
   */
  lemma FemaleAgeGroup(rest: string)
    requires !Contains(rest, "female_")
    ensures ParseLabel("female_" + rest) == Demographics("female_" + rest, "Female", rest)
  {
    var predicted := "female_" + rest;
    assert predicted[..6] == "female";
    ContainsPrefix("female", "_" + rest);
    assert "female" + ("_" + rest) == predicted;
    RemoveLeading("female_", rest);
    RemoveAbsent(rest, "female_");
    assert Lower("Female") == "female";
  }

  /**
   * A predicted "male_<rest>" yields gender "Male" and age group <rest> when
   * <rest> holds neither "female" nor a further "male_".
   */
  lemma MaleAgeGroup(rest: string)
    requires !Contains(rest, "female") && !Contains(rest, "male_")
    ensures ParseLabel("male_" + rest) == Demographics("male_" + rest, "Male", rest)
  {
    var predicted := "male_" + rest;
    MalePrefixNoFemale(rest);
    ContainsPrefix("male", "_" + rest);
    assert "male" + ("_" + rest) == predicted;
    RemoveLeading("male_", rest);
    RemoveAbsent(rest, "male_");
    assert Lower("Male") == "male";
  }

  /**
   * A predicted "child_<rest>" yields gender "Child" and age group <rest>
   * when <rest> holds neither "male" nor a further "child_".
   */
  lemma ChildAgeGroup(rest: string)
    requires !Contains(rest, "male") && !Contains(rest, "child_")
    ensures ParseLabel("child_" + rest) == Demographics("child_" + rest, "Child", rest)
  {
    var predicted := "child_" + rest;
    ChildPrefixNoMale(rest);
    FemaleContainsMale(predicted);
    ContainsPrefix("child", "_" + rest);
    assert "child" + ("_" + rest) == predicted;
    RemoveLeading("child_", rest);
    RemoveAbsent(rest, "child_");
    assert Lower("Child") == "child";
  }

  /** No "male" straddles the prefix "child_", which holds no 'm'. */
  lemma ChildPrefixNoMale(rest: string)
    requires !Contains(rest, "male")
    ensures !Contains("child_" + rest, "male")
  {
    var predicted := "child_" + rest;
    ContainsIff(rest, "male");
    ContainsIff(predicted, "male");
    forall i | 0 <= i && i + 4 <= |predicted|
      ensures !OccursAt(predicted, "male", i)
    {
      if i < 6 {
        assert predicted[i] == "child_"[i];
        assert predicted[i..i + 4][0] != "male"[0];
      } else {
        assert predicted[i..i + 4] == rest[i - 6..i - 2];
        assert !OccursAt(rest, "male", i - 6);
      }
    }
  }

  /** No "female" straddles the prefix "male_". */
  lemma MalePrefixNoFemale(rest: string)
    requires !Contains(rest, "female")
    ensures !Contains("male_" + rest, "female")
  {
    var predicted := "male_" + rest;
    ContainsIff(rest, "female");
    ContainsIff(predicted, "female");
    forall i | 0 <= i && i + 6 <= |predicted|
      ensures !OccursAt(predicted, "female", i)
    {
      if i < 5 {
        assert predicted[i] == "male_"[i];
        assert predicted[i..i + 6][0] != "female"[0];
      } else {
        assert predicted[i..i + 6] == rest[i - 5..i + 1];
        assert !OccursAt(rest, "female", i - 5);
      }
    }
  }
}

=== FILE: audio_buffer.dfy ===
/**
 * Length handling of decoded sample buffers on the analysis server:
 * the PyAV loader's optional truncation and the fixed-length
 * normalisation that precedes the mel-spectrogram.
 */
module AudioBuffer {
  import opened Base

  /** All decoded frames, flattened into one buffer in decoding order. */
  function Concat(frames: seq<seq<real>>): (r: seq<real>)
  {
    if |frames| == 0 then [] else Concat(frames[..|frames| - 1]) + frames[|frames| - 1]
  }

  /**
   * The loader: no decoded frames means failure; otherwise the concatenated
   * samples, cut to `sr * duration` when a duration is given.
   */
  function LoadAudio(frames: seq<seq<real>>, sr: nat, duration: Option<nat>): (r: Option<seq<real>>)
    ensures r.None? <==> |frames| == 0
    ensures r.Some? ==> r.value <= Concat(frames)
    ensures r.Some? && duration.Some? ==> |r.value| <= sr * duration.value
    ensures r.Some? && duration.Some? && |Concat(frames)| <= sr * duration.value ==> r.value == Concat(frames)
    ensures r.Some? && duration.Some? && |Concat(frames)| >= sr * duration.value ==> r.value == Concat(frames)[..sr * duration.value]
    ensures r.Some? && duration.None? ==> r.value == Concat(frames)
  {
    if |frames| == 0 then None
    else
      var audio := Concat(frames);
      match duration
      case None => Some(audio)
      case Some(d) =>
        var target := sr * d;
        if |audio| > target then Some(audio[..target]) else Some(audio)
  }

  /** `n` zero samples. */
  function Zeros(n: nat): (z: seq<real>)
    ensures |z| == n
    ensures forall i :: 0 <= i < n ==> z[i] == 0.0
  {
    if n == 0 then [] else Zeros(n - 1) + [0.0]
  }

  /**
   * Length normalisation before the mel-spectrogram: pad with zeros at the
   * end up to `sr * duration`, or cut down to it.
   */
  function Normalize(audio: seq<real>, sr: nat, duration: nat): (r: seq<real>)
    ensures |r| == sr * duration
    ensures |audio| >= sr * duration ==> r == audio[..sr * duration]
    ensures |audio| < sr * duration ==> r[..|audio|] == audio
    ensures forall i :: |audio| <= i < |r| ==> r[i] == 0.0
  {
    var target := sr * duration;
    if |audio| < target then audio + Zeros(target - |audio|) else audio[..target]
  }

  /** Samples the server feeds to the mel-spectrogram: PyAV's output, or the fallback decoder's when PyAV fails. */
  function PreparedSamples(frames: seq<seq<real>>, fallback: seq<real>, sr: nat, duration: nat): (r: seq<real>)
    ensures |r| == sr * duration
    ensures |frames| > 0 && |Concat(frames)| >= sr * duration ==> r == Concat(frames)[..sr * duration]
  {
    var loaded := LoadAudio(frames, sr, Some(duration));
    var audio := if loaded.Some? then loaded.value else fallback;
    Normalize(audio, sr, duration)
  }

  /** Normalising twice is the same as normalising once. */
  lemma NormalizeIdempotent(audio: seq<real>, sr: nat, duration: nat)
    ensures Normalize(Normalize(audio, sr, duration), sr, duration) == Normalize(audio, sr, duration)
  {
  }

  /** Normalising what the loader returned is normalising the raw concatenation: the loader's cut is harmless. */
  lemma LoadThenNormalize(frames: seq<seq<real>>, sr: nat, duration: nat)
    requires |frames| > 0
    ensures Normalize(LoadAudio(frames, sr, Some(duration)).value, sr, duration) == Normalize(Concat(frames), sr, duration)
  {
    var audio := Concat(frames);
    var target := sr * duration;
    var loaded := LoadAudio(frames, sr, Some(duration)).value;
    if |audio| > target {
      assert loaded == audio[..target];
      assert Normalize(loaded, sr, duration) == loaded[..target];
      assert audio[..target][..target] == audio[..target];
    } else {
      assert loaded == audio;
    }
  }

  /** The flattened buffer is exactly as long as all frames together. */
  lemma {:induction false} ConcatLength(frames: seq<seq<real>>, k: nat)
    requires k <= |frames|
    ensures |Concat(frames[..k])| + |Concat(frames[k..])| == |Concat(frames)|
    decreases |frames|
  {
    if k < |frames| {
      var init := frames[..|frames| - 1];
      ConcatLength(init, k);
      assert init[..k] == frames[..k];
      assert frames[k..] == init[k..] + [frames[|frames| - 1]];
      assert (init[k..] + [frames[|frames| - 1]])[..|init[k..]|] == init[k..];
      assert |Concat(frames[k..])| == |Concat(init[k..])| + |frames[|frames| - 1]|;
    } else {
      assert frames[..k] == frames;
    }
  }
}

=== FILE: audio_verdict.dfy ===
/**
 * The verdict rules of the server's audio endpoint: the weighted ensemble
 * of the CNN-LSTM score and the optional second classifier, the four
 * confidence bands, and the integer detail scores.  Model outputs and
 * mel-spectrogram statistics are inputs.
 */
module AudioVerdict {
  import opened Base

  function Min(a: real, b: real): real { if a <= b then a else b }
  function Max(a: real, b: real): real { if a >= b then a else b }

  /** Python's `int()` on a float: truncation toward zero. */
  function Trunc(x: real): (n: int)
    ensures x >= 0.0 ==> n as real <= x < n as real + 1.0
    ensures x < 0.0 ==> n as real - 1.0 < x <= n as real
  {
    if x >= 0.0 then x.Floor else -((-x).Floor)
  }

  /** The fake-probability used for the verdict: 70% CNN-LSTM and 30% second model when it produced a score. */
  function EnsembleScore(cnn: real, hf: Option<real>): (score: real)
    ensures hf.None? ==> score == cnn
    ensures hf.Some? ==> Min(cnn, hf.value) <= score <= Max(cnn, hf.value)
    ensures hf.Some? && hf.value == cnn ==> score == cnn
  {
    match hf
    case None => cnn
    case Some(h) => cnn * 0.7 + h * 0.3
  }

  datatype Verdict = Verdict(isDeepfake: bool, confidence: real)

  /**
   * The confidence bands: at least 0.70 is a confident deepfake, at least
   * 0.55 a moderate one, above 0.30 uncertain (decided at 0.50 with a
   * reduced confidence), otherwise a confident genuine voice.
   */
  function Band(score: real): (v: Verdict)
    ensures 0.0 <= score <= 1.0 ==> (v.isDeepfake <==> score > 0.5)
    ensures 0.0 <= score <= 1.0 ==> 35.0 <= v.confidence <= 99.0
    ensures score >= 0.7 ==> v.isDeepfake && v.confidence == Min(score * 100.0, 99.0)
    ensures 0.55 <= score < 0.7 ==> v.isDeepfake && v.confidence == score * 85.0
    ensures 0.3 < score < 0.55 ==> v.confidence == Max(score, 1.0 - score) * 70.0
    ensures score <= 0.3 ==> !v.isDeepfake && v.confidence == Min((1.0 - score) * 100.0, 99.0)
  {
    if score >= 0.70 then Verdict(true, Min(score * 100.0, 99.0))
    else if score >= 0.55 then Verdict(true, score * 85.0)
    else if score > 0.30 then Verdict(score > 0.50, Max(score, 1.0 - score) * 70.0)
    else Verdict(false, Min((1.0 - score) * 100.0, 99.0))
  }

  /** In the ensemble, scores of both models in [0,1] give a score in [0,1], so the band properties apply. */
  lemma EnsembleInUnit(cnn: real, hf: real)
    requires 0.0 <= cnn <= 1.0 && 0.0 <= hf <= 1.0
    ensures 0.0 <= EnsembleScore(cnn, Some(hf)) <= 1.0
    ensures Band(EnsembleScore(cnn, Some(hf))).isDeepfake <==> 0.7 * cnn + 0.3 * hf > 0.5
  {
  }

  /** The three detail scores of the response. */
  datatype Details = Details(frequencyAnalysis: int, temporalPattern: int, acousticFeature: int)

  /**
   * Detail scores from the mel statistics: variance over range (scaled by
   * 100, capped at 100), temporal variance scaled by 50 (capped at 100),
   * and the model score as a percentage, each truncated to an integer.
   */
  function DetailScores(freqVariance: real, freqRange: real, temporalVariance: real, score: real): (d: Details)
    requires freqRange >= 0.0
    ensures d.frequencyAnalysis <= 100 && d.temporalPattern <= 100
    ensures freqVariance >= 0.0 ==> d.frequencyAnalysis >= 0
    ensures temporalVariance >= 0.0 ==> d.temporalPattern >= 0
    ensures 0.0 <= score <= 1.0 ==> 0 <= d.acousticFeature <= 100
  {
    var f := Trunc(freqVariance / (freqRange + 0.000001) * 100.0);
    var t := Trunc(temporalVariance * 50.0);
    Details(if f < 100 then f else 100, if t < 100 then t else 100, Trunc(score * 100.0))
  }
}

=== FILE: auth.dfy ===
/**
 * The mock account store: logging in against an in-memory user list,
 * signing up (which appends to that list), and logging out.  The user
 * list, the current user and the authenticated flag are the state.
 * Whether the device-storage write of the session succeeds is an input
 * (`written`): a failed write rejects the call at that `await`, so the
 * steps after it do not happen.  Haptics and alerts are not modelled, and
 * the clock that stamps a new user's id and creation time is an input.
 */
module Auth {
  import opened Base
  import opened Text

  datatype User = User(id: string, email: string, password: string, name: string, createdAt: Option<string>)

  /** The two accounts the store starts with. */
  const MockUsers: seq<User> := [
    User("1", "test@example.com", "test123", "테스트 유저", None),
    User("2", "demo@voiceshield.ai", "demo123", "데모 사용자", None)
  ]

  datatype Session = Session(users: seq<User>, current: Option<User>, authenticated: bool)

  const Initial: Session := Session(MockUsers, None, false)

  predicate Matches(u: User, email: string, password: string) {
    u.email == email && u.password == password
  }

  /** `Array.find`: the index of the first user with exactly these credentials. */
  function FindUser(users: seq<User>, email: string, password: string): (r: Option<nat>)
    ensures r.None? <==> forall i :: 0 <= i < |users| ==> !Matches(users[i], email, password)
    ensures r.Some? ==> r.value < |users| && Matches(users[r.value], email, password) &&
                        forall i :: 0 <= i < r.value ==> !Matches(users[i], email, password)
  {
    if |users| == 0 then None
    else if Matches(users[0], email, password) then Some(0)
    else match FindUser(users[1..], email, password)
      case None => None
      case Some(k) => Some(k + 1)
  }

  /** A login attempt's new session and whether it succeeded. */
  datatype Outcome = Outcome(session: Session, ok: bool)

  /**
   * `login`: empty credentials fail, as do credentials no user has; for
   * known credentials the session is stored first, and once it is written
   * the first user with them becomes the current user.  A failure, including
   * a failed write, changes nothing.
   */
  function Login(s: Session, email: string, password: string, written: bool): (r: Outcome)
    ensures email == "" || password == "" ==> r == Outcome(s, false)
    ensures r.ok <==> written && email != "" && password != "" &&
                      exists i :: 0 <= i < |s.users| && Matches(s.users[i], email, password)
    ensures !r.ok ==> r.session == s
    ensures r.ok ==> r.session.authenticated && r.session.users == s.users && r.session.current.Some? &&
                     r.session.current == Some(s.users[FindUser(s.users, email, password).value])
  {
    if email == "" || password == "" then Outcome(s, false)
    else match FindUser(s.users, email, password)
      case None => Outcome(s, false)
      case Some(k) => if written then Outcome(Session(s.users, Some(s.users[k]), true), true) else Outcome(s, false)
  }

  /** The shortest password a signup accepts. */
  const MinPasswordLength: nat := 6

  /**
   * `signup`: an empty field or a password shorter than six UTF-16 code units
   * fails and changes nothing; otherwise the new user is appended to the
   * list, and once the session is written it becomes the current user.  The
   * append comes before the write, so a failed write leaves the user
   * registered but not logged in.  No check for an existing email is made.
   */
  function Signup(s: Session, email: string, password: string, name: string, now: string, isoNow: string,
                  written: bool): (r: Outcome)
    ensures email == "" || password == "" || name == "" || |Utf16(password)| < MinPasswordLength ==> r == Outcome(s, false)
    ensures r.ok <==> written && email != "" && password != "" && name != "" && |Utf16(password)| >= MinPasswordLength
    ensures email != "" && password != "" && name != "" && |Utf16(password)| >= MinPasswordLength ==>
      r.session.users == s.users + [User(now, email, password, name, Some(isoNow))]
    ensures !written ==> r.session.current == s.current && r.session.authenticated == s.authenticated
    ensures r.ok ==> var u := User(now, email, password, name, Some(isoNow));
      r.session == Session(s.users + [u], Some(u), true)
  {
    if email == "" || password == "" || name == "" then Outcome(s, false)
    else if |Utf16(password)| < MinPasswordLength then Outcome(s, false)
    else
      var u := User(now, email, password, name, Some(isoNow));
      if written then Outcome(Session(s.users + [u], Some(u), true), true)
      else Outcome(s.(users := s.users + [u]), false)
  }

  /** After a successful signup the same credentials log in; they reach the new user unless an earlier user has them. */
  lemma SignupThenLogin(s: Session, email: string, password: string, name: string, now: string, isoNow: string,
                        written: bool)
    requires email != "" && password != "" && name != "" && |Utf16(password)| >= MinPasswordLength
    ensures var after := Signup(s, email, password, name, now, isoNow, written).session;
      Login(after, email, password, true).ok &&
      ((forall i :: 0 <= i < |s.users| ==> !Matches(s.users[i], email, password)) ==>
         Login(after, email, password, true).session.current == Some(User(now, email, password, name, Some(isoNow))))
  {
    var after := Signup(s, email, password, name, now, isoNow, written).session;
    assert Matches(after.users[|s.users|], email, password);
  }

  /**
   * Signing up again with an account's credentials still logs in as the
   * earlier account: the list keeps both and login takes the first.
   */
  lemma DuplicateSignupLogsInFirst(s: Session, k: nat, name: string, now: string, isoNow: string)
    requires k < |s.users| && s.users[k].email != "" && name != "" && |Utf16(s.users[k].password)| >= MinPasswordLength
    requires forall i :: 0 <= i < k ==> !Matches(s.users[i], s.users[k].email, s.users[k].password)
    ensures var u := s.users[k];
      var after := Signup(s, u.email, u.password, name, now, isoNow, true);
      after.ok && |after.session.users| == |s.users| + 1 &&
      Login(after.session, u.email, u.password, true).session.current == Some(u)
  {
    var u := s.users[k];
    var after := Signup(s, u.email, u.password, name, now, isoNow, true).session;
    assert after.users[k] == u && Matches(after.users[k], u.email, u.password);
    assert forall i :: 0 <= i < k ==> after.users[i] == s.users[i];
    var found := FindUser(after.users, u.email, u.password);
    assert found.Some? && found.value <= k;
    assert found.value == k;
  }

  /**
   * `logout`: confirming removes the stored session and then clears the
   * current user and the flag; cancelling, or a failed removal, changes
   * nothing.
   */
  function Logout(s: Session, confirmed: bool, written: bool): (r: Outcome)
    ensures confirmed && written ==> r.ok && r.session.current.None? && !r.session.authenticated && r.session.users == s.users
    ensures !(confirmed && written) ==> r == Outcome(s, false)
  {
    if confirmed && written then Outcome(s.(current := None, authenticated := false), true) else Outcome(s, false)
  }

  /** Both starting accounts log in with their own credentials and no other pair of theirs. */
  lemma MockAccountsLogIn()
    ensures Login(Initial, "test@example.com", "test123", true).session.current == Some(MockUsers[0])
    ensures Login(Initial, "demo@voiceshield.ai", "demo123", true).session.current == Some(MockUsers[1])
    ensures !Login(Initial, "test@example.com", "demo123", true).ok
  {
    assert Matches(MockUsers[0], "test@example.com", "test123");
    assert Matches(MockUsers[1], "demo@voiceshield.ai", "demo123");
    assert !Matches(MockUsers[0], "demo@voiceshield.ai", "demo123");
  }
}

=== FILE: base.dfy ===
/** Failure-carrying datatypes and arithmetic helpers shared by every module of the model. */
module Base {

  /** A value that may be absent: JavaScript's `null`/`undefined`, Python's `None`. */
  datatype Option<+T> = None | Some(value: T) {

    /** The wrapped value, or `default` when absent (JavaScript's `x || default` on a present value). */
    function GetOr(default: T): T {
      match this
      case Some(v) => v
      case None => default
    }
  }

  /** Either a value or an error. */
  datatype Result<+T, +E> = Ok(value: T) | Err(error: E)

  /** Sum of a sequence of reals, folded from the left as `sum()` and `+=` loops do. */
  function SumReals(xs: seq<real>): real {
    if |xs| == 0 then 0.0 else SumReals(xs[..|xs| - 1]) + xs[|xs| - 1]
  }

  /** Every element of `xs` lies in `[lo, hi]`. */
  predicate AllWithin(xs: seq<real>, lo: real, hi: real) {
    forall i :: 0 <= i < |xs| ==> lo <= xs[i] <= hi
  }

  /** A sum of values each in `[lo, hi]` lies in `[n*lo, n*hi]`. */
  lemma {:induction false} SumRealsBounds(xs: seq<real>, lo: real, hi: real)
    requires AllWithin(xs, lo, hi)
    ensures |xs| as real * lo <= SumReals(xs) <= |xs| as real * hi
  {
    if |xs| > 0 {
      var init := xs[..|xs| - 1];
      assert AllWithin(init, lo, hi) by {
        forall i | 0 <= i < |init| ensures lo <= init[i] <= hi {
          assert init[i] == xs[i];
        }
      }
      SumRealsBounds(init, lo, hi);
      assert lo <= xs[|xs| - 1] <= hi;
    }
  }

  /** `a` is `b` with some elements left out, the rest in their original order. */
  ghost predicate IsSubsequence<T>(a: seq<T>, b: seq<T>) {
    if |a| == 0 then true
    else if |b| == 0 then false
    else if a[|a| - 1] == b[|b| - 1] then IsSubsequence(a[..|a| - 1], b[..|b| - 1])
    else IsSubsequence(a, b[..|b| - 1])
  }

  /** Every sequence is a subsequence of itself. */
  lemma {:induction false} SubsequenceRefl<T>(a: seq<T>)
    ensures IsSubsequence(a, a)
  {
    if |a| > 0 {
      SubsequenceRefl(a[..|a| - 1]);
    }
  }

  /** A subsequence of `b` stays one when `b` grows at the end. */
  lemma {:induction false} SubsequenceSnoc<T>(a: seq<T>, b: seq<T>, x: T)
    requires IsSubsequence(a, b)
    ensures IsSubsequence(a, b + [x])
    decreases |b|, 1
  {
    assert (b + [x])[..|b|] == b;
    if |a| > 0 && a[|a| - 1] == x {
      SubsequenceDropLast(a, b);
    }
  }

  /** Leaving out the last element of a subsequence keeps it a subsequence. */
  lemma {:induction false} SubsequenceDropLast<T>(a: seq<T>, b: seq<T>)
    requires |a| > 0 && IsSubsequence(a, b)
    ensures IsSubsequence(a[..|a| - 1], b)
    decreases |b|, 0
  {
    var b' := b[..|b| - 1];
    assert b == b' + [b[|b| - 1]];
    if a[|a| - 1] == b[|b| - 1] {
      SubsequenceSnoc(a[..|a| - 1], b', b[|b| - 1]);
    } else {
      SubsequenceDropLast(a, b');
      SubsequenceSnoc(a[..|a| - 1], b', b[|b| - 1]);
    }
  }

  /** A subsequence of a subsequence is a subsequence. */
  lemma {:induction false} SubsequenceTrans<T>(a: seq<T>, b: seq<T>, c: seq<T>)
    requires IsSubsequence(a, b) && IsSubsequence(b, c)
    ensures IsSubsequence(a, c)
    decreases |c|
  {
    if |a| > 0 {
      var c' := c[..|c| - 1];
      assert c == c' + [c[|c| - 1]];
      if b[|b| - 1] == c[|c| - 1] {
        if a[|a| - 1] == b[|b| - 1] {
          SubsequenceTrans(a[..|a| - 1], b[..|b| - 1], c');
        } else {
          SubsequenceTrans(a, b[..|b| - 1], c');
          SubsequenceSnoc(a, c', c[|c| - 1]);
        }
      } else {
        SubsequenceTrans(a, b, c');
        SubsequenceSnoc(a, c', c[|c| - 1]);
      }
    }
  }

  /** The first components of a sequence of pairs, in order. */
  function Firsts<A, B>(ps: seq<(A, B)>): (r: seq<A>)
    ensures |r| == |ps|
    ensures forall i :: 0 <= i < |ps| ==> r[i] == ps[i].0
  {
    if |ps| == 0 then [] else Firsts(ps[..|ps| - 1]) + [ps[|ps| - 1].0]
  }

  /** The elements of `xs` that satisfy `p`, in order and with their repetitions. */
  function Filter<T(!new)>(xs: seq<T>, p: T -> bool): (r: seq<T>)
    ensures IsSubsequence(r, xs)
    ensures |r| <= |xs|
    ensures forall x :: x in r <==> x in xs && p(x)
  {
    if |xs| == 0 then []
    else
      var prev := Filter(xs[..|xs| - 1], p);
      var x := xs[|xs| - 1];
      assert xs == xs[..|xs| - 1] + [x];
      if p(x) then
        assert (prev + [x])[..|prev|] == prev;
        prev + [x]
      else
        SubsequenceSnoc(prev, xs[..|xs| - 1], x);
        prev
  }

  /** Every element that passes the test is kept as often as it occurs; the others are all gone. */
  lemma {:induction false} FilterCounts<T(!new)>(xs: seq<T>, p: T -> bool)
    ensures forall x :: multiset(Filter(xs, p))[x] == if p(x) then multiset(xs)[x] else 0
  {
    if |xs| > 0 {
      var init, x := xs[..|xs| - 1], xs[|xs| - 1];
      FilterCounts(init, p);
      assert xs == init + [x];
      assert multiset(xs) == multiset(init) + multiset{x};
      if p(x) {
        assert multiset(Filter(xs, p)) == multiset(Filter(init, p)) + multiset{x};
      }
    }
  }

  /** No element occurs twice. */
  predicate NoDuplicates<T(==)>(xs: seq<T>) {
    forall i, j :: 0 <= i < j < |xs| ==> xs[i] != xs[j]
  }

  /** JavaScript's `a % m` for `m > 0`: the remainder takes the sign of `a` (truncating division). */
  function JsRem(a: int, m: int): (r: int)
    requires m > 0
    ensures a >= 0 ==> 0 <= r < m && r == a % m
    ensures a < 0 ==> -m < r <= 0
  {
    if a >= 0 then a % m else -((-a) % m)
  }

  /** The remainder is odd in the dividend: `(-a) % m` is `-(a % m)`, so the value for `a < 0` follows from the one for `-a`. */
  lemma JsRemOdd(a: int, m: int)
    requires m > 0
    ensures JsRem(-a, m) == -JsRem(a, m)
  {
  }

  /** The remainder differs from the dividend by a whole multiple of `m`, the quotient truncated toward zero. */
  lemma {:induction false} JsRemQuotient(a: int, m: int)
    requires m > 0
    ensures a - JsRem(a, m) == m * (if a >= 0 then a / m else -((-a) / m))
  {
    if a < 0 {
      assert -a == m * ((-a) / m) + (-a) % m;
    }
  }

  /** JavaScript's `Math.floor(a / m)` for `m > 0`, which is Dafny's Euclidean division. */
  function FloorDiv(a: int, m: int): (q: int)
    requires m > 0
    ensures q * m <= a < q * m + m
  {
    a / m
  }

  /** The values of `xs` without repetitions, in order of first appearance. */
  function DistinctInOrder<T(==,!new)>(xs: seq<T>): (r: seq<T>)
    ensures NoDuplicates(r)
    ensures forall x :: x in r <==> x in xs
  {
    if |xs| == 0 then []
    else
      var prev := DistinctInOrder(xs[..|xs| - 1]);
      assert xs == xs[..|xs| - 1] + [xs[|xs| - 1]];
      if xs[|xs| - 1] in prev then prev else prev + [xs[|xs| - 1]]
  }

  /** `x` occurs in `xs` before every occurrence of `y`. */
  predicate AppearsBefore<T(==)>(xs: seq<T>, x: T, y: T) {
    forall p :: 0 <= p < |xs| && xs[p] == y ==> x in xs[..p]
  }

  /** The distinct values are listed in order of their first appearance in `xs`. */
  lemma {:induction false} DistinctInOrderFirstAppearance<T(!new)>(xs: seq<T>)
    ensures forall i, j :: 0 <= i < j < |DistinctInOrder(xs)| ==>
      AppearsBefore(xs, DistinctInOrder(xs)[i], DistinctInOrder(xs)[j])
  {
    if |xs| > 0 {
      var init := xs[..|xs| - 1];
      var last := xs[|xs| - 1];
      var prev := DistinctInOrder(init);
      var r := DistinctInOrder(xs);
      DistinctInOrderFirstAppearance(init);
      assert r == if last in prev then prev else prev + [last];
      forall i, j | 0 <= i < j < |r|
        ensures AppearsBefore(xs, r[i], r[j])
      {
        assert r[i] in prev;
        forall p | 0 <= p < |xs| && xs[p] == r[j]
          ensures r[i] in xs[..p]
        {
          if p < |init| {
            assert init[p] == xs[p];
            assert r[j] in prev;
            assert j < |prev|;
            assert AppearsBefore(init, prev[i], prev[j]);
            assert init[..p] == xs[..p];
          } else {
            assert xs[..p] == init;
          }
        }
      }
    }
  }

  /** Removing repetitions never lengthens a sequence. */
  lemma {:induction false} DistinctInOrderLength<T(!new)>(xs: seq<T>)
    ensures |DistinctInOrder(xs)| <= |xs|
  {
    if |xs| > 0 {
      DistinctInOrderLength(xs[..|xs| - 1]);
    }
  }

  /** A sequence without repetitions is its own distinct-in-order view. */
  lemma {:induction false} DistinctOfDistinct<T(!new)>(xs: seq<T>)
    requires NoDuplicates(xs)
    ensures DistinctInOrder(xs) == xs
  {
    if |xs| > 0 {
      var init := xs[..|xs| - 1];
      DistinctOfDistinct(init);
      assert xs[|xs| - 1] !in init;
      assert init + [xs[|xs| - 1]] == xs;
    }
  }

  /**
   * Removing repetitions from `a + b`, where `a` has none, keeps `a` in front
   * and appends only values of `b`.
   */
  lemma {:induction false} DistinctAppend<T(!new)>(a: seq<T>, b: seq<T>)
    requires NoDuplicates(a)
    ensures |a| <= |DistinctInOrder(a + b)| && DistinctInOrder(a + b)[..|a|] == a
    ensures forall x :: x in DistinctInOrder(a + b)[|a|..] ==> x in b && x !in a
    decreases |b|
  {
    var r := DistinctInOrder(a + b);
    if |b| == 0 {
      assert a + b == a;
      DistinctOfDistinct(a);
    } else {
      var init := b[..|b| - 1];
      DistinctAppend(a, init);
      assert (a + b)[..|a + b| - 1] == a + init;
      var prev := DistinctInOrder(a + init);
      assert r == prev || r == prev + [b[|b| - 1]];
      assert r[..|a|] == prev[..|a|];
      forall x | x in r[|a|..]
        ensures x in b && x !in a
      {
        var i :| |a| <= i < |r| && r[i] == x;
        if i < |prev| {
          assert prev[|a|..][i - |a|] == x;
          assert x in init;
        } else {
          assert x == b[|b| - 1];
          assert x !in prev[..|a|];
        }
        assert x in init ==> x in b;
        assert forall j :: 0 <= j < |a| ==> a[j] == r[j] && r[j] != r[i];
      }
    }
  }
}

=== FILE: call_helpers.dfy ===
/**
 * The call screen's helpers: the `mm:ss` call timer, the hyphenated
 * phone number, the risk level for a confidence, and the call status line.
 */
module CallHelpers {
  import opened Base
  import opened Text

  /** `formatCallDuration`: `Math.floor(s / 60)` and `s % 60`, each padded to two digits, joined by a colon. */
  function FormatCallDuration(seconds: int): string {
    PadStart(IntToString(FloorDiv(seconds, 60)), 2, '0') + ":" + PadStart(IntToString(JsRem(seconds, 60)), 2, '0')
  }

  /**
   * For a non-negative count the timer reads back as the count: minutes of
   * at least two digits, a colon, and a two-digit seconds field below 60.
   */
  lemma CallDurationReadsBack(seconds: nat)
    ensures var r := FormatCallDuration(seconds);
      |r| >= 5 && r[|r| - 3] == ':' && ParseClock(r) == Some(seconds) &&
      AllDigits(r[..|r| - 3]) && AllDigits(r[|r| - 2..]) && ParseDigits(r[|r| - 2..]) < 60
  {
    var mins := PadStart(IntToString(FloorDiv(seconds, 60)), 2, '0');
    var secs := PadStart(IntToString(JsRem(seconds, 60)), 2, '0');
    ClockFields(seconds);
    assert FormatCallDuration(seconds) == mins + ":" + secs;
    ClockText(mins, secs, seconds);
  }

  /** The two fields of a non-negative call timer: minutes of at least two digits, seconds of two digits below 60. */
  lemma ClockFields(seconds: nat)
    ensures var mins := PadStart(IntToString(FloorDiv(seconds, 60)), 2, '0');
      var secs := PadStart(IntToString(JsRem(seconds, 60)), 2, '0');
      |secs| == 2 && |mins| >= 2 && AllDigits(mins) && AllDigits(secs) &&
      ParseDigits(secs) < 60 && ParseDigits(mins) * 60 + ParseDigits(secs) == seconds
  {
    var m, s := FloorDiv(seconds, 60), JsRem(seconds, 60);
    assert m >= 0 && 0 <= s < 60 && m * 60 + s == seconds;
    PadZeroParses(m);
    TwoDigitField(s);
  }

  /** `formatPhoneNumber` for a number whose digits are `c`: 3-4-4 for 11 digits, 3-3-4 for 10, else as given. */
  function FormatPhoneNumber(number: Option<string>): (r: string)
    ensures number.None? || number.value == "" ==> r == ""
    ensures number.Some? && |Digits(number.value)| == 11 ==>
      |r| == 13 && r[3] == '-' && r[8] == '-' && Digits(r) == Digits(number.value)
    ensures number.Some? && |Digits(number.value)| == 10 ==>
      |r| == 12 && r[3] == '-' && r[7] == '-' && Digits(r) == Digits(number.value)
    ensures number.Some? && number.value != "" && |Digits(number.value)| != 10 && |Digits(number.value)| != 11 ==>
      r == number.value
  {
    if number.None? || number.value == "" then ""
    else
      var c := Digits(number.value);
      if |c| == 11 then
        Hyphenated(c, 3, 7);
        c[..3] + "-" + c[3..7] + "-" + c[7..]
      else if |c| == 10 then
        Hyphenated(c, 3, 6);
        c[..3] + "-" + c[3..6] + "-" + c[6..]
      else number.value
  }

  /** Stripping non-digits from two texts joined by a hyphen strips each text. */
  lemma DigitsAroundHyphen(x: string, y: string)
    ensures Digits(x + "-" + y) == Digits(x) + Digits(y)
  {
    DigitsAppend(x + "-", y);
    DigitsAppend(x, "-");
    assert Digits("-") == "";
  }

  /** Three digit strings joined by hyphens strip back to their concatenation. */
  lemma DigitsOfHyphenated(a: string, b: string, d: string)
    requires AllDigits(a) && AllDigits(b) && AllDigits(d)
    ensures Digits(a + "-" + b + "-" + d) == a + b + d
  {
    DigitsAroundHyphen(a + "-" + b, d);
    DigitsAroundHyphen(a, b);
    DigitsOfDigits(a);
    DigitsOfDigits(b);
    DigitsOfDigits(d);
  }

  /** Hyphens put into a digit string at two cut points come out again under digit stripping. */
  lemma Hyphenated(c: string, i: nat, j: nat)
    requires AllDigits(c) && i <= j <= |c|
    ensures Digits(c[..i] + "-" + c[i..j] + "-" + c[j..]) == c
  {
    var a, b, d := c[..i], c[i..j], c[j..];
    assert AllDigits(a) && AllDigits(b) && AllDigits(d);
    DigitsOfHyphenated(a, b, d);
    assert a + b + d == c;
  }

  /** Formatting an already formatted number changes nothing. */
  lemma FormatPhoneIdempotent(number: Option<string>)
    ensures FormatPhoneNumber(Some(FormatPhoneNumber(number))) == FormatPhoneNumber(number)
  {
    var r := FormatPhoneNumber(number);
    if number.Some? && number.value != "" {
      var c := Digits(number.value);
      if |c| == 11 || |c| == 10 {
        assert r != "" && Digits(r) == c;
        if |c| == 11 {
          Hyphenated(c, 3, 7);
        } else {
          Hyphenated(c, 3, 6);
        }
      }
    }
  }

  /** The three risk levels, from lowest to highest. */
  datatype Risk = Safe | Warning | Danger

  /** The level's name in the app: 'safe', 'warning' or 'danger'. */
  function RiskName(level: Risk): string {
    match level
    case Safe => "safe"
    case Warning => "warning"
    case Danger => "danger"
  }

  function Rank(level: Risk): nat {
    match level
    case Safe => 0
    case Warning => 1
    case Danger => 2
  }

  /** `getRiskLevelFromConfidence`: danger above 70, warning above 40, else safe. */
  function RiskFromConfidence(confidence: real): (level: Risk)
    ensures level == Danger <==> confidence > 70.0
    ensures level == Warning <==> 40.0 < confidence <= 70.0
    ensures level == Safe <==> confidence <= 40.0
  {
    if confidence > 70.0 then Danger
    else if confidence > 40.0 then Warning
    else Safe
  }

  /** A higher confidence never gives a lower level. */
  lemma RiskMonotone(a: real, b: real)
    requires a <= b
    ensures Rank(RiskFromConfidence(a)) <= Rank(RiskFromConfidence(b))
  {
  }

  /** `getCallStatusText`: while ringing, incoming or outgoing; otherwise in call. */
  function CallStatusText(status: string, isIncoming: bool): (text: string)
    ensures status == "ringing" && isIncoming ==> text == "수신 중..."
    ensures status == "ringing" && !isIncoming ==> text == "발신 중..."
    ensures status != "ringing" ==> text == "통화 중"
  {
    if status == "ringing" then (if isIncoming then "수신 중..." else "발신 중...") else "통화 중"
  }

  /** The status line tells the three call phases apart: ringing in, ringing out, and connected. */
  lemma CallStatusDistinct(s1: string, in1: bool, s2: string, in2: bool)
    ensures CallStatusText(s1, in1) == CallStatusText(s2, in2) ==>
      (s1 == "ringing" <==> s2 == "ringing") && (s1 == "ringing" ==> in1 == in2)
  {
  }
}

=== FILE: chunk_analysis.dfy ===
/**
 * The app's analysis of one recorded chunk during live monitoring: the
 * upload name taken from the recording's uri, the merge of the server's
 * context risk score with its deepfake verdict, and the retry policy for
 * network failures.  Each fetch attempt's outcome is an input; the 15 s
 * abort timer and the one-second pause between attempts are not modelled.
 */
module ChunkAnalysis {
  import opened Base
  import opened Text

  /** The upload name: the uri's last '/'-segment, or "recording.m4a" when that is empty. */
  function UploadName(uri: string): (name: string)
    ensures |name| > 0 && '/' !in name
    ensures name == "recording.m4a" || (|name| <= |uri| && uri[|uri| - |name|..] == name)
    ensures name != "recording.m4a" ==> (|name| == |uri| || uri[|uri| - |name| - 1] == '/')
  {
    var last := LastSegment(uri, '/');
    if last == "" then
      assert forall i :: 0 <= i < |"recording.m4a"| ==> "recording.m4a"[i] != '/';
      "recording.m4a"
    else last
  }

  /** The `context` object of a server answer; absent fields are `None`. */
  datatype ServerContext = ServerContext(riskScore: Option<int>, detectedKeywords: Option<seq<string>>)

  /** A successful server answer. */
  datatype ServerResult = ServerResult(isDeepfake: bool, confidence: real, context: Option<ServerContext>)

  /** What one fetch attempt produced: a response (ok with its body, or not ok) or a thrown error. */
  datatype FetchOutcome = Answered(body: ServerResult) | NotOk(status: int) | Threw(name: string, message: string)

  /** What the chunk analysis returns to the monitor. */
  datatype ChunkResult = ChunkResult(riskScore: int, detectedKeywords: Option<seq<string>>, isDeepfake: bool,
                                     context: Option<ServerContext>)

  /** JavaScript truthiness of an optional number. */
  predicate Truthy(x: Option<int>) {
    x.Some? && x.value != 0
  }

  /** The context's risk score when it is present and non-zero, else 0. */
  function ContextRisk(ctx: Option<ServerContext>): (r: int)
    ensures ctx.Some? && Truthy(ctx.value.riskScore) ==> r == ctx.value.riskScore.value
    ensures !(ctx.Some? && Truthy(ctx.value.riskScore)) ==> r == 0
    ensures ctx.Some? ==> r == ctx.value.riskScore.GetOr(0)
    ensures ctx.None? ==> r == 0
  {
    if ctx.Some? && Truthy(ctx.value.riskScore) then ctx.value.riskScore.value else 0
  }

  /**
   * The merged risk score: the context's risk, raised to at least 90 when
   * the answer is a deepfake with confidence above 80.
   */
  function MergedRisk(res: ServerResult): (r: int)
    ensures r >= ContextRisk(res.context)
    ensures res.isDeepfake && res.confidence > 80.0 ==> r >= 90 && (r == 90 || r == ContextRisk(res.context))
    ensures !(res.isDeepfake && res.confidence > 80.0) ==> r == ContextRisk(res.context)
  {
    var risk := ContextRisk(res.context);
    if res.isDeepfake && res.confidence > 80.0 then (if risk >= 90 then risk else 90) else risk
  }

  /** The result handed to the monitor for an ok answer. */
  function ChunkOf(res: ServerResult): (c: ChunkResult)
    ensures c.riskScore == MergedRisk(res) && c.isDeepfake == res.isDeepfake && c.context == res.context
    ensures res.context.None? ==> c.detectedKeywords == Some([])
    ensures res.context.Some? ==> c.detectedKeywords == res.context.value.detectedKeywords
  {
    ChunkResult(MergedRisk(res), if res.context.Some? then res.context.value.detectedKeywords else Some([]), res.isDeepfake, res.context)
  }

  /** Errors worth another attempt: an abort (the timeout) or React Native's network failure. */
  predicate Retryable(o: FetchOutcome) {
    o.Threw? && (o.name == "AbortError" || Contains(o.message, "Network request failed"))
  }

  /** The chunk analysis' outcome and how many fetch attempts it made. */
  datatype Run = Run(result: Option<ChunkResult>, attempts: nat)

  /**
   * `analyzeAudioChunk(uri, retryCount)`: attempt number `retryCount`; a
   * retryable error while `retryCount < 2` tries again, any other failure
   * gives `null`.
   */
  function AnalyzeChunk(attempt: nat -> FetchOutcome, retryCount: nat): (r: Run)
    ensures 1 <= r.attempts
    ensures retryCount <= 2 ==> r.attempts <= 3 - retryCount
    ensures retryCount >= 2 ==> r.attempts == 1
    ensures forall n :: retryCount <= n < retryCount + r.attempts - 1 ==> Retryable(attempt(n))
    ensures r.result.Some? <==> attempt(retryCount + r.attempts - 1).Answered?
    ensures r.result.Some? ==> r.result.value == ChunkOf(attempt(retryCount + r.attempts - 1).body)
    ensures Retryable(attempt(retryCount + r.attempts - 1)) ==> retryCount + r.attempts - 1 >= 2
    decreases if retryCount < 2 then 2 - retryCount else 0
  {
    match attempt(retryCount)
    case Answered(body) => Run(Some(ChunkOf(body)), 1)
    case NotOk(_) => Run(None, 1)
    case Threw(_, _) =>
      if Retryable(attempt(retryCount)) && retryCount < 2 then
        var rest := AnalyzeChunk(attempt, retryCount + 1);
        Run(rest.result, rest.attempts + 1)
      else Run(None, 1)
  }

  /** A timed-out first attempt is retried, and an answer to the second one is the result. */
  lemma AbortThenAnswer(attempt: nat -> FetchOutcome, body: ServerResult)
    requires attempt(0) == Threw("AbortError", "") && attempt(1) == Answered(body)
    ensures AnalyzeChunk(attempt, 0) == Run(Some(ChunkOf(body)), 2)
  {
  }

  /** From the default `retryCount = 0` a chunk is fetched at most three times. */
  lemma AtMostThreeAttempts(attempt: nat -> FetchOutcome)
    ensures 1 <= AnalyzeChunk(attempt, 0).attempts <= 3
  {
  }

  /** A response that is not ok ends the analysis at once: no retry, no result. */
  lemma NotOkNoRetry(attempt: nat -> FetchOutcome, retryCount: nat)
    requires attempt(retryCount).NotOk?
    ensures AnalyzeChunk(attempt, retryCount) == Run(None, 1)
  {
  }
}

=== FILE: context_scoring.dfy ===
/**
 * The transcript scoring of the analysis server: a fixed dictionary of
 * Korean voice-phishing keywords with weights, the risk score derived from
 * the keywords a transcript contains, the summary length parameters, and
 * the fall-back results when speech recognition fails.  The transcript and
 * the summariser are inputs.
 */
module ContextScoring {
  import opened Base
  import opened Text

  /** A dictionary entry: keyword and weight. */
  type Entry = (string, nat)

  /** The keyword dictionary, in its insertion order. */
  function Keywords(): (k: seq<Entry>)
    ensures |k| == 16
  {
    [("검찰", 10), ("송금", 10), ("계좌", 5), ("비밀번호", 8), ("보안", 5),
     ("대출", 5), ("신용", 5), ("가족", 3), ("납치", 10), ("사고", 5),
     ("상품권", 8), ("기프트카드", 8), ("어플", 5), ("설치", 5),
     ("엄마", 2), ("아빠", 2)]
  }

  function WeightSum(entries: seq<Entry>): nat {
    if |entries| == 0 then 0 else WeightSum(entries[..|entries| - 1]) + entries[|entries| - 1].1
  }

  /**
   * The scoring loop: the dictionary entries whose keyword occurs in the
   * text, in dictionary order.
   */
  function Matches(text: string, entries: seq<Entry>): (hits: seq<Entry>)
    ensures IsSubsequence(hits, entries)
    ensures forall e :: e in hits <==> e in entries && Contains(text, e.0)
  {
    if |entries| == 0 then []
    else
      var e := entries[|entries| - 1];
      var init := entries[..|entries| - 1];
      var prev := Matches(text, init);
      assert entries == init + [e];
      if Contains(text, e.0) then
        assert (prev + [e])[..|prev|] == prev;
        prev + [e]
      else
        SubsequenceSnoc(prev, init, e);
        prev
  }

  /** The keywords reported are exactly the dictionary's keywords the text contains. */
  lemma {:induction false} MatchedWords(text: string, entries: seq<Entry>)
    ensures forall w :: w in Firsts(Matches(text, entries)) <==> w in Firsts(entries) && Contains(text, w)
  {
    if |entries| > 0 {
      var e := entries[|entries| - 1];
      var init := entries[..|entries| - 1];
      var prev := Matches(text, init);
      MatchedWords(text, init);
      assert entries == init + [e];
      assert Firsts(entries) == Firsts(init) + [e.0];
      if Contains(text, e.0) {
        MatchesKeep(text, entries);
      } else {
        MatchesDrop(text, entries);
      }
    }
  }

  /** A dictionary that lists each keyword once reports each detected keyword once. */
  lemma {:induction false} MatchedWordsOnce(text: string, entries: seq<Entry>)
    requires NoDuplicates(Firsts(entries))
    ensures NoDuplicates(Firsts(Matches(text, entries)))
  {
    if |entries| > 0 {
      var e := entries[|entries| - 1];
      var init := entries[..|entries| - 1];
      var prev := Matches(text, init);
      assert entries == init + [e];
      assert Firsts(entries) == Firsts(init) + [e.0];
      assert Firsts(entries)[..|init|] == Firsts(init);
      MatchedWordsOnce(text, init);
      if Contains(text, e.0) {
        MatchesKeep(text, entries);
        MatchedWords(text, init);
        assert e.0 !in Firsts(init);
        assert e.0 !in Firsts(prev);
      } else {
        MatchesDrop(text, entries);
      }
    }
  }

  /** The last entry is kept when the text contains its keyword... */
  lemma MatchesKeep(text: string, entries: seq<Entry>)
    requires |entries| > 0 && Contains(text, entries[|entries| - 1].0)
    ensures var prev := Matches(text, entries[..|entries| - 1]);
      Firsts(Matches(text, entries)) == Firsts(prev) + [entries[|entries| - 1].0]
  {
    var prev := Matches(text, entries[..|entries| - 1]);
    var e := entries[|entries| - 1];
    assert (prev + [e])[..|prev|] == prev;
  }

  /** ...and dropped otherwise. */
  lemma MatchesDrop(text: string, entries: seq<Entry>)
    requires |entries| > 0 && !Contains(text, entries[|entries| - 1].0)
    ensures Matches(text, entries) == Matches(text, entries[..|entries| - 1])
  {
  }

  /** The risk score: five points per unit of matched weight, capped at 100. */
  function RiskScore(text: string): (r: nat)
    ensures r <= 100
    ensures r == 100 <==> WeightSum(Matches(text, Keywords())) >= 20
    ensures r < 100 ==> r == 5 * WeightSum(Matches(text, Keywords()))
  {
    var score := WeightSum(Matches(text, Keywords()));
    if score * 5 < 100 then score * 5 else 100
  }

  /** A text containing no keyword has risk 0 and no detected keywords. */
  lemma {:induction false} NoKeywordNoRisk(text: string, entries: seq<Entry>)
    requires forall i :: 0 <= i < |entries| ==> !Contains(text, entries[i].0)
    ensures Matches(text, entries) == []
    ensures WeightSum(Matches(text, entries)) == 0
  {
    if |entries| > 0 {
      NoKeywordNoRisk(text, entries[..|entries| - 1]);
    }
  }

  /** What the speech recogniser produced. */
  datatype Recognition = Transcribed(text: string) | NotUnderstood | Failed

  datatype ContextResult = ContextResult(text: string, summary: string, detectedKeywords: seq<string>, riskScore: nat)

  /** The summariser's length bounds for a transcript of `n` characters. */
  function SummaryBounds(n: nat): (b: (nat, nat))
    ensures n > 50 ==> 25 <= b.0 <= 100 && 12 <= b.1 <= 20 && b.1 < b.0
  {
    (if n / 2 < 100 then n / 2 else 100, if n / 4 < 20 then n / 4 else 20)
  }

  /**
   * The summary: the summariser's output for transcripts longer than 50
   * characters when it is loaded (its first 100 characters and "..." when it
   * fails), the transcript itself otherwise.
   */
  function Summary(text: string, loaded: bool, summarize: (string, nat, nat) -> Option<string>): (s: string)
    ensures !(|text| > 50 && loaded) ==> s == text
    ensures |text| > 50 && loaded && summarize(text, SummaryBounds(|text|).0, SummaryBounds(|text|).1).None? ==>
      s == (if |text| <= 100 then text else text[..100]) + "..."
    ensures |text| > 50 && loaded && summarize(text, SummaryBounds(|text|).0, SummaryBounds(|text|).1).Some? ==>
      s == summarize(text, SummaryBounds(|text|).0, SummaryBounds(|text|).1).value
  {
    if |text| > 50 && loaded then
      var b := SummaryBounds(|text|);
      match summarize(text, b.0, b.1)
      case Some(out) => out
      case None => (if |text| <= 100 then text else text[..100]) + "..."
    else text
  }

  /** The context analysis of one upload. */
  function AnalyzeContext(rec: Recognition, loaded: bool, summarize: (string, nat, nat) -> Option<string>): (r: ContextResult)
    ensures r.riskScore <= 100
    ensures rec.NotUnderstood? ==> r == ContextResult("(음성 인식 실패)", "", [], 0)
    ensures rec.Failed? ==> r == ContextResult("(분석 오류)", "", [], 0)
    ensures rec.Transcribed? ==> r.text == rec.text
    ensures rec.Transcribed? ==> forall w :: w in r.detectedKeywords <==> w in Firsts(Keywords()) && Contains(rec.text, w)
    ensures rec.Transcribed? ==> r.detectedKeywords == Firsts(Matches(rec.text, Keywords()))
    ensures rec.Transcribed? ==> r.riskScore == RiskScore(rec.text) && r.summary == Summary(rec.text, loaded, summarize)
  {
    match rec
    case NotUnderstood => ContextResult("(음성 인식 실패)", "", [], 0)
    case Failed => ContextResult("(분석 오류)", "", [], 0)
    case Transcribed(text) =>
      var hits := Matches(text, Keywords());
      MatchedWords(text, Keywords());
      ContextResult(text, Summary(text, loaded, summarize), Firsts(hits), RiskScore(text))
  }

  /** The dictionary keywords are pairwise different, so each detected keyword is listed once. */
  lemma DetectedOnce(text: string)
    ensures NoDuplicates(Firsts(Matches(text, Keywords())))
  {
    KeywordsDistinct();
    MatchedWordsOnce(text, Keywords());
  }

  lemma KeywordsDistinct()
    ensures NoDuplicates(Firsts(Keywords()))
  {
    var k := Keywords();
    var firsts := "검송계비보대신가납사상기어설엄아";
    assert NoDuplicates(firsts);
    forall i | 0 <= i < 16 ensures |k[i].0| > 0 && k[i].0[0] == firsts[i] {
    }
    forall i, j | 0 <= i < j < 16 ensures k[i].0 != k[j].0 {
      assert k[i].0[0] == firsts[i] && k[j].0[0] == firsts[j];
    }
  }
}

=== FILE: diarization.dfy ===
/**
 * Speaker diarization on the analysis server: speech segments found by
 * voice-activity detection are cut from the 16 kHz waveform, segments
 * shorter than half a second are dropped, the rest are clustered, and the
 * segments are grouped per cluster label into speakers "Speaker 1",
 * "Speaker 2", ... in order of first appearance.  The detector's
 * timestamps, the clustering and the demographic classifier are inputs.
 */
module Diarization {
  import opened Base
  import opened Text
  import opened AgeGender

  /** The waveform is resampled to this rate before detection. */
  const SampleRate: nat := 16000
  /** Segments with fewer samples (half a second) are skipped. */
  const MinSegmentSamples: nat := 8000

  /** A detected speech span, in samples. */
  datatype Timestamp = Timestamp(start: nat, end: nat)

  /** A kept segment: its span in seconds and its samples. */
  datatype Segment = Segment(start: real, end: real, audio: seq<real>)

  /** Python's clamped slice `wav[start:end]`. */
  function Slice(wav: seq<real>, start: nat, end: nat): (r: seq<real>)
    ensures |r| <= |wav|
    ensures start <= end <= |wav| ==> r == wav[start..end]
    ensures start <= |wav| <= end ==> r == wav[start..]
    ensures (end <= start || |wav| <= start) ==> r == []
  {
    var lo := if start < |wav| then start else |wav|;
    var hi := if end < |wav| then end else |wav|;
    if lo <= hi then wav[lo..hi] else []
  }

  function SegmentOf(wav: seq<real>, t: Timestamp): Segment {
    Segment(t.start as real / SampleRate as real, t.end as real / SampleRate as real, Slice(wav, t.start, t.end))
  }

  /** Every detected span cut from the waveform, long or short. */
  function Candidates(wav: seq<real>, ts: seq<Timestamp>): (cs: seq<Segment>)
    ensures |cs| == |ts|
    ensures forall i :: 0 <= i < |ts| ==> cs[i] == SegmentOf(wav, ts[i])
  {
    seq(|ts|, i requires 0 <= i < |ts| => SegmentOf(wav, ts[i]))
  }

  /** A segment of at least half a second. */
  predicate LongEnough(s: Segment) { |s.audio| >= MinSegmentSamples }

  /** The segments that are long enough to embed, in detection order. */
  function Segments(wav: seq<real>, ts: seq<Timestamp>): (segs: seq<Segment>)
    ensures |segs| <= |ts|
    ensures segs == Filter(Candidates(wav, ts), LongEnough)
    ensures forall s :: s in segs <==> s in Candidates(wav, ts) && |s.audio| >= MinSegmentSamples
  {
    if |ts| == 0 then []
    else
      var init := ts[..|ts| - 1];
      var prev := Segments(wav, init);
      var s := SegmentOf(wav, ts[|ts| - 1]);
      var cs := Candidates(wav, ts);
      assert cs[..|ts| - 1] == Candidates(wav, init) && cs[|ts| - 1] == s;
      assert Filter(cs, LongEnough) == if LongEnough(s) then prev + [s] else prev;
      if |s.audio| < MinSegmentSamples then prev else prev + [s]
  }

  /**
   * The number of clusters: the requested number, or without a request 2
   * when there are at least four segments and 1 otherwise; never more than
   * the number of segments.
   */
  function NClusters(numSpeakers: Option<int>, n: nat): (k: int)
    ensures k <= n
    ensures numSpeakers.None? && n >= 1 ==> 1 <= k <= 2
    ensures numSpeakers.None? && n >= 4 ==> k == 2
    ensures numSpeakers.Some? && numSpeakers.value <= n ==> k == numSpeakers.value
    ensures numSpeakers.Some? && numSpeakers.value > n ==> k == n
  {
    var k := if numSpeakers.None? then (if n >= 4 then 2 else 1) else numSpeakers.value;
    if n < k then n else k
  }

  /** The display name of cluster `label`: labels count from 0, speakers from 1. */
  function SpeakerId(cl: nat): (id: string)
    ensures |id| > 8 && id[..8] == "Speaker "
  {
    "Speaker " + NatToString(cl + 1)
  }

  /** Different clusters get different names. */
  lemma SpeakerIdInjective(a: nat, b: nat)
    ensures SpeakerId(a) == SpeakerId(b) ==> a == b
  {
    if SpeakerId(a) == SpeakerId(b) {
      SpeakerIdNumber(a);
      SpeakerIdNumber(b);
    }
  }

  /** The number after "Speaker " reads back as the cluster label plus one. */
  lemma SpeakerIdNumber(cl: nat)
    ensures ParseDigits(SpeakerId(cl)[8..]) == cl + 1
  {
    var digits := NatToString(cl + 1);
    assert SpeakerId(cl)[8..] == digits;
    ParseNatToString(cl + 1);
  }

  function Duration(s: Segment): real { s.end - s.start }

  /** The sum of the durations of `segs`. */
  function TotalDuration(segs: seq<Segment>): real {
    if |segs| == 0 then 0.0 else TotalDuration(segs[..|segs| - 1]) + Duration(segs[|segs| - 1])
  }

  /** One entry of the grouping dictionary. */
  datatype Group = Group(id: string, segments: seq<Segment>, total: real)

  function IdsOf(groups: seq<Group>): (ids: seq<string>)
    ensures |ids| == |groups|
    ensures forall k :: 0 <= k < |groups| ==> ids[k] == groups[k].id
  {
    seq(|groups|, i requires 0 <= i < |groups| => groups[i].id)
  }

  /** The position of the first `id` in `ids`. */
  function IndexOf(ids: seq<string>, id: string): (k: nat)
    requires id in ids
    ensures k < |ids| && ids[k] == id
    ensures forall j :: 0 <= j < k ==> ids[j] != id
  {
    if ids[0] == id then 0 else 1 + IndexOf(ids[1..], id)
  }

  /** Adding a segment under `id`: extend the existing entry, or create one at the end. */
  function AddTo(groups: seq<Group>, id: string, seg: Segment): (r: seq<Group>)
    ensures IdsOf(r) == if id in IdsOf(groups) then IdsOf(groups) else IdsOf(groups) + [id]
    ensures id !in IdsOf(groups) ==> r[|groups|] == Group(id, [seg], Duration(seg))
    ensures forall k :: 0 <= k < |groups| ==> |r[k].segments| >= |groups[k].segments|
    ensures NoDuplicates(IdsOf(groups)) ==> forall k :: 0 <= k < |groups| ==>
      r[k] == (if groups[k].id == id
               then Group(id, groups[k].segments + [seg], groups[k].total + Duration(seg))
               else groups[k])
  {
    var ids := IdsOf(groups);
    if id in ids then
      var k := IndexOf(ids, id);
      var r := groups[k := Group(id, groups[k].segments + [seg], groups[k].total + Duration(seg))];
      assert forall j :: 0 <= j < |r| ==> IdsOf(r)[j] == ids[j];
      r
    else
      var r := groups + [Group(id, [seg], Duration(seg))];
      assert forall j :: 0 <= j < |groups| ==> IdsOf(r)[j] == ids[j];
      r
  }

  /** The grouping loop over (speaker id, segment) pairs. */
  function GroupAll(pairs: seq<(string, Segment)>): seq<Group> {
    if |pairs| == 0 then []
    else
      var last := pairs[|pairs| - 1];
      AddTo(GroupAll(pairs[..|pairs| - 1]), last.0, last.1)
  }

  /** The segments paired with `id`, in order. */
  function SegsWith(pairs: seq<(string, Segment)>, id: string): (segs: seq<Segment>)
    ensures forall s :: s in segs ==> (id, s) in pairs
  {
    if |pairs| == 0 then []
    else
      var prev := SegsWith(pairs[..|pairs| - 1], id);
      assert forall p :: p in pairs[..|pairs| - 1] ==> p in pairs;
      if pairs[|pairs| - 1].0 == id then prev + [pairs[|pairs| - 1].1] else prev
  }

  /** The groups are the distinct ids, in order of first appearance. */
  lemma {:induction false} GroupIds(pairs: seq<(string, Segment)>)
    ensures IdsOf(GroupAll(pairs)) == DistinctInOrder(Firsts(pairs))
  {
    if |pairs| > 0 {
      var init := pairs[..|pairs| - 1];
      GroupIds(init);
      assert Firsts(pairs)[..|pairs| - 1] == Firsts(init);
    }
  }

  /** A group agrees with the pairs: it holds exactly the segments paired with its id, and their total duration. */
  predicate Agrees(pairs: seq<(string, Segment)>, g: Group) {
    g.segments == SegsWith(pairs, g.id) && g.total == TotalDuration(g.segments)
  }

  /**
   * The grouping computes the declarative description: one group per
   * distinct id in order of first appearance, holding exactly the segments
   * paired with that id, in order, and their total duration.
   */
  lemma {:induction false} GroupAllSpec(pairs: seq<(string, Segment)>)
    ensures IdsOf(GroupAll(pairs)) == DistinctInOrder(Firsts(pairs))
    ensures forall k :: 0 <= k < |GroupAll(pairs)| ==> Agrees(pairs, GroupAll(pairs)[k])
  {
    GroupIds(pairs);
    if |pairs| > 0 {
      var init := pairs[..|pairs| - 1];
      var (id, seg) := pairs[|pairs| - 1];
      GroupAllSpec(init);
      assert GroupAll(pairs) == AddTo(GroupAll(init), id, seg);
      assert init + [(id, seg)] == pairs;
      GroupAllStep(GroupAll(init), init, id, seg);
    }
  }

  /** Adding one pair to groups that agree with the earlier pairs gives groups that agree with all of them. */
  lemma GroupAllStep(g0: seq<Group>, init: seq<(string, Segment)>, id: string, seg: Segment)
    requires IdsOf(g0) == DistinctInOrder(Firsts(init))
    requires forall k :: 0 <= k < |g0| ==> Agrees(init, g0[k])
    ensures forall k :: 0 <= k < |AddTo(g0, id, seg)| ==> Agrees(init + [(id, seg)], AddTo(g0, id, seg)[k])
  {
    var g := AddTo(g0, id, seg);
    forall k | 0 <= k < |g|
      ensures Agrees(init + [(id, seg)], g[k])
    {
      if k < |g0| {
        GroupStep(g0, init, id, seg, k);
      } else {
        GroupNew(g0, init, id, seg);
      }
    }
  }

  /** A new group holds the one segment just added. */
  lemma GroupNew(g0: seq<Group>, init: seq<(string, Segment)>, id: string, seg: Segment)
    requires IdsOf(g0) == DistinctInOrder(Firsts(init)) && id !in IdsOf(g0)
    ensures Agrees(init + [(id, seg)], AddTo(g0, id, seg)[|g0|])
  {
    SegsWithAbsent(init, id);
    SegsWithSnoc(init, id, seg);
    assert [seg][..0] == [];
  }

  /** One step of the grouping keeps an existing group in agreement with the declarative description. */
  lemma GroupStep(g0: seq<Group>, init: seq<(string, Segment)>, id: string, seg: Segment, k: nat)
    requires NoDuplicates(IdsOf(g0)) && k < |g0|
    requires Agrees(init, g0[k])
    ensures Agrees(init + [(id, seg)], AddTo(g0, id, seg)[k])
  {
    var g := g0[k];
    if g.id == id {
      AddToSame(g0, id, seg, k);
      SegsWithSnoc(init, id, seg);
      TotalDurationSnoc(g.segments, seg);
    } else {
      AddToOther(g0, id, seg, k);
      SegsWithOther(init, g.id, id, seg);
    }
  }

  /** The group with the added id gains the segment and its duration... */
  lemma AddToSame(g0: seq<Group>, id: string, seg: Segment, k: nat)
    requires NoDuplicates(IdsOf(g0)) && k < |g0| && g0[k].id == id
    ensures AddTo(g0, id, seg)[k] == Group(id, g0[k].segments + [seg], g0[k].total + Duration(seg))
  {
  }

  /** ...and every other group stays as it was. */
  lemma AddToOther(g0: seq<Group>, id: string, seg: Segment, k: nat)
    requires NoDuplicates(IdsOf(g0)) && k < |g0| && g0[k].id != id
    ensures AddTo(g0, id, seg)[k] == g0[k]
  {
  }

  /** A pair under `id` adds its segment to the end of `id`'s segments... */
  lemma SegsWithSnoc(init: seq<(string, Segment)>, id: string, seg: Segment)
    ensures SegsWith(init + [(id, seg)], id) == SegsWith(init, id) + [seg]
  {
    var pairs := init + [(id, seg)];
    assert pairs[..|pairs| - 1] == init;
  }

  /** ...and leaves every other id's segments as they were. */
  lemma SegsWithOther(init: seq<(string, Segment)>, id: string, other: string, seg: Segment)
    requires other != id
    ensures SegsWith(init + [(other, seg)], id) == SegsWith(init, id)
  {
    var pairs := init + [(other, seg)];
    assert pairs[..|pairs| - 1] == init;
  }

  lemma TotalDurationSnoc(segs: seq<Segment>, seg: Segment)
    ensures TotalDuration(segs + [seg]) == TotalDuration(segs) + Duration(seg)
  {
    assert (segs + [seg])[..|segs|] == segs;
  }

  /** An id that is paired with nothing has no segments. */
  lemma {:induction false} SegsWithAbsent(pairs: seq<(string, Segment)>, id: string)
    requires id !in Firsts(pairs)
    ensures SegsWith(pairs, id) == []
  {
    if |pairs| > 0 {
      var init := pairs[..|pairs| - 1];
      assert Firsts(pairs)[..|pairs| - 1] == Firsts(init);
      assert Firsts(pairs)[|pairs| - 1] == pairs[|pairs| - 1].0;
      SegsWithAbsent(init, id);
    }
  }

  /** Each cluster label paired with its segment; labels beyond the segments are not paired. */
  function Pair(labels: seq<nat>, segs: seq<Segment>): (pairs: seq<(string, Segment)>)
    requires |labels| <= |segs|
    ensures |pairs| == |labels|
    ensures forall i :: 0 <= i < |labels| ==> pairs[i] == (SpeakerId(labels[i]), segs[i])
  {
    seq(|labels|, i requires 0 <= i < |labels| => (SpeakerId(labels[i]), segs[i]))
  }

  function Audios(segs: seq<Segment>): (a: seq<seq<real>>)
    ensures |a| == |segs|
    ensures forall i :: 0 <= i < |segs| ==> a[i] == segs[i].audio
  {
    seq(|segs|, i requires 0 <= i < |segs| => segs[i].audio)
  }

  /** All samples of a speaker's segments, in order. */
  function JoinAudio(segs: seq<Segment>): seq<real> {
    if |segs| == 0 then [] else JoinAudio(segs[..|segs| - 1]) + segs[|segs| - 1].audio
  }

  datatype SpeakerSummary = SpeakerSummary(id: string, duration: real, demographics: Option<Demographics>, segments: seq<(real, real)>)

  /** The (start, end) spans of segments, in order. */
  function Spans(segs: seq<Segment>): (spans: seq<(real, real)>)
    ensures |spans| == |segs|
    ensures forall i :: 0 <= i < |segs| ==> spans[i] == (segs[i].start, segs[i].end)
  {
    seq(|segs|, i requires 0 <= i < |segs| => (segs[i].start, segs[i].end))
  }

  function Summarize(g: Group, demographics: seq<real> -> Option<Demographics>): (s: SpeakerSummary)
    ensures s.id == g.id && s.duration == g.total && s.segments == Spans(g.segments)
  {
    SpeakerSummary(g.id, g.total, demographics(JoinAudio(g.segments)), Spans(g.segments))
  }

  /** The speaker name of each cluster label, in order. */
  function LabelNames(labels: seq<nat>): (ids: seq<string>)
    ensures |ids| == |labels|
    ensures forall i :: 0 <= i < |labels| ==> ids[i] == SpeakerId(labels[i])
  {
    seq(|labels|, i requires 0 <= i < |labels| => SpeakerId(labels[i]))
  }

  /**
   * A reported speaker describes `segs`, the segments clustered under its
   * name: their spans in order, their summed duration, and the
   * demographics of their joined samples.
   */
  predicate Describes(s: SpeakerSummary, segs: seq<Segment>, demographics: seq<real> -> Option<Demographics>) {
    s.segments == Spans(segs) && s.duration == TotalDuration(segs) && s.demographics == demographics(JoinAudio(segs))
  }

  function SpeakerIds(xs: seq<SpeakerSummary>): (ids: seq<string>)
    ensures |ids| == |xs|
    ensures forall i :: 0 <= i < |xs| ==> ids[i] == xs[i].id
  {
    seq(|xs|, i requires 0 <= i < |xs| => xs[i].id)
  }

  /**
   * The diarization of one upload.  `None` when the speaker model is not
   * loaded, the waveform could not be loaded, the clustering raised, or it
   * returned more labels than segments.  `cluster` receives the segments'
   * samples and the number of clusters.
   */
  function Diarize(modelLoaded: bool, wav: Option<seq<real>>, timestamps: seq<Timestamp>, numSpeakers: Option<int>,
                   cluster: (seq<seq<real>>, nat) -> Option<seq<nat>>,
                   demographics: seq<real> -> Option<Demographics>): (r: Option<seq<SpeakerSummary>>)
    ensures !modelLoaded || wav.None? ==> r.None?
    ensures modelLoaded && wav.Some? && |timestamps| == 0 ==> r == Some([])
    ensures modelLoaded && wav.Some? && |Segments(wav.value, timestamps)| == 0 ==> r == Some([])
    ensures modelLoaded && wav.Some? && |Segments(wav.value, timestamps)| > 0 ==>
      var segs := Segments(wav.value, timestamps);
      var k := NClusters(numSpeakers, |segs|);
      (r.Some? <==> k >= 1 && cluster(Audios(segs), k).Some? && |cluster(Audios(segs), k).value| <= |segs|) &&
      (r.Some? ==> r.value == Speakers(cluster(Audios(segs), k).value, segs, demographics))
    ensures r.Some? ==> |r.value| <= |timestamps|
    ensures r.Some? ==> NoDuplicates(SpeakerIds(r.value))
    ensures r.Some? ==> forall i :: 0 <= i < |r.value| ==> |r.value[i].id| > 8 && r.value[i].id[..8] == "Speaker "
    ensures r.Some? ==> forall i :: 0 <= i < |r.value| ==> |r.value[i].segments| > 0
  {
    if !modelLoaded || wav.None? then None
    else if |timestamps| == 0 then Some([])
    else
      var segs := Segments(wav.value, timestamps);
      if |segs| == 0 then Some([])
      else
        var k := NClusters(numSpeakers, |segs|);
        if k < 1 then None
        else match cluster(Audios(segs), k)
          case None => None
          case Some(labels) =>
            if |labels| > |segs| then None
            else Some(Speakers(labels, segs, demographics))
  }

  /** The per-speaker results for the clustered segments, in order of first appearance of each label. */
  function Speakers(labels: seq<nat>, segs: seq<Segment>, demographics: seq<real> -> Option<Demographics>): (out: seq<SpeakerSummary>)
    requires |labels| <= |segs|
    ensures SpeakerIds(out) == DistinctInOrder(LabelNames(labels))
    ensures forall k :: 0 <= k < |out| ==> Describes(out[k], SegsWith(Pair(labels, segs), out[k].id), demographics)
    ensures |out| <= |labels| && (|labels| > 0 ==> |out| > 0)
    ensures NoDuplicates(SpeakerIds(out))
    ensures forall i :: 0 <= i < |out| ==> |out[i].id| > 8 && out[i].id[..8] == "Speaker "
    ensures forall i :: 0 <= i < |out| ==> |out[i].segments| > 0
  {
    var out := SummarizeAll(GroupAll(Pair(labels, segs)), demographics);
    SpeakersIds(labels, segs, demographics);
    SummariesDescribe(Pair(labels, segs), demographics);
    SpeakersShape(labels, segs, demographics);
    out
  }

  /** The reported speakers are the labels' names in order of first appearance. */
  lemma SpeakersIds(labels: seq<nat>, segs: seq<Segment>, demographics: seq<real> -> Option<Demographics>)
    requires |labels| <= |segs|
    ensures SpeakerIds(SummarizeAll(GroupAll(Pair(labels, segs)), demographics)) == DistinctInOrder(LabelNames(labels))
  {
    var pairs := Pair(labels, segs);
    assert Firsts(pairs) == LabelNames(labels);
    GroupIds(pairs);
    assert SpeakerIds(SummarizeAll(GroupAll(pairs), demographics)) == IdsOf(GroupAll(pairs));
  }

  /** There is a speaker per distinct label, each named after a cluster and holding at least one segment. */
  lemma SpeakersShape(labels: seq<nat>, segs: seq<Segment>, demographics: seq<real> -> Option<Demographics>)
    requires |labels| <= |segs|
    ensures var out := SummarizeAll(GroupAll(Pair(labels, segs)), demographics);
      && |out| <= |labels| && (|labels| > 0 ==> |out| > 0)
      && (forall i :: 0 <= i < |out| ==> |out[i].id| > 8 && out[i].id[..8] == "Speaker ")
      && (forall i :: 0 <= i < |out| ==> |out[i].segments| > 0)
  {
    var pairs := Pair(labels, segs);
    var groups := GroupAll(pairs);
    assert Firsts(pairs) == LabelNames(labels);
    GroupIds(pairs);
    assert |labels| > 0 ==> LabelNames(labels)[0] in DistinctInOrder(LabelNames(labels));
    GroupsNonEmpty(pairs);
    GroupIdsNamed(labels, segs);
    DistinctInOrderLength(Firsts(pairs));
    assert |groups| == |IdsOf(groups)| <= |labels|;
  }

  function SummarizeAll(groups: seq<Group>, demographics: seq<real> -> Option<Demographics>): (out: seq<SpeakerSummary>)
    ensures |out| == |groups|
    ensures forall i :: 0 <= i < |groups| ==> out[i] == Summarize(groups[i], demographics)
  {
    seq(|groups|, i requires 0 <= i < |groups| => Summarize(groups[i], demographics))
  }

  /** The summary of each group describes the segments paired with the group's id. */
  lemma SummariesDescribe(pairs: seq<(string, Segment)>, demographics: seq<real> -> Option<Demographics>)
    ensures forall k :: 0 <= k < |GroupAll(pairs)| ==>
      Describes(SummarizeAll(GroupAll(pairs), demographics)[k], SegsWith(pairs, GroupAll(pairs)[k].id), demographics)
  {
    GroupAllSpec(pairs);
  }

  /** Every group holds at least one segment. */
  lemma {:induction false} GroupsNonEmpty(pairs: seq<(string, Segment)>)
    ensures forall k :: 0 <= k < |GroupAll(pairs)| ==> |GroupAll(pairs)[k].segments| > 0
  {
    if |pairs| > 0 {
      var init := pairs[..|pairs| - 1];
      GroupsNonEmpty(init);
    }
  }

  /** Every group is named after a cluster. */
  lemma GroupIdsNamed(labels: seq<nat>, segs: seq<Segment>)
    requires |labels| <= |segs|
    ensures forall k :: 0 <= k < |GroupAll(Pair(labels, segs))| ==>
      |GroupAll(Pair(labels, segs))[k].id| > 8 && GroupAll(Pair(labels, segs))[k].id[..8] == "Speaker "
  {
    var pairs := Pair(labels, segs);
    GroupIds(pairs);
    var g := GroupAll(pairs);
    forall k | 0 <= k < |g|
      ensures |g[k].id| > 8 && g[k].id[..8] == "Speaker "
    {
      assert g[k].id in DistinctInOrder(Firsts(pairs)) by {
        assert IdsOf(g)[k] == g[k].id;
      }
      var i :| 0 <= i < |pairs| && Firsts(pairs)[i] == g[k].id;
      assert g[k].id == SpeakerId(labels[i]);
    }
  }

  /** Python's `max(..., key=duration)`: the first speaker with the longest duration. */
  function PrimaryIndex(xs: seq<SpeakerSummary>): (k: nat)
    requires |xs| > 0
    ensures k < |xs|
    ensures forall j :: 0 <= j < |xs| ==> xs[j].duration <= xs[k].duration
    ensures forall j :: 0 <= j < k ==> xs[j].duration < xs[k].duration
  {
    if |xs| == 1 then 0
    else
      var k := PrimaryIndex(xs[..|xs| - 1]);
      assert forall j :: 0 <= j < |xs| - 1 ==> xs[..|xs| - 1][j] == xs[j];
      if xs[|xs| - 1].duration > xs[k].duration then |xs| - 1 else k
  }

  /**
   * The demographics reported for an upload: those of the primary speaker
   * when diarization found speakers, otherwise the single-speaker analysis.
   */
  function SpeakerDemographics(diarization: Option<seq<SpeakerSummary>>, fallback: Option<Demographics>): (d: Option<Demographics>)
    ensures diarization.None? || diarization == Some([]) ==> d == fallback
    ensures diarization.Some? && |diarization.value| > 0 ==>
      exists k :: 0 <= k < |diarization.value| && d == diarization.value[k].demographics &&
        (forall j :: 0 <= j < |diarization.value| ==> diarization.value[j].duration <= diarization.value[k].duration) &&
        (forall j :: 0 <= j < k ==> diarization.value[j].duration < diarization.value[k].duration)
  {
    if diarization.Some? && |diarization.value| > 0 then diarization.value[PrimaryIndex(diarization.value)].demographics
    else fallback
  }
}

=== FILE: formatters.dfy ===
/**
 * The playback and date formatters: `m:ss` for a number of seconds, the
 * same for a number of milliseconds with a `0:00` default, and the empty
 * case of the date rendering.  The locale rendering of a date is an input.
 */
module Formatters {
  import opened Base
  import opened Text

  /** `formatTime`: `Math.floor(s / 60)`, a colon, and `s % 60` padded to two digits. */
  function FormatTime(seconds: int): string {
    IntToString(FloorDiv(seconds, 60)) + ":" + PadStart(IntToString(JsRem(seconds, 60)), 2, '0')
  }

  /**
   * For a non-negative count the text reads back as the count: the minutes
   * without leading zeros, a colon, and a two-digit seconds field below 60.
   */
  lemma TimeReadsBack(seconds: nat)
    ensures var r := FormatTime(seconds);
      |r| >= 4 && r[|r| - 3] == ':' && ParseClock(r) == Some(seconds) &&
      (|r| > 4 ==> r[0] != '0') && AllDigits(r[|r| - 2..]) && ParseDigits(r[|r| - 2..]) < 60
  {
    var mins := IntToString(FloorDiv(seconds, 60));
    var secs := PadStart(IntToString(JsRem(seconds, 60)), 2, '0');
    TimeFields(seconds);
    assert FormatTime(seconds) == mins + ":" + secs;
    ClockText(mins, secs, seconds);
    assert (mins + ":" + secs)[0] == mins[0];
  }

  /** The two fields of a non-negative count: minutes without leading zeros, seconds of two digits below 60. */
  lemma TimeFields(seconds: nat)
    ensures var mins := IntToString(FloorDiv(seconds, 60));
      var secs := PadStart(IntToString(JsRem(seconds, 60)), 2, '0');
      |secs| == 2 && |mins| >= 1 && (|mins| > 1 ==> mins[0] != '0') && AllDigits(mins) && AllDigits(secs) &&
      ParseDigits(secs) < 60 && ParseDigits(mins) * 60 + ParseDigits(secs) == seconds
  {
    var m, s := FloorDiv(seconds, 60), JsRem(seconds, 60);
    assert m >= 0 && 0 <= s < 60 && m * 60 + s == seconds;
    var mins := IntToString(m);
    assert mins == NatToString(m);
    ParseNatToString(m);
    assert ParseDigits(mins) == m;
    TwoDigitField(s);
    assert IntToString(s) == NatToString(s);
  }

  /** `formatDuration`: a falsy count of milliseconds (absent or 0) gives "0:00", any other the whole seconds. */
  function FormatDuration(millis: Option<int>): string {
    if millis.None? || millis.value == 0 then "0:00" else FormatTime(FloorDiv(millis.value, 1000))
  }

  /** No count, and less than one second of playback, read "0:00", whether the count is falsy or not. */
  lemma DurationBelowOneSecond(millis: Option<int>)
    requires millis.None? || 0 <= millis.value < 1000
    ensures FormatDuration(millis) == "0:00"
  {
    if millis.Some? && millis.value != 0 {
      assert FloorDiv(millis.value, 1000) == 0;
      assert FormatDuration(millis) == FormatTime(0);
      TimeZero();
    }
  }

  /** No seconds read "0:00". */
  lemma TimeZero()
    ensures FormatTime(0) == "0:00"
  {
    assert FloorDiv(0, 60) == 0 && JsRem(0, 60) == 0;
    assert DigitChar(0) == '0';
    assert IntToString(0) == "0";
    assert ['0'] + "0" == "00";
    assert PadStart("00", 2, '0') == "00";
    assert PadStart("0", 2, '0') == "00";
  }

  /** A non-negative count reads back as its whole seconds. */
  lemma DurationReadsBack(millis: nat)
    ensures ParseClock(FormatDuration(Some(millis))) == Some(millis / 1000)
  {
    if millis == 0 {
      assert "0:00" == "0" + ":" + "00";
      ClockText("0", "00", 0);
    } else {
      TimeReadsBack(millis / 1000);
    }
  }

  /** `formatDate`: an absent or empty input gives the empty string; any other its locale rendering. */
  function FormatDate(iso: Option<string>, localized: string): (r: string)
    ensures iso.None? || iso.value == "" ==> r == ""
    ensures iso.Some? && iso.value != "" ==> r == localized
    ensures localized != "" ==> (r == "" <==> iso.None? || iso.value == "")
  {
    if iso.None? || iso.value == "" then "" else localized
  }
}

=== FILE: guardian.dfy ===
/**
 * The guardian screen: the list of emergency contacts, adding and
 * removing contacts, and the text message sent to all of them.  Storing
 * the list on the device is an input (whether the write succeeded), as
 * are the clock that stamps a new contact's id and the SMS service's
 * availability.
 */
module Guardian {
  import opened Base

  datatype Contact = Contact(id: string, name: string, phone: string)

  /** The contact list and the add form. */
  datatype Screen = Screen(contacts: seq<Contact>, newName: string, newPhone: string, isAdding: bool)

  const Initial: Screen := Screen([], "", "", false)

  /**
   * `saveContacts`: the shown list becomes the new one only once the
   * device write succeeded.
   */
  function Save(g: Screen, updated: seq<Contact>, written: bool): (r: Screen)
    ensures written ==> r.contacts == updated
    ensures !written ==> r.contacts == g.contacts
    ensures r.newName == g.newName && r.newPhone == g.newPhone && r.isAdding == g.isAdding
  {
    if written then g.(contacts := updated) else g
  }

  /**
   * A failed write leaves the screen as it was, so retrying it ends where a
   * first successful write would; repeating a successful write, or writing
   * the list already shown, changes nothing.
   */
  lemma SaveRetry(g: Screen, updated: seq<Contact>)
    ensures Save(g, updated, false) == g
    ensures Save(Save(g, updated, false), updated, true) == Save(g, updated, true)
    ensures Save(Save(g, updated, true), updated, true) == Save(g, updated, true)
    ensures Save(g, g.contacts, true) == g
  {
  }

  /**
   * `addContact`: with an empty name or phone nothing changes; otherwise
   * the new contact is appended, and the form is cleared and closed.
   */
  function AddContact(g: Screen, now: string, written: bool): (r: Screen)
    ensures g.newName == "" || g.newPhone == "" ==> r == g
    ensures g.newName != "" && g.newPhone != "" ==>
      r.newName == "" && r.newPhone == "" && !r.isAdding &&
      (written ==> r.contacts == g.contacts + [Contact(now, g.newName, g.newPhone)]) &&
      (!written ==> r.contacts == g.contacts)
  {
    if g.newName == "" || g.newPhone == "" then g
    else
      var updated := g.contacts + [Contact(now, g.newName, g.newPhone)];
      Save(g, updated, written).(newName := "", newPhone := "", isAdding := false)
  }

  /** `contacts.filter(c => c.id !== id)`. */
  function WithoutId(cs: seq<Contact>, id: string): (r: seq<Contact>)
    ensures IsSubsequence(r, cs)
    ensures forall c :: c in r <==> c in cs && c.id != id
    ensures |r| <= |cs|
  {
    if |cs| == 0 then []
    else
      var prev := WithoutId(cs[..|cs| - 1], id);
      var c := cs[|cs| - 1];
      assert cs == cs[..|cs| - 1] + [c];
      if c.id != id then
        assert (prev + [c])[..|prev|] == prev;
        prev + [c]
      else
        SubsequenceSnoc(prev, cs[..|cs| - 1], c);
        prev
  }

  /** Every contact with another id is kept as often as it occurs; those with the id are all gone. */
  lemma {:induction false} WithoutIdCounts(cs: seq<Contact>, id: string)
    ensures forall c :: multiset(WithoutId(cs, id))[c] == if c.id != id then multiset(cs)[c] else 0
  {
    if |cs| > 0 {
      var init, c := cs[..|cs| - 1], cs[|cs| - 1];
      WithoutIdCounts(init, id);
      assert cs == init + [c];
      assert multiset(cs) == multiset(init) + multiset{c};
      if c.id != id {
        assert multiset(WithoutId(cs, id)) == multiset(WithoutId(init, id)) + multiset{c};
      }
    }
  }

  /** Removing an id no contact has keeps the list as it is. */
  lemma {:induction false} WithoutAbsentId(cs: seq<Contact>, id: string)
    requires forall k :: 0 <= k < |cs| ==> cs[k].id != id
    ensures WithoutId(cs, id) == cs
  {
    if |cs| > 0 {
      WithoutAbsentId(cs[..|cs| - 1], id);
      assert cs[..|cs| - 1] + [cs[|cs| - 1]] == cs;
    }
  }

  /** `removeContact`: once confirmed, exactly the contacts with that id go, the others keep their order. */
  function RemoveContact(g: Screen, id: string, confirmed: bool, written: bool): (r: Screen)
    ensures !confirmed ==> r == g
    ensures confirmed && written ==> r.contacts == WithoutId(g.contacts, id)
    ensures confirmed && !written ==> r.contacts == g.contacts
    ensures r.newName == g.newName && r.newPhone == g.newPhone && r.isAdding == g.isAdding
  {
    if confirmed then Save(g, WithoutId(g.contacts, id), written) else g
  }

  /** The phone numbers of the contacts, in list order. */
  function Recipients(cs: seq<Contact>): (r: seq<string>)
    ensures |r| == |cs|
    ensures forall i :: 0 <= i < |cs| ==> r[i] == cs[i].phone
  {
    if |cs| == 0 then [] else [cs[0].phone] + Recipients(cs[1..])
  }

  const EmergencyMessage: string := "🚨 [긴급] 보이스피싱이 의심되는 상황입니다! 지금 바로 저에게 연락해주세요. - VoiceShield AI 자동 발송"

  /** What pressing the emergency button does. */
  datatype Alert = NoContacts | SmsUnavailable | Compose(recipients: seq<string>, message: string)

  /**
   * `sendEmergencyAlert`: nothing is sent without contacts, nor without
   * SMS; otherwise one message goes to every contact's phone.
   */
  function SendEmergencyAlert(cs: seq<Contact>, smsAvailable: bool): (r: Alert)
    ensures |cs| == 0 <==> r.NoContacts?
    ensures |cs| > 0 && !smsAvailable ==> r.SmsUnavailable?
    ensures |cs| > 0 && smsAvailable ==> r == Compose(Recipients(cs), EmergencyMessage)
  {
    if |cs| == 0 then NoContacts
    else if smsAvailable then Compose(Recipients(cs), EmergencyMessage)
    else SmsUnavailable
  }

  /** A contact added and saved receives the next emergency message. */
  lemma AddedContactIsAlerted(g: Screen, now: string)
    requires g.newName != "" && g.newPhone != ""
    ensures var r := AddContact(g, now, true);
      SendEmergencyAlert(r.contacts, true).Compose? &&
      SendEmergencyAlert(r.contacts, true).recipients[|g.contacts|] == g.newPhone
  {
  }

  /** A removed contact's phone no longer receives the message, unless another remaining contact has it. */
  lemma RemovedContactNotAlerted(g: Screen, id: string, phone: string)
    requires forall c :: c in g.contacts && c.phone == phone ==> c.id == id
    ensures var r := RemoveContact(g, id, true, true);
      phone !in Recipients(r.contacts)
  {
    var cs := RemoveContact(g, id, true, true).contacts;
    forall i | 0 <= i < |cs|
      ensures Recipients(cs)[i] != phone
    {
      assert cs[i] in cs;
    }
  }
}

=== FILE: history.dfy ===
/**
 * The list of past analyses kept by the app: the entry type, the views
 * the history screen shows (filtered by kind and by verdict, newest or
 * oldest first), replacing and clearing the list, and the prepend-with-cap
 * applied after each analysis.  Persistence to device storage is not
 * modelled; saving is the state change alone.
 */
module History {
  import opened Base
  import opened SeededRandom

  /** The detail scores shown for an audio analysis. */
  datatype Details = Details(frequencyAnalysis: real, temporalPattern: real, acousticFeature: real)

  /** A JSON value the app stores without looking inside it. */
  datatype Json = JNull | JBool(b: bool) | JNumber(n: real) | JString(s: string) | JArray(elems: seq<Json>) | JObject(fields: seq<(string, Json)>)

  /**
   * One history entry; `kind` is the entry's `type` ("audio" or "image").
   * `context` and `speaker` are the server's context and speaker reports,
   * absent from offline results.
   */
  datatype Item = Item(id: int, filename: Option<string>, confidence: real, isDeepfake: bool, timestamp: string,
                       details: Details, advanced: Option<AdvancedAnalysis>, kind: string,
                       context: Option<Json>, speaker: Option<Json>)

  /** The entries of kind `kind`, in order. */
  function OfKind(h: seq<Item>, kind: string): (r: seq<Item>)
    ensures IsSubsequence(r, h)
    ensures forall x :: x in r <==> x in h && x.kind == kind
  {
    if |h| == 0 then []
    else
      var prev := OfKind(h[..|h| - 1], kind);
      var x := h[|h| - 1];
      assert h == h[..|h| - 1] + [x];
      if x.kind == kind then
        assert (prev + [x])[..|prev|] == prev;
        prev + [x]
      else
        SubsequenceSnoc(prev, h[..|h| - 1], x);
        prev
  }

  /** The entries whose verdict is `deepfake`, in order. */
  function WithVerdict(h: seq<Item>, deepfake: bool): (r: seq<Item>)
    ensures IsSubsequence(r, h)
    ensures forall x :: x in r <==> x in h && x.isDeepfake == deepfake
  {
    if |h| == 0 then []
    else
      var prev := WithVerdict(h[..|h| - 1], deepfake);
      var x := h[|h| - 1];
      assert h == h[..|h| - 1] + [x];
      if x.isDeepfake == deepfake then
        assert (prev + [x])[..|prev|] == prev;
        prev + [x]
      else
        SubsequenceSnoc(prev, h[..|h| - 1], x);
        prev
  }

  function Reverse<T>(s: seq<T>): (r: seq<T>)
    ensures |r| == |s|
    ensures forall i :: 0 <= i < |s| ==> r[i] == s[|s| - 1 - i]
  {
    seq(|s|, i requires 0 <= i < |s| => s[|s| - 1 - i])
  }

  /** Reversing twice gives the sequence back, and reversing keeps the members. */
  lemma ReverseMembers<T>(s: seq<T>)
    ensures Reverse(Reverse(s)) == s
    ensures forall x :: x in Reverse(s) <==> x in s
  {
    forall x | x in s
      ensures x in Reverse(s)
    {
      var i :| 0 <= i < |s| && s[i] == x;
      assert Reverse(s)[|s| - 1 - i] == x;
    }
  }

  /**
   * The history view: entries of the chosen type (any with "all"), then of
   * the chosen verdict ("deepfake", "safe", anything else keeps all), newest
   * first unless the order is "asc".
   */
  function Filtered(h: seq<Item>, kind: string, status: string, order: string): (r: seq<Item>)
    ensures order != "asc" ==> IsSubsequence(r, h)
    ensures order == "asc" ==> IsSubsequence(Reverse(r), h)
    ensures forall x :: x in r <==> (x in h && (kind == "all" || x.kind == kind) &&
                                    (status == "deepfake" ==> x.isDeepfake) && (status == "safe" ==> !x.isDeepfake))
  {
    var byKind := if kind != "all" then OfKind(h, kind) else h;
    var byStatus :=
      if status == "deepfake" then WithVerdict(byKind, true)
      else if status == "safe" then WithVerdict(byKind, false)
      else byKind;
    assert IsSubsequence(byStatus, h) by {
      SubsequenceRefl(h);
      if byKind != h && byStatus != byKind {
        SubsequenceTrans(byStatus, byKind, h);
      }
    }
    if order == "asc" then
      ReverseMembers(byStatus);
      Reverse(byStatus)
    else byStatus
  }

  /** The type view keeps every entry of that type as often as it occurs, and no other entry. */
  lemma {:induction false} OfKindCounts(h: seq<Item>, kind: string)
    ensures forall x :: multiset(OfKind(h, kind))[x] == if x.kind == kind then multiset(h)[x] else 0
  {
    if |h| > 0 {
      var init, x := h[..|h| - 1], h[|h| - 1];
      OfKindCounts(init, kind);
      assert h == init + [x];
      assert multiset(h) == multiset(init) + multiset{x};
      if x.kind == kind {
        assert multiset(OfKind(h, kind)) == multiset(OfKind(init, kind)) + multiset{x};
      }
    }
  }

  /** The verdict view keeps every entry of that verdict as often as it occurs, and no other entry. */
  lemma {:induction false} WithVerdictCounts(h: seq<Item>, deepfake: bool)
    ensures forall x :: multiset(WithVerdict(h, deepfake))[x] == if x.isDeepfake == deepfake then multiset(h)[x] else 0
  {
    if |h| > 0 {
      var init, x := h[..|h| - 1], h[|h| - 1];
      WithVerdictCounts(init, deepfake);
      assert h == init + [x];
      assert multiset(h) == multiset(init) + multiset{x};
      if x.isDeepfake == deepfake {
        assert multiset(WithVerdict(h, deepfake)) == multiset(WithVerdict(init, deepfake)) + multiset{x};
      }
    }
  }

  /** Reversing permutes: every element occurs as often as before. */
  lemma {:induction false} ReversePermutes<T>(s: seq<T>)
    ensures multiset(Reverse(s)) == multiset(s)
  {
    if |s| > 0 {
      var init, x := s[..|s| - 1], s[|s| - 1];
      ReversePermutes(init);
      assert Reverse(s) == [x] + Reverse(init);
      assert s == init + [x];
    }
  }

  /** The view holds every entry passing both filters exactly as often as the history does, in either order. */
  lemma FilteredCounts(h: seq<Item>, kind: string, status: string, order: string)
    ensures forall x :: (multiset(Filtered(h, kind, status, order))[x] ==
                          if (kind == "all" || x.kind == kind) && (status == "deepfake" ==> x.isDeepfake) &&
                             (status == "safe" ==> !x.isDeepfake)
                          then multiset(h)[x] else 0)
  {
    OfKindCounts(h, kind);
    var byKind := if kind != "all" then OfKind(h, kind) else h;
    WithVerdictCounts(byKind, true);
    WithVerdictCounts(byKind, false);
    var byStatus :=
      if status == "deepfake" then WithVerdict(byKind, true)
      else if status == "safe" then WithVerdict(byKind, false)
      else byKind;
    ReversePermutes(byStatus);
    assert Filtered(h, kind, status, order) == if order == "asc" then Reverse(byStatus) else byStatus;
  }

  /** The default view is the whole history. */
  lemma FilteredDefault(h: seq<Item>)
    ensures Filtered(h, "all", "all", "desc") == h
  {
  }

  /** The deepfake and safe views split the full view between them. */
  lemma {:induction false} VerdictViewsPartition(h: seq<Item>)
    ensures |WithVerdict(h, true)| + |WithVerdict(h, false)| == |h|
  {
    if |h| > 0 {
      VerdictViewsPartition(h[..|h| - 1]);
    }
  }

  /** With a fixed type and order, the deepfake count and the safe count add up to the count under "all". */
  lemma StatusCountsAdd(h: seq<Item>, kind: string, order: string)
    ensures |Filtered(h, kind, "deepfake", order)| + |Filtered(h, kind, "safe", order)| == |Filtered(h, kind, "all", order)|
  {
    VerdictViewsPartition(if kind != "all" then OfKind(h, kind) else h);
  }

  /** The list shown after an analysis: the new entry, then at most 19 of the previous entries. */
  function Prepend(h: seq<Item>, item: Item): (r: seq<Item>)
    ensures |r| <= 20 && |r| >= 1
    ensures r[0] == item && r[1..] <= h
    ensures |h| < 20 ==> r[1..] == h
    ensures |h| >= 19 ==> |r| == 20
  {
    [item] + h[..if |h| < 19 then |h| else 19]
  }

  /** The history state and its two updates. */
  datatype State = State(items: seq<Item>, current: Option<Item>)

  /** `saveHistory`: the list becomes exactly the given one. */
  function Save(st: State, h: seq<Item>): (r: State)
    ensures r.items == h && r.current == st.current
  {
    st.(items := h)
  }

  /** Saving replaces the list: a later save overrides an earlier one, and saving the current list changes nothing. */
  lemma SaveOverrides(st: State, h1: seq<Item>, h2: seq<Item>)
    ensures Save(Save(st, h1), h2) == Save(st, h2)
    ensures Save(st, st.items) == st
  {
  }

  /** `clearHistory`: a confirmed clear empties the list and the shown result; cancelling changes nothing. */
  function Clear(st: State, confirmed: bool): (r: State)
    ensures confirmed ==> r.items == [] && r.current.None?
    ensures !confirmed ==> r == st
  {
    if confirmed then Save(st.(current := None), []) else st
  }
}

=== FILE: image_decision.dfy ===
/**
 * The image endpoint's decision logic: which classifier label counts as
 * "artificial", the ensemble average of the classifiers' artificial
 * probabilities with its disagreement penalty, and the final decision
 * table that combines it with the error-level-analysis (ELA) score.
 * Classifier outputs and the ELA score are inputs.
 */
module ImageDecision {
  import opened Base
  import opened Text

  /** A classifier's label table (index and name) and probability row, or a classifier that raised. */
  datatype ClassifierOutput = Output(labels: seq<(nat, string)>, probs: seq<real>) | Crashed

  predicate NamesArtificial(name: string) {
    var l := Lower(name);
    Contains(l, "artificial") || Contains(l, "fake") || Contains(l, "ai")
  }

  /** The index of the first label naming an artificial class, or 0 when none does. */
  function ArtificialIndex(labels: seq<(nat, string)>): (idx: nat)
    ensures (exists i :: 0 <= i < |labels| && NamesArtificial(labels[i].1)) ==>
      exists i :: 0 <= i < |labels| && NamesArtificial(labels[i].1) && idx == labels[i].0 &&
        forall j :: 0 <= j < i ==> !NamesArtificial(labels[j].1)
    ensures (forall i :: 0 <= i < |labels| ==> !NamesArtificial(labels[i].1)) ==> idx == 0
  {
    if |labels| == 0 then 0
    else if NamesArtificial(labels[0].1) then labels[0].0
    else
      var rest := ArtificialIndex(labels[1..]);
      assert forall i :: 1 <= i < |labels| ==> labels[i] == labels[1..][i - 1];
      rest
  }

  /** One classifier's artificial probability in percent; a missing row entry raises, like a crash. */
  function ArtificialPercent(out: ClassifierOutput): (p: Option<real>)
    ensures out.Crashed? ==> p.None?
    ensures out.Output? && ArtificialIndex(out.labels) < |out.probs| ==> p == Some(out.probs[ArtificialIndex(out.labels)] * 100.0)
    ensures out.Output? && ArtificialIndex(out.labels) >= |out.probs| ==> p.None?
  {
    match out
    case Crashed => None
    case Output(labels, probs) =>
      var idx := ArtificialIndex(labels);
      if idx < |probs| then Some(probs[idx] * 100.0) else None
  }

  /** The percentages of the classifiers that did not raise, in classifier order. */
  function Collected(outs: seq<ClassifierOutput>): (ps: seq<real>)
    ensures |ps| <= |outs|
    ensures (forall i :: 0 <= i < |outs| ==> outs[i].Output? && AllWithin(outs[i].probs, 0.0, 1.0)) ==> AllWithin(ps, 0.0, 100.0)
  {
    if |outs| == 0 then []
    else
      var init := Collected(outs[..|outs| - 1]);
      assert forall i :: 0 <= i < |outs| - 1 ==> outs[..|outs| - 1][i] == outs[i];
      match ArtificialPercent(outs[|outs| - 1])
      case None => init
      case Some(p) => init + [p]
  }

  function Mean(xs: seq<real>): real
    requires |xs| > 0
  {
    SumReals(xs) / |xs| as real
  }

  /** The mean of percentages is a percentage. */
  lemma MeanWithin(xs: seq<real>)
    requires |xs| > 0
    ensures AllWithin(xs, 0.0, 100.0) ==> 0.0 <= Mean(xs) <= 100.0
  {
    if AllWithin(xs, 0.0, 100.0) {
      SumRealsBounds(xs, 0.0, 100.0);
    }
  }

  function SquaredDeviations(xs: seq<real>, m: real): (ds: seq<real>)
    ensures |ds| == |xs|
    ensures forall i :: 0 <= i < |xs| ==> ds[i] == (xs[i] - m) * (xs[i] - m)
  {
    if |xs| == 0 then [] else SquaredDeviations(xs[..|xs| - 1], m) + [(xs[|xs| - 1] - m) * (xs[|xs| - 1] - m)]
  }

  /** Population variance, as `np.var` computes it. */
  function Variance(xs: seq<real>): real
    requires |xs| > 0
  {
    Mean(SquaredDeviations(xs, Mean(xs)))
  }

  datatype Ensemble = Ensemble(aiProbability: real, verdict: string)

  /**
   * The ensemble: 0 and "Unknown" when no classifier produced a value;
   * otherwise the mean, cut by 15% when two or more values have a variance
   * above 500, with the verdict "Artificial" above 50 and "Human" otherwise.
   */
  function EnsembleOf(ps: seq<real>): (e: Ensemble)
    ensures |ps| == 0 <==> e.verdict == "Unknown"
    ensures |ps| == 0 ==> e.aiProbability == 0.0
    ensures |ps| > 0 ==> (e.verdict == "Artificial" <==> e.aiProbability > 50.0)
    ensures AllWithin(ps, 0.0, 100.0) ==> 0.0 <= e.aiProbability <= 100.0
    ensures |ps| == 1 ==> e.aiProbability == ps[0]
  {
    if |ps| == 0 then Ensemble(0.0, "Unknown")
    else
      MeanWithin(ps);
      assert |ps| == 1 ==> SumReals(ps) == ps[0] by {
        if |ps| == 1 { assert ps[..0] == []; }
      }
      var avg := Mean(ps);
      var ai := if |ps| > 1 && Variance(ps) > 500.0 then avg * 0.85 else avg;
      Ensemble(ai, if ai > 50.0 then "Artificial" else "Human")
  }

  datatype Decision = Decision(isManipulated: bool, confidence: real)

  function Min(a: real, b: real): real { if a <= b then a else b }
  function Max(a: real, b: real): real { if a >= b then a else b }

  /** The final decision table; `modelsLoaded` selects it over the conservative ELA-only fallback. */
  function Decide(modelsLoaded: bool, ai: real, ela: real): (d: Decision)
    ensures modelsLoaded ==> (d.isManipulated <==> (ai >= 75.0 && (ela >= 30.0 || ai > 85.0)) || (ai < 75.0 && ela >= 65.0))
    ensures modelsLoaded && ai >= 75.0 && ela >= 30.0 ==> d.isManipulated
    ensures modelsLoaded && ai < 60.0 && ela < 65.0 ==> !d.isManipulated
    ensures modelsLoaded && 0.0 <= ai <= 100.0 && ela >= 0.0 ==> 0.0 <= d.confidence <= 99.0
    ensures !modelsLoaded ==> (d.isManipulated <==> ela >= 70.0)
    ensures !modelsLoaded && !d.isManipulated ==> d.confidence >= 50.0
    ensures !modelsLoaded && d.isManipulated ==> 77.0 <= d.confidence <= 90.0
    ensures modelsLoaded && ai >= 75.0 && ela >= 50.0 ==> d == Decision(true, Min(ai * 0.75 + ela * 0.25, 99.0))
    ensures modelsLoaded && ai >= 75.0 && 30.0 <= ela < 50.0 ==> d == Decision(true, Min(ai * 0.9, 95.0))
    ensures modelsLoaded && ai > 85.0 && ela < 30.0 ==> d == Decision(true, ai * 0.85)
    ensures modelsLoaded && 75.0 <= ai <= 85.0 && ela < 30.0 ==> d == Decision(false, 100.0 - ai)
    ensures modelsLoaded && 60.0 <= ai < 75.0 && ela >= 65.0 ==> d == Decision(true, Min(ai * 0.6 + ela * 0.4, 90.0))
    ensures modelsLoaded && 60.0 <= ai < 75.0 && ela < 65.0 ==> d == Decision(false, (100.0 - ai) * 0.8)
    ensures modelsLoaded && ai < 60.0 && ela >= 65.0 ==> d == Decision(true, Min(ela * 1.2, 85.0))
    ensures modelsLoaded && ai < 60.0 && ela < 65.0 ==> d == Decision(false, Min((100.0 - ai) * 0.95, 98.0))
    ensures !modelsLoaded && ela >= 70.0 ==> d == Decision(true, Min(ela * 1.1, 90.0))
    ensures !modelsLoaded && ela < 70.0 ==> d == Decision(false, Max(100.0 - ela, 50.0))
  {
    if modelsLoaded then
      if ai >= 75.0 then
        if ela >= 50.0 then Decision(true, Min(ai * 0.75 + ela * 0.25, 99.0))
        else if ela < 30.0 then
          var m := ai > 85.0;
          Decision(m, if m then ai * 0.85 else 100.0 - ai)
        else Decision(true, Min(ai * 0.9, 95.0))
      else if ai >= 60.0 then
        if ela >= 65.0 then Decision(true, Min(ai * 0.6 + ela * 0.4, 90.0))
        else Decision(false, (100.0 - ai) * 0.8)
      else if ela >= 65.0 then Decision(true, Min(ela * 1.2, 85.0))
      else Decision(false, Min((100.0 - ai) * 0.95, 98.0))
    else if ela >= 70.0 then Decision(true, Min(ela * 1.1, 90.0))
    else Decision(false, Max(100.0 - ela, 50.0))
  }

  datatype ImageVerdict = ImageVerdict(isManipulated: bool, confidence: real, elaScore: real, aiProbability: real, verdict: string)

  /** The verdict for one image: the decision table applies whenever classifiers are loaded, even if all of them raised. */
  function AnalyzeImage(outs: seq<ClassifierOutput>, ela: real): (v: ImageVerdict)
    ensures v.elaScore == ela
    ensures |outs| == 0 ==> v.verdict == "Unknown" && v.aiProbability == 0.0 && (v.isManipulated <==> ela >= 70.0)
    ensures |outs| > 0 && Collected(outs) == [] ==> v.aiProbability == 0.0 && (v.isManipulated <==> ela >= 65.0)
    ensures |outs| > 0 ==> v.aiProbability == EnsembleOf(Collected(outs)).aiProbability &&
                           v.verdict == EnsembleOf(Collected(outs)).verdict &&
                           Decision(v.isManipulated, v.confidence) == Decide(true, v.aiProbability, ela)
    ensures |outs| == 0 ==> Decision(v.isManipulated, v.confidence) == Decide(false, 0.0, ela)
  {
    var e := if |outs| > 0 then EnsembleOf(Collected(outs)) else Ensemble(0.0, "Unknown");
    var d := Decide(|outs| > 0, e.aiProbability, ela);
    ImageVerdict(d.isManipulated, d.confidence, ela, e.aiProbability, e.verdict)
  }
}

=== FILE: live_monitor.dfy ===
/**
 * The live-monitoring screen: the monitoring switch, the speaker-mode
 * start and stop, and one pass of the recording loop, which records a
 * five-second chunk, has it analysed, updates the status line and the
 * list of detected keywords, and schedules the next pass.  The recorder,
 * the microphone permission and the analysis are inputs: each pass is
 * described by what happened to it (a `Pass`).  Toasts and alerts are not
 * modelled.
 */
module LiveMonitor {
  import opened Base
  import opened Text
  import opened ChunkAnalysis

  const Idle: string := "대기 중"
  const Listening: string := "통화 듣는 중..."
  const Recording: string := "녹음 중..."
  const Analysing: string := "분석 중..."
  const SafeListening: string := "안전 - 통화 듣는 중..."
  const AnalysisFailed: string := "분석 실패 - 재시도 중..."
  const LoopFailed: string := "오류 발생 - 재시도 중..."

  /** The warning status line showing the risk score. */
  function Warning(score: int): string {
    "⚠️ 위험 감지! (점수: " + IntToString(score) + ")"
  }

  /** Delays, in milliseconds, before the next pass after a normal pass and after a failed one. */
  const NormalDelay: nat := 500
  const RetryDelay: nat := 2000

  /** Risk scores above this raise the warning. */
  const WarnAbove: int := 30

  /** The screen's state; `looping` is the loop's reference flag. */
  datatype Monitor = Monitor(enabled: bool, speakerMode: bool, status: string, keywords: seq<string>, looping: bool)

  /** The state when the screen opens. */
  const Initial: Monitor := Monitor(false, false, Idle, [], false)

  /** `stopSpeakerMonitoring`: the loop flag and speaker mode go off, the status is idle, the keywords are cleared. */
  function Stop(m: Monitor): (r: Monitor)
    ensures !r.looping && !r.speakerMode && r.status == Idle && r.keywords == []
    ensures r.enabled == m.enabled
  {
    m.(looping := false, speakerMode := false, status := Idle, keywords := [])
  }

  /**
   * Stopping halts the loop for good: stopping again changes nothing, and
   * the next pass, whatever happens in it, neither changes the state nor
   * schedules another; switching monitoring on again keeps it halted.
   */
  lemma StopHaltsLoop(m: Monitor, p: Pass)
    ensures Stop(Stop(m)) == Stop(m)
    ensures Step(Stop(m), p) == After(Stop(m), None)
    ensures !m.enabled ==> !Toggle(Stop(m)).looping && Toggle(Stop(m)).enabled
  {
  }

  /** Different risk scores give different warning lines. */
  lemma WarningShowsScore(a: nat, b: nat)
    ensures Warning(a) == Warning(b) ==> a == b
  {
    if Warning(a) == Warning(b) {
      var prefix := "⚠️ 위험 감지! (점수: ";
      var sa, sb := NatToString(a), NatToString(b);
      assert Warning(a) == prefix + sa + ")" && Warning(b) == prefix + sb + ")";
      assert sa == Warning(a)[|prefix|..|Warning(a)| - 1];
      assert sb == Warning(b)[|prefix|..|Warning(b)| - 1];
      ParseNatToString(a);
      ParseNatToString(b);
    }
  }

  /** `handleToggleMonitoring`: flips the switch; switching it off also stops the speaker monitoring. */
  function Toggle(m: Monitor): (r: Monitor)
    ensures r.enabled == !m.enabled
    ensures m.enabled ==> !r.looping && !r.speakerMode && r.status == Idle && r.keywords == []
    ensures !m.enabled ==> r == m.(enabled := true)
  {
    var flipped := m.(enabled := !m.enabled);
    if m.enabled then Stop(flipped).(speakerMode := false) else flipped
  }

  /** Switching twice from a stopped state gives that state back. */
  lemma ToggleTwiceWhenStopped(m: Monitor)
    requires !m.looping && !m.speakerMode && m.status == Idle && m.keywords == []
    ensures Toggle(Toggle(m)) == m
  {
  }

  /**
   * `startSpeakerMonitoring`: without the microphone permission, or when
   * setting the audio mode fails, nothing changes and it reports failure;
   * otherwise the loop flag goes on with the listening status.
   */
  function Start(m: Monitor, granted: bool, audioModeSet: bool): (r: (Monitor, bool))
    ensures r.1 <==> granted && audioModeSet
    ensures r.1 ==> r.0 == m.(looping := true, status := Listening)
    ensures !r.1 ==> r.0 == m
  {
    if !granted || !audioModeSet then (m, false) else (m.(looping := true, status := Listening), true)
  }

  /** `toggleSpeakerMode`: stops when in speaker mode, otherwise starts and enters speaker mode on success. */
  function ToggleSpeaker(m: Monitor, granted: bool, audioModeSet: bool): (r: Monitor)
    ensures m.speakerMode ==> r == Stop(m)
    ensures !m.speakerMode && granted && audioModeSet ==> r.speakerMode && r.looping && r.status == Listening
    ensures !m.speakerMode && !(granted && audioModeSet) ==> r == m
  {
    if m.speakerMode then Stop(m)
    else
      var started := Start(m, granted, audioModeSet);
      if started.1 then started.0.(speakerMode := true) else started.0
  }

  /** What the chunk analysis produced: a result (possibly `null`), or an exception. */
  datatype Analysis = Returned(result: Option<ChunkResult>) | AnalysisThrew

  /**
   * What happened during one pass: the recorder could not be prepared or
   * started; the user stopped while it recorded; stopping the recorder
   * threw; or a chunk was taken (with the uri the recorder gave, the
   * analysis outcome, and whether the user stopped while it was analysed).
   */
  datatype Pass =
    | SetupFailed
    | StoppedWhileRecording
    | UnloadFailed
    | Taken(uri: Option<string>, analysis: Analysis, stoppedWhileAnalysing: bool)

  /** The state after a pass and the delay before the next one, if one is scheduled. */
  datatype After = After(m: Monitor, next: Option<nat>)

  /**
   * The keyword list after a warning: the previous list followed by the new
   * keywords, without repetitions, in order of first appearance.
   */
  function MergeKeywords(prev: seq<string>, found: seq<string>): (r: seq<string>)
    ensures NoDuplicates(r)
    ensures forall k :: k in r <==> k in prev || k in found
    ensures NoDuplicates(prev) ==> |prev| <= |r| && r[..|prev|] == prev
    ensures NoDuplicates(prev) ==> forall k :: k in r[|prev|..] ==> k in found && k !in prev
    ensures forall i, j :: 0 <= i < j < |r| ==> AppearsBefore(prev + found, r[i], r[j])
  {
    DistinctInOrderFirstAppearance(prev + found);
    if NoDuplicates(prev) then
      DistinctAppend(prev, found);
      DistinctInOrder(prev + found)
    else DistinctInOrder(prev + found)
  }

  /** The status and keyword update for a finished analysis. */
  function ApplyAnalysis(m: Monitor, a: Analysis): (r: Monitor)
    ensures r.looping == m.looping && r.enabled == m.enabled && r.speakerMode == m.speakerMode
    ensures a.AnalysisThrew? ==> r == m.(status := AnalysisFailed)
    ensures a.Returned? && (a.result.None? || a.result.value.context.None?) ==> r == m.(status := Listening)
    ensures a.Returned? && a.result.Some? && a.result.value.context.Some? ==>
      var risk := ContextRisk(a.result.value.context);
      var found := a.result.value.context.value.detectedKeywords.GetOr([]);
      (risk > WarnAbove ==> r.status == Warning(risk) &&
                            r.keywords == (if |found| > 0 then MergeKeywords(m.keywords, found) else m.keywords)) &&
      (risk <= WarnAbove ==> r == m.(status := SafeListening))
  {
    match a
    case AnalysisThrew => m.(status := AnalysisFailed)
    case Returned(res) =>
      if res.None? || res.value.context.None? then m.(status := Listening)
      else
        var risk := ContextRisk(res.value.context);
        var found := res.value.context.value.detectedKeywords.GetOr([]);
        if risk > WarnAbove then
          m.(status := Warning(risk), keywords := if |found| > 0 then MergeKeywords(m.keywords, found) else m.keywords)
        else m.(status := SafeListening)
  }

  /** Whether a uri is truthy: present and non-empty. */
  predicate HasUri(uri: Option<string>) {
    uri.Some? && uri.value != ""
  }

  /**
   * `recordingLoop`, one pass.  A pass that finds the loop flag off does
   * nothing; a failure retries after 2 s if the flag is still on; a taken
   * chunk is analysed when the recorder gave a uri, and the next pass
   * follows after 0.5 s if the flag is still on.
   */
  function Step(m: Monitor, p: Pass): (r: After)
    ensures !m.looping ==> r == After(m, None)
    ensures m.looping && (p.SetupFailed? || p.UnloadFailed?) ==> r == After(m.(status := LoopFailed), Some(RetryDelay))
    ensures m.looping && p.StoppedWhileRecording? ==> r == After(Stop(m), None)
    ensures m.looping && p.Taken? ==> (r.next == Some(NormalDelay) <==> !p.stoppedWhileAnalysing)
    ensures m.looping && p.Taken? ==> (r.next.None? <==> !r.m.looping)
    ensures r.next.Some? ==> r.m.looping && r.m.enabled == m.enabled && r.m.speakerMode == m.speakerMode
    ensures m.looping && p.Taken? && !HasUri(p.uri) && !p.stoppedWhileAnalysing ==> r.m == m.(status := Analysing)
    ensures m.looping && p.Taken? && HasUri(p.uri) && !p.stoppedWhileAnalysing ==>
      r.m == ApplyAnalysis(m.(status := Analysing), p.analysis)
  {
    if !m.looping then After(m, None)
    else
      match p
      case SetupFailed => After(m.(status := LoopFailed), Some(RetryDelay))
      case StoppedWhileRecording => After(Stop(m.(status := Recording)), None)
      case UnloadFailed => After(m.(status := LoopFailed), Some(RetryDelay))
      case Taken(uri, analysis, stopped) =>
        var taken := m.(status := Analysing);
        var afterStop := if stopped then Stop(taken) else taken;
        var analysed := if HasUri(uri) then ApplyAnalysis(afterStop, analysis) else afterStop;
        After(analysed, if analysed.looping then Some(NormalDelay) else None)
  }

  /** A stopped loop stays stopped: no pass turns the flag back on or schedules another pass. */
  lemma StoppedStaysStopped(m: Monitor, p: Pass)
    requires !m.looping
    ensures !Step(m, p).m.looping && Step(m, p).next.None?
  {
  }

  /** Every pass of a running loop either schedules the next pass or leaves the loop off. */
  lemma PassSchedulesOrStops(m: Monitor, p: Pass)
    requires m.looping
    ensures Step(m, p).next.Some? <==> Step(m, p).m.looping
    ensures Step(m, p).next.Some? ==> Step(m, p).next.value in {NormalDelay, RetryDelay}
  {
  }

  /**
   * Keywords only accumulate while the loop runs: a pass that leaves the
   * flag on keeps the previous keywords, in order, at the front.
   */
  lemma {:induction false} KeywordsAccumulate(m: Monitor, p: Pass)
    requires m.looping && NoDuplicates(m.keywords)
    ensures var r := Step(m, p).m;
      r.looping ==> |m.keywords| <= |r.keywords| && r.keywords[..|m.keywords|] == m.keywords && NoDuplicates(r.keywords)
  {
    var r := Step(m, p).m;
    if r.looping && p.Taken? && HasUri(p.uri) && !p.stoppedWhileAnalysing {
      var a := p.analysis;
      if a.Returned? && a.result.Some? && a.result.value.context.Some? {
        var found := a.result.value.context.value.detectedKeywords.GetOr([]);
        if ContextRisk(a.result.value.context) > WarnAbove && |found| > 0 {
          assert r.keywords == MergeKeywords(m.keywords, found);
        }
      }
    }
  }

  /**
   * The warning reads the context's risk score, not the boosted score of
   * the chunk result: a deepfake at confidence 95 whose context scores 0
   * is shown as safe although the chunk's risk score is 90.
   */
  lemma WarningIgnoresBoost()
    ensures var body := ServerResult(true, 95.0, Some(ServerContext(Some(0), Some([]))));
      ChunkOf(body).riskScore == 90 &&
      ApplyAnalysis(Initial.(looping := true), Returned(Some(ChunkOf(body)))).status == SafeListening
  {
  }
}

=== FILE: mock_analysis.dfy ===
/**
 * The offline analysis of the app, used when the server gives no result:
 * a seed hashed from the file name and size, a verdict chosen from the
 * name (or from the seed's parity), a confidence in a band per verdict,
 * and three detail scores; then the history update of each analysis.
 * The clock, the ISO time stamp and the server's answer are inputs; the
 * sine/cosine display curves are not modelled.
 */
module MockAnalysis {
  import opened Base
  import opened Text
  import opened SeededRandom
  import opened History

  /** A picked file: its uri and the optional name and size the picker reports. */
  datatype File = File(uri: string, name: Option<string>, size: Option<nat>)

  /** `file.name || 'recording.m4a'`: an absent or empty name falls back. */
  function FileName(f: File): (n: string)
    ensures |n| > 0
    ensures f.name.Some? && f.name.value != "" ==> n == f.name.value
  {
    if f.name.Some? && f.name.value != "" then f.name.value else "recording.m4a"
  }

  /** Σ u[i] · (i + 1) over a sequence of UTF-16 code units. */
  function Hash(u: seq<nat>): nat {
    if |u| == 0 then 0 else Hash(u[..|u| - 1]) + u[|u| - 1] * |u|
  }

  /** Extending the units by one adds that unit weighted by its position. */
  lemma HashSnoc(u: seq<nat>, x: nat)
    ensures Hash(u + [x]) == Hash(u) + x * (|u| + 1)
  {
    assert (u + [x])[..|u|] == u;
  }

  /**
   * The loop of `generateMockResult`: `charCodeAt(i) * (i + 1)` summed over
   * the string's `length`, both counted in UTF-16 code units.
   */
  method HashLoop(str: string) returns (seed: nat)
    ensures seed == Hash(Utf16(str))
  {
    var units := Utf16(str);
    seed := 0;
    var i := 0;
    while i < |units|
      invariant 0 <= i <= |units|
      invariant seed == Hash(units[..i])
    {
      HashSnoc(units[..i], units[i]);
      assert units[..i] + [units[i]] == units[..i + 1];
      seed := seed + units[i] * (i + 1);
      i := i + 1;
    }
    assert units[..i] == units;
  }

  /** The seed: the hash of the name followed by the decimal size (`|| 0` when absent). */
  function Seed(f: File): (seed: nat)
    ensures seed == Hash(Utf16(FileName(f)) + Utf16(NatToString(f.size.GetOr(0))))
  {
    Utf16Append(FileName(f), NatToString(f.size.GetOr(0)));
    Hash(Utf16(FileName(f) + NatToString(f.size.GetOr(0))))
  }

  /** A name outside the Basic Multilingual Plane counts as its two surrogates: "🎤" of size 0 hashes to 170004. */
  lemma EmojiSeed()
    ensures Seed(File("", Some("🎤"), Some(0))) == 170004
  {
    var f := File("", Some("🎤"), Some(0));
    assert FileName(f) == "🎤";
    assert NatToString(0) == "0";
    var mic := '🎤';
    assert mic as int == 0x1F3A4;
    assert CodeUnits(mic) == [0xD83C, 0xDFA4];
    assert Utf16([mic]) == [0xD83C, 0xDFA4] by {
      assert [mic][..0] == "";
    }
    assert Utf16("0") == [48] by {
      assert "0"[..0] == "";
    }
    var w0: seq<nat> := [];
    var w1 := w0 + [0xD83C];
    var w2 := w1 + [0xDFA4];
    var w3 := w2 + [48];
    HashSnoc(w0, 0xD83C);
    HashSnoc(w1, 0xDFA4);
    HashSnoc(w2, 48);
    assert w3 == [0xD83C, 0xDFA4] + [48];
  }

  /** `((seed * 9301 + 49297) % 233280) / 233280`, one generator step scaled into [0, 1). */
  function Normalized(seed: nat): (x: real)
    ensures 0.0 <= x < 1.0
    ensures x == Scale(Next(seed), 0.0, 1.0)
  {
    ((seed * 9301 + 49297) % 233280) as real / 233280.0
  }

  /** `/deepfake|fake|phishing/i`; the case-insensitive match on ASCII letters is exactly a lower-case search. */
  predicate IsMaliciousName(name: string) {
    var l := Lower(name);
    Contains(l, "deepfake") || Contains(l, "fake") || Contains(l, "phishing")
  }

  /** `/real|safe|normal/i`. */
  predicate IsSafeName(name: string) {
    var l := Lower(name);
    Contains(l, "real") || Contains(l, "safe") || Contains(l, "normal")
  }

  /** The "deepfake" alternative adds nothing: every name holding it also holds "fake". */
  lemma MaliciousIsFakeOrPhishing(name: string)
    ensures IsMaliciousName(name) <==> Contains(Lower(name), "fake") || Contains(Lower(name), "phishing")
  {
    var l := Lower(name);
    if Contains(l, "deepfake") {
      ContainsIff(l, "deepfake");
      var i :| OccursAt(l, "deepfake", i);
      assert l[i + 4..i + 8] == "fake";
      assert OccursAt(l, "fake", i + 4);
      ContainsIff(l, "fake");
    }
  }

  datatype Verdict = Verdict(isDeepfake: bool, confidence: real)

  /**
   * The verdict: a malicious name is a deepfake with confidence in
   * [80, 99), otherwise a safe name is genuine with confidence in [5, 30),
   * otherwise an even seed is a deepfake in [70, 99) and an odd one genuine
   * in [10, 50).
   */
  function Classify(name: string, seed: nat): (v: Verdict)
    ensures IsMaliciousName(name) ==> v.isDeepfake && 80.0 <= v.confidence < 99.0
    ensures !IsMaliciousName(name) && IsSafeName(name) ==> !v.isDeepfake && 5.0 <= v.confidence < 30.0
    ensures !IsMaliciousName(name) && !IsSafeName(name) ==> (v.isDeepfake <==> seed % 2 == 0)
    ensures !IsMaliciousName(name) && !IsSafeName(name) && v.isDeepfake ==> 70.0 <= v.confidence < 99.0
    ensures !IsMaliciousName(name) && !IsSafeName(name) && !v.isDeepfake ==> 10.0 <= v.confidence < 50.0
  {
    var x := Normalized(seed);
    if IsMaliciousName(name) then Verdict(true, 80.0 + x * 19.0)
    else if IsSafeName(name) then Verdict(false, 5.0 + x * 25.0)
    else if seed % 2 == 0 then Verdict(true, 70.0 + x * 29.0)
    else Verdict(false, 10.0 + x * 40.0)
  }

  /**
   * The detail scores: `60 + seed % 40`, `50 + (2·seed) % 50`, and
   * `55 + (seed / 2) % 45` on JavaScript numbers, where `seed / 2` keeps its
   * half; the last equals `55 + (seed % 90) / 2`.
   */
  function MockDetails(seed: nat): (d: Details)
    ensures 60.0 <= d.frequencyAnalysis <= 99.0 && d.frequencyAnalysis == (60 + seed % 40) as real
    ensures 50.0 <= d.temporalPattern <= 99.0 && d.temporalPattern == (50 + (2 * seed) % 50) as real
    ensures 55.0 <= d.acousticFeature < 100.0
    ensures d.acousticFeature == 55.0 + ((seed / 2) % 45) as real + (seed % 2) as real / 2.0
  {
    HalfRemainder(seed);
    Details((60 + seed % 40) as real, (50 + (2 * seed) % 50) as real, 55.0 + (seed % 90) as real / 2.0)
  }

  /** The JavaScript remainder on the halved seed, `(seed / 2) % 45`, equals `(seed % 90) / 2`. */
  lemma HalfRemainder(seed: nat)
    ensures (seed % 90) as real / 2.0 == ((seed / 2) % 45) as real + (seed % 2) as real / 2.0
  {
    var q, r := seed / 2, seed % 2;
    assert seed == 2 * q + r;
    var q45, r45 := q / 45, q % 45;
    assert q == 45 * q45 + r45;
    assert seed == 90 * q45 + (2 * r45 + r);
    assert 0 <= 2 * r45 + r < 90;
    assert seed % 90 == 2 * r45 + r;
  }

  /** The offline result for a file, stamped with the clock. */
  function MockResult(f: File, now: int, timestamp: string): (item: Item)
    ensures item.filename == Some(FileName(f)) && item.kind == "audio" && item.id == now
    ensures item.context.None? && item.speaker.None?
    ensures item.advanced == Some(Generate(Seed(f)))
    ensures item.isDeepfake == Classify(FileName(f), Seed(f)).isDeepfake
    ensures item.confidence == Classify(FileName(f), Seed(f)).confidence && item.details == MockDetails(Seed(f))
    ensures 5.0 <= item.confidence < 99.0
  {
    var seed := Seed(f);
    var v := Classify(FileName(f), seed);
    Item(now, Some(FileName(f)), v.confidence, v.isDeepfake, timestamp, MockDetails(seed), Some(Generate(seed)), "audio", None, None)
  }

  /** Two files with the same effective name and size get the same verdict, confidence and details. */
  lemma SameNameAndSizeSameResult(f: File, g: File, now: int, timestamp: string)
    requires FileName(f) == FileName(g) && f.size.GetOr(0) == g.size.GetOr(0)
    ensures MockResult(f, now, timestamp) == MockResult(g, now, timestamp)
  {
  }

  /** What the server answered, when it answered with success; `context` and `speaker` are absent when the reply lacks them. */
  datatype ServerAnswer = ServerAnswer(confidence: real, isDeepfake: bool, details: Details,
                                       context: Option<Json>, speaker: Option<Json>)

  /** The entry built from a server answer: its verdict, details and reports, the picked name as it is, and a clock-seeded advanced analysis. */
  function ServerItem(f: File, a: ServerAnswer, now: int, seedNow: int, timestamp: string): (item: Item)
    ensures item.isDeepfake == a.isDeepfake && item.confidence == a.confidence && item.details == a.details
    ensures item.context == a.context && item.speaker == a.speaker && item.kind == "audio"
    ensures item.filename == f.name && item.id == now && item.advanced == Some(Generate(seedNow))
  {
    Item(now, f.name, a.confidence, a.isDeepfake, timestamp, a.details, Some(Generate(seedNow)), "audio", a.context, a.speaker)
  }

  /** The analysis state the screen keeps. */
  datatype Screen = Screen(history: seq<Item>, result: Option<Item>)

  /**
   * `handleAnalyze`: nothing happens without a selected file; otherwise the
   * server's answer is used when there is one and the offline result when
   * not, and the result is put in front of the capped history.  `now` is
   * the clock when the entry is built; `seedNow` is the clock read again
   * for the server entry's advanced-analysis seed.
   */
  function HandleAnalyze(st: Screen, selected: Option<File>, server: Option<ServerAnswer>,
                         now: int, seedNow: int, timestamp: string): (r: Screen)
    ensures selected.None? ==> r == st
    ensures selected.Some? ==> r.result.Some? && r.history == Prepend(st.history, r.result.value)
    ensures selected.Some? && server.None? ==> r.result == Some(MockResult(selected.value, now, timestamp))
    ensures selected.Some? && server.Some? ==> r.result == Some(ServerItem(selected.value, server.value, now, seedNow, timestamp))
  {
    match selected
    case None => st
    case Some(f) =>
      var item := match server
        case Some(a) => ServerItem(f, a, now, seedNow, timestamp)
        case None => MockResult(f, now, timestamp);
      var h := Prepend(st.history, item);
      Screen(h, Some(item))
  }
}

=== FILE: result_geometry.dfy ===
/**
 * The geometry of the result card: the polyline and filled-area paths
 * drawn for the waveform and spectrum values, and the mapping of the
 * suspicious regions of an image onto its on-screen view when the image
 * is shown fitted ("contain").  Paths are modelled as command lists; the
 * text rendering of the numbers in them is not modelled.
 */
module ResultGeometry {
  import opened Base

  /** One path command: move to, line to, close. */
  datatype Cmd = Move(x: real, y: real) | Line(x: real, y: real) | Close

  /** The y coordinate of a value in percent: 0 at the bottom edge, 100 at the top. */
  function Level(val: real, height: real): (y: real)
    ensures height >= 0.0 && 0.0 <= val <= 100.0 ==> 0.0 <= y <= height
    ensures val == 0.0 ==> y == height
    ensures val == 100.0 ==> y == 0.0
  {
    height - (val / 100.0) * height
  }

  /** A larger value is drawn higher up, i.e. with a smaller y. */
  lemma LevelDecreasing(a: real, b: real, height: real)
    requires a < b && height > 0.0
    ensures Level(b, height) < Level(a, height)
  {
    assert (b / 100.0) * height - (a / 100.0) * height == ((b - a) / 100.0) * height;
  }

  /** The horizontal distance between consecutive points: the width over n − 1 gaps. */
  function Step(n: nat, width: real): (step: real)
    requires n >= 2
    ensures step * (n - 1) as real == width
  {
    width / (n - 1) as real
  }

  /**
   * The chart points of `data` spread over `width`: point `i` sits at
   * `i · width / (n − 1)` and at the height of its value.
   */
  function Points(data: seq<real>, width: real, height: real): (pts: seq<(real, real)>)
    requires |data| >= 2
    ensures |pts| == |data|
    ensures forall i :: 0 <= i < |data| ==> pts[i].0 == (i as real) * Step(|data|, width) && pts[i].1 == Level(data[i], height)
  {
    seq(|data|, (i: int) requires 0 <= i < |data| => PointAt(data, width, height, i))
  }

  /** Point `i` of the chart. */
  function PointAt(data: seq<real>, width: real, height: real, i: nat): (real, real)
    requires 2 <= |data| && i < |data|
  {
    ((i as real) * Step(|data|, width), Level(data[i], height))
  }

  /** The points run from the left edge to the right edge, left to right when the width is not negative. */
  lemma PointsSpan(data: seq<real>, width: real, height: real)
    requires |data| >= 2
    ensures Points(data, width, height)[0].0 == 0.0
    ensures Points(data, width, height)[|data| - 1].0 == width
    ensures width >= 0.0 ==> forall i, j :: 0 <= i < j < |data| ==>
      Points(data, width, height)[i].0 <= Points(data, width, height)[j].0
    ensures width > 0.0 ==> forall i, j :: 0 <= i < j < |data| ==>
      Points(data, width, height)[i].0 < Points(data, width, height)[j].0
    ensures forall i :: 0 <= i < |data| ==> Points(data, width, height)[i].1 == Level(data[i], height)
  {
    var step := Step(|data|, width);
    var pts := Points(data, width, height);
    assert ((|data| - 1) as real) * step == width;
    if width >= 0.0 {
      assert step >= 0.0;
      forall i, j | 0 <= i < j < |data|
        ensures pts[i].0 <= pts[j].0
        ensures width > 0.0 ==> pts[i].0 < pts[j].0
      {
        assert (j as real) * step - (i as real) * step == ((j - i) as real) * step;
        if width > 0.0 {
          assert step > 0.0;
          PositiveProduct((j - i) as real, step);
        }
      }
    }
  }

  lemma PositiveProduct(a: real, b: real)
    requires a > 0.0 && b > 0.0
    ensures a * b > 0.0
  {
  }

  /** The line commands through a list of points. */
  function LinesThrough(pts: seq<(real, real)>): (cmds: seq<Cmd>)
    ensures |cmds| == |pts|
    ensures forall i :: 0 <= i < |pts| ==> cmds[i] == Line(pts[i].0, pts[i].1)
  {
    seq(|pts|, i requires 0 <= i < |pts| => Line(pts[i].0, pts[i].1))
  }

  /** The path of absent or empty data: a move to the origin. */
  const EmptyPath: seq<Cmd> := [Move(0.0, 0.0)]

  /** `generateLinePath`: a move to the first point, then a line to each further point. */
  function LinePath(data: Option<seq<real>>, width: real, height: real): (cmds: seq<Cmd>)
    requires data.None? || |data.value| != 1
    ensures data.None? || |data.value| == 0 ==> cmds == EmptyPath
    ensures data.Some? && |data.value| >= 2 ==>
      var pts := Points(data.value, width, height);
      |cmds| == |data.value| && cmds[0] == Move(pts[0].0, pts[0].1) && cmds[1..] == LinesThrough(pts[1..])
  {
    if data.None? || |data.value| == 0 then EmptyPath
    else
      var pts := Points(data.value, width, height);
      [Move(pts[0].0, pts[0].1)] + LinesThrough(pts[1..])
  }

  /**
   * `generateAreaPath`: a move to the left edge at the first value, a line
   * to every point, then down to the bottom-right and bottom-left corners,
   * closed.
   */
  function AreaPath(data: Option<seq<real>>, width: real, height: real): (cmds: seq<Cmd>)
    requires data.None? || |data.value| != 1
    ensures data.None? || |data.value| == 0 ==> cmds == EmptyPath
    ensures data.Some? && |data.value| >= 2 ==>
      var pts := Points(data.value, width, height);
      var n := |data.value|;
      |cmds| == n + 4 && cmds[0] == Move(0.0, pts[0].1) && cmds[1..n + 1] == LinesThrough(pts) &&
      cmds[n + 1..] == [Line(width, height), Line(0.0, height), Close]
  {
    if data.None? || |data.value| == 0 then EmptyPath
    else
      var pts := Points(data.value, width, height);
      var cmds := [Move(0.0, pts[0].1)] + LinesThrough(pts) + [Line(width, height), Line(0.0, height), Close];
      assert cmds[1..|pts| + 1] == LinesThrough(pts);
      cmds
  }

  /** The area's outline follows the line path: the same points, the area starting on the same spot. */
  lemma AreaFollowsLine(data: seq<real>, width: real, height: real)
    requires |data| >= 2
    ensures var line := LinePath(Some(data), width, height);
      var area := AreaPath(Some(data), width, height);
      line[0] == Move(area[0].x, area[0].y) &&
      forall i :: 1 <= i < |data| ==> area[i + 1] == line[i]
  {
    var pts := Points(data, width, height);
    assert pts[0].0 == 0.0;
    var line := LinePath(Some(data), width, height);
    var area := AreaPath(Some(data), width, height);
    forall i | 1 <= i < |data|
      ensures area[i + 1] == line[i]
    {
      assert area[1..|data| + 1][i] == LinesThrough(pts)[i];
      assert line[1..][i - 1] == LinesThrough(pts[1..])[i - 1];
    }
  }

  /** How an image is fitted into its view: the scale and the centring offsets. */
  datatype Fit = Fit(scale: real, offsetX: real, offsetY: real)

  function Min(a: real, b: real): real {
    if a <= b then a else b
  }

  /**
   * The "contain" fit of an `iw × ih` image in a `vw × vh` view: the
   * largest scale at which the whole image shows, centred.  The shown
   * image stays inside the view, fills it along one side, and keeps the
   * image's aspect ratio.
   */
  function ContainFit(iw: real, ih: real, vw: real, vh: real): (f: Fit)
    requires iw > 0.0 && ih > 0.0
    ensures vw >= 0.0 && vh >= 0.0 ==> f.scale >= 0.0
    ensures iw * f.scale <= vw && ih * f.scale <= vh
    ensures iw * f.scale == vw || ih * f.scale == vh
    ensures vw >= 0.0 && vh >= 0.0 ==> f.offsetX >= 0.0 && f.offsetY >= 0.0
    ensures f.offsetX == (vw - iw * f.scale) / 2.0 && f.offsetY == (vh - ih * f.scale) / 2.0
  {
    var scale := Min(vw / iw, vh / ih);
    assert iw * (vw / iw) == vw && ih * (vh / ih) == vh;
    assert iw * scale <= vw by {
      if scale != vw / iw {
        MulLe(iw, scale, vw / iw);
      }
    }
    assert ih * scale <= vh by {
      if scale != vh / ih {
        MulLe(ih, scale, vh / ih);
      }
    }
    Fit(scale, (vw - iw * scale) / 2.0, (vh - ih * scale) / 2.0)
  }

  lemma MulLe(k: real, a: real, b: real)
    requires k > 0.0 && a <= b
    ensures k * a <= k * b
  {
  }

  /** A region point drawn on the view: scaled, then shifted by the centring offset. */
  function Place(p: (real, real), f: Fit): (real, real) {
    (p.0 * f.scale + f.offsetX, p.1 * f.scale + f.offsetY)
  }

  /** The regions' points placed on the view, region by region and point by point. */
  function Overlay(regions: seq<seq<(real, real)>>, f: Fit): (r: seq<seq<(real, real)>>)
    ensures |r| == |regions|
    ensures forall k :: 0 <= k < |regions| ==> |r[k]| == |regions[k]|
    ensures forall k, i :: 0 <= k < |regions| && 0 <= i < |regions[k]| ==> r[k][i] == Place(regions[k][i], f)
  {
    seq(|regions|, k requires 0 <= k < |regions| =>
      seq(|regions[k]|, i requires 0 <= i < |regions[k]| => Place(regions[k][i], f)))
  }

  /** A point of the image lands inside the view. */
  lemma PlacedInsideView(p: (real, real), iw: real, ih: real, vw: real, vh: real)
    requires iw > 0.0 && ih > 0.0 && vw >= 0.0 && vh >= 0.0
    requires 0.0 <= p.0 <= iw && 0.0 <= p.1 <= ih
    ensures var q := Place(p, ContainFit(iw, ih, vw, vh));
      0.0 <= q.0 <= vw && 0.0 <= q.1 <= vh
  {
    var f := ContainFit(iw, ih, vw, vh);
    MulLeScale(p.0, iw, f.scale);
    MulLeScale(p.1, ih, f.scale);
  }

  /** Every region point inside the image is drawn inside the view. */
  lemma OverlayInsideView(regions: seq<seq<(real, real)>>, iw: real, ih: real, vw: real, vh: real)
    requires iw > 0.0 && ih > 0.0 && vw >= 0.0 && vh >= 0.0
    requires forall k, i :: 0 <= k < |regions| && 0 <= i < |regions[k]| ==>
      0.0 <= regions[k][i].0 <= iw && 0.0 <= regions[k][i].1 <= ih
    ensures var r := Overlay(regions, ContainFit(iw, ih, vw, vh));
      forall k, i :: 0 <= k < |r| && 0 <= i < |r[k]| ==> 0.0 <= r[k][i].0 <= vw && 0.0 <= r[k][i].1 <= vh
  {
    var r: seq<seq<(real, real)>> := Overlay(regions, ContainFit(iw, ih, vw, vh));
    forall k: int, i: int | 0 <= k < |r| && 0 <= i < |r[k]|
      ensures 0.0 <= r[k][i].0 <= vw && 0.0 <= r[k][i].1 <= vh
    {
      PlacedInsideView(regions[k][i], iw, ih, vw, vh);
    }
  }

  lemma MulLeScale(x: real, bound: real, s: real)
    requires 0.0 <= x <= bound && s >= 0.0
    ensures 0.0 <= x * s <= bound * s
  {
  }

  /**
   * `renderSuspiciousRegions`: nothing is drawn until the view has been
   * measured and the result carries both the regions and the image size;
   * then every region is drawn with all its points placed on the view.
   */
  function SuspiciousOverlay(layout: Option<(real, real)>, regions: Option<seq<seq<(real, real)>>>,
                             dims: Option<(real, real)>): (r: Option<seq<seq<(real, real)>>>)
    requires dims.Some? ==> dims.value.0 > 0.0 && dims.value.1 > 0.0
    ensures r.Some? <==> layout.Some? && regions.Some? && dims.Some?
    ensures r.Some? ==> |r.value| == |regions.value| &&
                        (forall k :: 0 <= k < |regions.value| ==> |r.value[k]| == |regions.value[k]|)
    ensures r.Some? ==> r.value == Overlay(regions.value, ContainFit(dims.value.0, dims.value.1, layout.value.0, layout.value.1))
  {
    if layout.None? || regions.None? || dims.None? then None
    else Some(Overlay(regions.value, ContainFit(dims.value.0, dims.value.1, layout.value.0, layout.value.1)))
  }
}

=== FILE: seeded_random.dfy ===
/**
 * The offline "advanced analysis" generator of the app: a linear
 * congruential generator over an integer seed (multiplier 9301, increment
 * 49297, modulus 233280) drawn from in the textual order of the result's
 * fields, so that one seed always produces one structure.  The seed
 * defaults to the clock, which is an input here.
 */
module SeededRandom {
  import opened Base
  import opened Text

  const Modulus: int := 233280
  const Multiplier: int := 9301
  const Increment: int := 49297

  /** One generator step, with JavaScript's remainder. */
  function Next(seed: int): (s: int)
    ensures seed >= 0 ==> 0 <= s < Modulus
    ensures -Modulus < s < Modulus
  {
    JsRem(seed * Multiplier + Increment, Modulus)
  }

  /** The value reported for the new seed `s` when drawing from `[lo, hi)`. */
  function Scale(s: int, lo: real, hi: real): (v: real)
    ensures 0 <= s < Modulus && lo < hi ==> lo <= v < hi
  {
    var f := s as real / Modulus as real;
    assert 0 <= s < Modulus ==> 0.0 <= f < 1.0;
    var part := f * (hi - lo);
    if 0.0 <= f < 1.0 && lo < hi then
      FractionOfSpan(f, hi - lo, part);
      lo + part
    else lo + part
  }

  /** A fraction in [0, 1) of a positive span stays below the span. */
  lemma FractionOfSpan(f: real, w: real, part: real)
    requires 0.0 <= f < 1.0 && w > 0.0 && part == f * w
    ensures 0.0 <= part < w
  {
    assert w - part == (1.0 - f) * w;
  }

  /** A drawn value and the generator state after the draw. */
  datatype Draw = Draw(value: real, seed: int)

  /** The closure `random(min, max)`: advance the seed, then scale it into the range. */
  function Random(seed: int, lo: real, hi: real): (d: Draw)
    ensures d.seed == Next(seed)
    ensures seed >= 0 ==> 0 <= d.seed < Modulus
    ensures seed >= 0 && lo < hi ==> lo <= d.value < hi
  {
    var s := Next(seed);
    Draw(Scale(s, lo, hi), s)
  }

  /** The seed after `k` steps. */
  function Iterate(seed: int, k: nat): int {
    if k == 0 then seed else Next(Iterate(seed, k - 1))
  }

  /** `n` consecutive draws from one range (an `Array.from` of length `n`), and the seed after them. */
  function Draws(seed: int, n: nat, lo: real, hi: real): (r: (seq<real>, int))
    ensures |r.0| == n
    ensures seed >= 0 ==> r.1 >= 0
    ensures seed >= 0 && lo < hi ==> forall i :: 0 <= i < n ==> lo <= r.0[i] < hi
    decreases n
  {
    if n == 0 then ([], seed)
    else
      var d := Random(seed, lo, hi);
      var rest := Draws(d.seed, n - 1, lo, hi);
      ([d.value] + rest.0, rest.1)
  }

  /** Stepping first and then `k` times is stepping `k + 1` times. */
  lemma {:induction false} IterateShift(seed: int, k: nat)
    ensures Iterate(Next(seed), k) == Iterate(seed, k + 1)
  {
    if k > 0 {
      IterateShift(seed, k - 1);
    }
  }

  /** The i-th of `n` draws reports the seed after `i + 1` steps, and the draws leave the seed after `n` steps. */
  lemma {:induction false} DrawsClosedForm(seed: int, n: nat, lo: real, hi: real)
    ensures Draws(seed, n, lo, hi).1 == Iterate(seed, n)
    ensures forall i :: 0 <= i < n ==> Draws(seed, n, lo, hi).0[i] == Scale(Iterate(seed, i + 1), lo, hi)
    decreases n
  {
    if n > 0 {
      var s := Next(seed);
      DrawsClosedForm(s, n - 1, lo, hi);
      IterateShift(seed, n - 1);
      forall i | 0 <= i < n
        ensures Draws(seed, n, lo, hi).0[i] == Scale(Iterate(seed, i + 1), lo, hi)
      {
        if i > 0 {
          IterateShift(seed, i);
          assert Draws(seed, n, lo, hi).0[i] == Draws(s, n - 1, lo, hi).0[i - 1];
        }
      }
    }
  }

  /** `rows` arrays of `cols` draws each, row by row. */
  function Matrix(seed: int, rows: nat, cols: nat, lo: real, hi: real): (r: (seq<seq<real>>, int))
    ensures |r.0| == rows
    ensures forall i :: 0 <= i < rows ==> |r.0[i]| == cols
    ensures seed >= 0 ==> r.1 >= 0
    ensures seed >= 0 && lo < hi ==> forall i, j :: 0 <= i < rows && 0 <= j < cols ==> lo <= r.0[i][j] < hi
    decreases rows
  {
    if rows == 0 then ([], seed)
    else
      var row := Draws(seed, cols, lo, hi);
      var rest := Matrix(row.1, rows - 1, cols, lo, hi);
      ([row.0] + rest.0, rest.1)
  }

  /** `options[Math.floor(x)]`, which is `undefined` outside the array. */
  function Pick(options: seq<string>, x: real): (r: Option<string>)
    ensures 0.0 <= x < |options| as real ==> r.Some? && r.value in options
    ensures r.Some? ==> r.value in options
  {
    var i := x.Floor;
    if 0 <= i < |options| then Some(options[i]) else None
  }

  const AgeRanges: seq<string> := ["청년", "중년", "노년"]
  const Accents: seq<string> := ["서울", "경상", "전라", "충청", "강원", "제주"]

  datatype SpectralFeatures = SpectralFeatures(centroid: seq<real>, rolloff: seq<real>, flux: seq<real>, zeroCrossingRate: seq<real>)

  datatype VoiceFingerprint = VoiceFingerprint(pitchMean: real, pitchVariance: real, formantF1: real, formantF2: real,
                                               formantF3: real, jitter: real, shimmer: real, harmonicToNoiseRatio: real)

  datatype Characteristics = Characteristics(gender: string, ageRange: Option<string>, accent: Option<string>)

  datatype SpeakerMatch = SpeakerMatch(confidence: real, matchedSpeakerId: Option<string>, characteristics: Characteristics)

  datatype DeepfakeIndicators = DeepfakeIndicators(phaseCoherence: real, temporalConsistency: real, spectralAnomaly: real,
                                                   artifactDetection: real, lipSyncConsistency: real)

  datatype EmotionAnalysis = EmotionAnalysis(neutral: real, happy: real, sad: real, angry: real, fear: real, surprise: real)

  datatype AudioQuality = AudioQuality(snr: real, bitrate: real, sampleRate: real, dynamicRange: real)

  datatype AdvancedAnalysis = AdvancedAnalysis(mfcc: seq<seq<real>>, spectralFeatures: SpectralFeatures,
                                               voiceFingerprint: VoiceFingerprint, speakerMatch: SpeakerMatch,
                                               deepfakeIndicators: DeepfakeIndicators, emotionAnalysis: EmotionAnalysis,
                                               audioQuality: AudioQuality)

  /** Each of the spectral arrays holds values drawn from its own range. */
  predicate SpectralInRange(x: SpectralFeatures) {
    (forall i :: 0 <= i < |x.centroid| ==> 1000.0 <= x.centroid[i] < 5000.0) &&
    (forall i :: 0 <= i < |x.rolloff| ==> 3000.0 <= x.rolloff[i] < 8000.0) &&
    (forall i :: 0 <= i < |x.flux| ==> 0.0 <= x.flux[i] < 100.0) &&
    (forall i :: 0 <= i < |x.zeroCrossingRate| ==> 0.0 <= x.zeroCrossingRate[i] < 0.3)
  }

  predicate FingerprintInRange(x: VoiceFingerprint) {
    100.0 <= x.pitchMean < 250.0 && 10.0 <= x.pitchVariance < 50.0 && 400.0 <= x.formantF1 < 700.0 &&
    1200.0 <= x.formantF2 < 2000.0 && 2200.0 <= x.formantF3 < 3000.0 && 0.0 <= x.jitter < 0.02 &&
    0.0 <= x.shimmer < 0.1 && 10.0 <= x.harmonicToNoiseRatio < 25.0
  }

  predicate IndicatorsInRange(x: DeepfakeIndicators) {
    50.0 <= x.phaseCoherence < 100.0 && 50.0 <= x.temporalConsistency < 100.0 && 50.0 <= x.spectralAnomaly < 100.0 &&
    50.0 <= x.artifactDetection < 100.0 && 50.0 <= x.lipSyncConsistency < 100.0
  }

  predicate EmotionsInRange(x: EmotionAnalysis) {
    0.0 <= x.neutral < 100.0 && 0.0 <= x.happy < 100.0 && 0.0 <= x.sad < 100.0 &&
    0.0 <= x.angry < 100.0 && 0.0 <= x.fear < 100.0 && 0.0 <= x.surprise < 100.0
  }

  predicate QualityInRange(x: AudioQuality) {
    10.0 <= x.snr < 40.0 && 64.0 <= x.bitrate < 320.0 && 8000.0 <= x.sampleRate < 48000.0 && 30.0 <= x.dynamicRange < 90.0
  }

  function Spectral(seed: int): (r: (SpectralFeatures, int))
    ensures |r.0.centroid| == 50 && |r.0.rolloff| == 50 && |r.0.flux| == 50 && |r.0.zeroCrossingRate| == 50
    ensures seed >= 0 ==> r.1 >= 0
    ensures seed >= 0 ==> SpectralInRange(r.0)
  {
    var c := Draws(seed, 50, 1000.0, 5000.0);
    var ro := Draws(c.1, 50, 3000.0, 8000.0);
    var f := Draws(ro.1, 50, 0.0, 100.0);
    var z := Draws(f.1, 50, 0.0, 0.3);
    (SpectralFeatures(c.0, ro.0, f.0, z.0), z.1)
  }

  function Fingerprint(seed: int): (r: (VoiceFingerprint, int))
    ensures seed >= 0 ==> r.1 >= 0
    ensures seed >= 0 ==> FingerprintInRange(r.0)
  {
    var a := Random(seed, 100.0, 250.0);
    var b := Random(a.seed, 10.0, 50.0);
    var c := Random(b.seed, 400.0, 700.0);
    var d := Random(c.seed, 1200.0, 2000.0);
    var e := Random(d.seed, 2200.0, 3000.0);
    var f := Random(e.seed, 0.0, 0.02);
    var g := Random(f.seed, 0.0, 0.1);
    var h := Random(g.seed, 10.0, 25.0);
    (VoiceFingerprint(a.value, b.value, c.value, d.value, e.value, f.value, g.value, h.value), h.seed)
  }

  /**
   * The speaker profile.  The speaker number is drawn only when the
   * preceding draw exceeds 0.5, so the number of draws depends on the seed.
   */
  function Speaker(seed: int): (r: (SpeakerMatch, int))
    ensures seed >= 0 ==> r.1 >= 0
    ensures seed >= 0 ==> 60.0 <= r.0.confidence < 95.0
    ensures seed >= 0 ==> r.0.characteristics.ageRange.Some? && r.0.characteristics.ageRange.value in AgeRanges
    ensures seed >= 0 ==> r.0.characteristics.accent.Some? && r.0.characteristics.accent.value in Accents
    ensures r.0.characteristics.gender in {"남성", "여성"}
    ensures seed >= 0 && r.0.matchedSpeakerId.Some? ==>
      exists k :: 1 <= k <= 99 && r.0.matchedSpeakerId.value == "speaker_" + IntToString(k)
  {
    var conf := Random(seed, 60.0, 95.0);
    var coin := Random(conf.seed, 0.0, 1.0);
    var picked: (Option<string>, int) :=
      if coin.value > 0.5 then
        var n := Random(coin.seed, 1.0, 100.0);
        (Some("speaker_" + IntToString(n.value.Floor)), n.seed)
      else (None, coin.seed);
    var id := picked.0;
    var g := Random(picked.1, 0.0, 1.0);
    var age := Random(g.seed, 0.0, 3.0);
    var accent := Random(age.seed, 0.0, 6.0);
    (SpeakerMatch(conf.value, id, Characteristics(if g.value > 0.5 then "남성" else "여성",
                                                  Pick(AgeRanges, age.value), Pick(Accents, accent.value))),
     accent.seed)
  }

  function Indicators(seed: int): (r: (DeepfakeIndicators, int))
    ensures seed >= 0 ==> r.1 >= 0
    ensures seed >= 0 ==> IndicatorsInRange(r.0)
  {
    var d := Draws(seed, 5, 50.0, 100.0);
    (DeepfakeIndicators(d.0[0], d.0[1], d.0[2], d.0[3], d.0[4]), d.1)
  }

  function Emotions(seed: int): (r: (EmotionAnalysis, int))
    ensures seed >= 0 ==> r.1 >= 0
    ensures seed >= 0 ==> EmotionsInRange(r.0)
  {
    var d := Draws(seed, 6, 0.0, 100.0);
    (EmotionAnalysis(d.0[0], d.0[1], d.0[2], d.0[3], d.0[4], d.0[5]), d.1)
  }

  function Quality(seed: int): (r: (AudioQuality, int))
    ensures seed >= 0 ==> QualityInRange(r.0)
  {
    var a := Random(seed, 10.0, 40.0);
    var b := Random(a.seed, 64.0, 320.0);
    var c := Random(b.seed, 8000.0, 48000.0);
    var d := Random(c.seed, 30.0, 90.0);
    (AudioQuality(a.value, b.value, c.value, d.value), d.seed)
  }

  /** The whole structure, its fields drawn in textual order from one generator. */
  function Generate(seed: int): (a: AdvancedAnalysis)
    ensures |a.mfcc| == 13 && forall i :: 0 <= i < 13 ==> |a.mfcc[i]| == 20
    ensures |a.spectralFeatures.centroid| == 50 && |a.spectralFeatures.rolloff| == 50
    ensures |a.spectralFeatures.flux| == 50 && |a.spectralFeatures.zeroCrossingRate| == 50
    ensures seed >= 0 ==> forall i, j :: 0 <= i < 13 && 0 <= j < 20 ==> -20.0 <= a.mfcc[i][j] < 20.0
    ensures seed >= 0 ==> SpectralInRange(a.spectralFeatures) && FingerprintInRange(a.voiceFingerprint)
    ensures seed >= 0 ==> 60.0 <= a.speakerMatch.confidence < 95.0
    ensures seed >= 0 ==> a.speakerMatch.characteristics.ageRange.Some? && a.speakerMatch.characteristics.ageRange.value in AgeRanges
    ensures seed >= 0 ==> a.speakerMatch.characteristics.accent.Some? && a.speakerMatch.characteristics.accent.value in Accents
    ensures seed >= 0 ==> IndicatorsInRange(a.deepfakeIndicators) && EmotionsInRange(a.emotionAnalysis) && QualityInRange(a.audioQuality)
    ensures a.speakerMatch.characteristics.gender in {"남성", "여성"}
    ensures seed >= 0 && a.speakerMatch.matchedSpeakerId.Some? ==>
      exists k :: 1 <= k <= 99 && a.speakerMatch.matchedSpeakerId.value == "speaker_" + IntToString(k)
  {
    var m := Matrix(seed, 13, 20, -20.0, 20.0);
    var sp := Spectral(m.1);
    var fp := Fingerprint(sp.1);
    var spk := Speaker(fp.1);
    var ind := Indicators(spk.1);
    var emo := Emotions(ind.1);
    var q := Quality(emo.1);
    AdvancedAnalysis(m.0, sp.0, fp.0, spk.0, ind.0, emo.0, q.0)
  }
}

=== FILE: text.dfy ===
/**
 * String helpers that the JavaScript and Python sources get from their
 * runtimes: decimal rendering of integers, `padStart`, substring tests,
 * ASCII lower-casing, `/\D/g` stripping, `str.replace(p, '')` and
 * `split('/').pop()`.  Strings are sequences of characters.
 */
module Text {
  import opened Base

  predicate IsDigit(c: char) {
    '0' <= c <= '9'
  }

  predicate AllDigits(s: string) {
    forall i :: 0 <= i < |s| ==> IsDigit(s[i])
  }

  function DigitChar(d: nat): (c: char)
    requires d < 10
    ensures IsDigit(c)
  {
    "0123456789"[d]
  }

  function DigitValue(c: char): nat
    requires IsDigit(c)
  {
    (c as int - '0' as int) as nat
  }

  /** Decimal rendering of a natural number, as `Number.prototype.toString` and `str()` give it. */
  function NatToString(n: nat): (s: string)
    ensures |s| >= 1 && AllDigits(s)
    ensures |s| > 1 ==> s[0] != '0'
  {
    if n < 10 then [DigitChar(n)] else NatToString(n / 10) + [DigitChar(n % 10)]
  }

  /** Decimal rendering of an integer, with a leading `-` when negative. */
  function IntToString(i: int): (s: string)
    ensures i >= 0 ==> s == NatToString(i)
    ensures i < 0 ==> s == "-" + NatToString(-i)
  {
    if i < 0 then "-" + NatToString(-i) else NatToString(i)
  }

  /** Value of a string of decimal digits (leading zeros allowed). */
  function ParseDigits(s: string): nat
    requires AllDigits(s)
  {
    if |s| == 0 then 0 else ParseDigits(s[..|s| - 1]) * 10 + DigitValue(s[|s| - 1])
  }

  /** Reading back a rendered natural number gives the number. */
  lemma {:induction false} ParseNatToString(n: nat)
    ensures ParseDigits(NatToString(n)) == n
  {
    if n >= 10 {
      var s := NatToString(n);
      assert s[..|s| - 1] == NatToString(n / 10);
      ParseNatToString(n / 10);
    }
  }

  /** Leading zeros do not change the value of a digit string. */
  lemma {:induction false} ParseDigitsLeadingZero(s: string)
    requires AllDigits(s)
    ensures ParseDigits(['0'] + s) == ParseDigits(s)
  {
    if |s| > 0 {
      var t := ['0'] + s;
      assert t[..|t| - 1] == ['0'] + s[..|s| - 1];
      ParseDigitsLeadingZero(s[..|s| - 1]);
    }
  }

  /** `s.padStart(width, c)`: `s` preceded by enough copies of `c` to reach `width`. */
  function PadStart(s: string, width: nat, c: char): (r: string)
    ensures |r| == if |s| >= width then |s| else width
    ensures r[|r| - |s|..] == s
    ensures forall i :: 0 <= i < |r| - |s| ==> r[i] == c
    decreases width - |s|
  {
    if |s| >= width then s else PadStart([c] + s, width, c)
  }

  /** Two-character zero padding of a decimal rendering reads back as the same number. */
  lemma PadZeroParses(n: nat)
    ensures AllDigits(PadStart(NatToString(n), 2, '0'))
    ensures ParseDigits(PadStart(NatToString(n), 2, '0')) == n
  {
    ParseNatToString(n);
    var s := NatToString(n);
    if |s| < 2 {
      assert PadStart(s, 2, '0') == ['0'] + s;
      ParseDigitsLeadingZero(s);
    }
  }

  /** `pat` occurs in `s` at position `i`. */
  ghost predicate OccursAt(s: string, pat: string, i: int) {
    0 <= i && i + |pat| <= |s| && s[i..i + |pat|] == pat
  }

  /** Python's `pat in s` and JavaScript's `s.includes(pat)`. */
  predicate Contains(s: string, pat: string)
    decreases |s|
  {
    |pat| <= |s| && (s[..|pat|] == pat || (|s| > 0 && Contains(s[1..], pat)))
  }

  /** `Contains` holds exactly when some position of `s` starts an occurrence of `pat`. */
  lemma {:induction false} ContainsIff(s: string, pat: string)
    ensures Contains(s, pat) <==> exists i :: OccursAt(s, pat, i)
    decreases |s|
  {
    if |pat| > |s| {
    } else if s[..|pat|] == pat {
      assert OccursAt(s, pat, 0);
    } else {
      assert |s| > 0;
      ContainsIff(s[1..], pat);
      if exists i :: OccursAt(s, pat, i) {
        var i :| OccursAt(s, pat, i);
        assert i != 0;
        assert s[1..][i - 1..i - 1 + |pat|] == s[i..i + |pat|];
        assert OccursAt(s[1..], pat, i - 1);
      }
      if Contains(s[1..], pat) {
        var i :| OccursAt(s[1..], pat, i);
        assert s[i + 1..i + 1 + |pat|] == s[1..][i..i + |pat|];
        assert OccursAt(s, pat, i + 1);
      }
    }
  }

  /** A string contains every string it starts with. */
  lemma ContainsPrefix(pat: string, rest: string)
    ensures Contains(pat + rest, pat)
  {
    assert (pat + rest)[..|pat|] == pat;
  }

  /** Every occurrence of a string inside a middle piece is an occurrence in the whole. */
  lemma ContainsInfix(a: string, pat: string, b: string)
    ensures Contains(a + pat + b, pat)
  {
    var s := a + pat + b;
    assert s[|a|..|a| + |pat|] == pat;
    assert OccursAt(s, pat, |a|);
    ContainsIff(s, pat);
  }

  /** ASCII lower-casing of one character; every other character is kept. */
  function LowerChar(c: char): (d: char)
    ensures 'A' <= c <= 'Z' ==> d as int == c as int + 32
    ensures !('A' <= c <= 'Z') ==> d == c
  {
    if 'A' <= c <= 'Z' then (c as int + 32) as char else c
  }

  function Lower(s: string): (r: string)
    ensures |r| == |s|
    ensures forall i :: 0 <= i < |s| ==> r[i] == LowerChar(s[i])
  {
    if |s| == 0 then "" else [LowerChar(s[0])] + Lower(s[1..])
  }

  /**
   * The UTF-16 code units of one character, as JavaScript strings store it:
   * the character itself below U+10000, otherwise its surrogate pair.
   */
  function CodeUnits(c: char): (u: seq<nat>)
    ensures (c as int) < 0x10000 ==> u == [c as nat]
    ensures (c as int) >= 0x10000 ==> |u| == 2 && 0xD800 <= u[0] < 0xDC00 && 0xDC00 <= u[1] < 0xE000
  {
    if (c as int) < 0x10000 then [c as nat]
    else
      var v := c as int - 0x10000;
      [0xD800 + v / 0x400, 0xDC00 + v % 0x400]
  }

  /** A surrogate pair decodes back to its character. */
  lemma CodeUnitsDecode(c: char)
    requires (c as int) >= 0x10000
    ensures 0x10000 + (CodeUnits(c)[0] - 0xD800) * 0x400 + (CodeUnits(c)[1] - 0xDC00) == c as int
  {
    var v := c as int - 0x10000;
    assert v == (v / 0x400) * 0x400 + v % 0x400;
  }

  /** The UTF-16 code units of a string, in order: what `length` counts and `charCodeAt` reads. */
  function Utf16(s: string): (u: seq<nat>)
    ensures |u| >= |s|
  {
    if |s| == 0 then [] else Utf16(s[..|s| - 1]) + CodeUnits(s[|s| - 1])
  }

  /** A string without characters beyond U+FFFF has one code unit per character, equal to its code. */
  lemma {:induction false} Utf16Basic(s: string)
    requires forall i :: 0 <= i < |s| ==> (s[i] as int) < 0x10000
    ensures |Utf16(s)| == |s|
    ensures forall i :: 0 <= i < |s| ==> Utf16(s)[i] == s[i] as nat
  {
    if |s| > 0 {
      Utf16Basic(s[..|s| - 1]);
    }
  }

  /** The code units of a concatenation are those of its parts, one after the other. */
  lemma {:induction false} Utf16Append(a: string, b: string)
    ensures Utf16(a + b) == Utf16(a) + Utf16(b)
    decreases |b|
  {
    if |b| == 0 {
      assert a + b == a;
    } else {
      var b' := b[..|b| - 1];
      assert (a + b)[..|a + b| - 1] == a + b';
      assert (a + b)[|a + b| - 1] == b[|b| - 1];
      Utf16Append(a, b');
    }
  }

  /** `s.replace(/\D/g, '')`: the digits of `s`, in order. */
  function Digits(s: string): (r: string)
    ensures AllDigits(r)
    ensures |r| <= |s|
  {
    if |s| == 0 then ""
    else if IsDigit(s[0]) then [s[0]] + Digits(s[1..])
    else Digits(s[1..])
  }

  lemma {:induction false} DigitsAppend(a: string, b: string)
    ensures Digits(a + b) == Digits(a) + Digits(b)
    decreases |a|
  {
    if |a| > 0 {
      assert (a + b)[1..] == a[1..] + b;
      DigitsAppend(a[1..], b);
    } else {
      assert a + b == b;
    }
  }

  /** A single character is kept exactly when it is a digit; with `DigitsAppend` this fixes `Digits` on every string. */
  lemma DigitsChar(c: char)
    ensures Digits([c]) == if IsDigit(c) then [c] else ""
  {
    assert [c][1..] == "";
  }

  /** Stripping non-digits from a string of digits changes nothing. */
  lemma {:induction false} DigitsOfDigits(s: string)
    requires AllDigits(s)
    ensures Digits(s) == s
    decreases |s|
  {
    if |s| > 0 {
      DigitsOfDigits(s[1..]);
    }
  }

  /** Python's `s.replace(pat, '')`: occurrences removed left to right, without overlap. */
  function RemoveAll(s: string, pat: string): (r: string)
    ensures |r| <= |s|
    decreases |s|
  {
    if |pat| == 0 || |s| < |pat| then s
    else if s[..|pat|] == pat then RemoveAll(s[|pat|..], pat)
    else [s[0]] + RemoveAll(s[1..], pat)
  }

  /** Removing a pattern that does not occur leaves the string as it was. */
  lemma {:induction false} RemoveAbsent(s: string, pat: string)
    requires !Contains(s, pat)
    ensures RemoveAll(s, pat) == s
    decreases |s|
  {
    if |pat| > 0 && |s| >= |pat| {
      RemoveAbsent(s[1..], pat);
      assert [s[0]] + s[1..] == s;
    }
  }

  /** The part of `s` after its last `sep`: JavaScript's `s.split(sep).pop()`. */
  function LastSegment(s: string, sep: char): (r: string)
    ensures sep !in r
    ensures |r| <= |s| && s[|s| - |r|..] == r
    ensures |r| < |s| ==> s[|s| - |r| - 1] == sep
  {
    if |s| == 0 || s[|s| - 1] == sep then ""
    else LastSegment(s[..|s| - 1], sep) + [s[|s| - 1]]
  }

  /** The first occurrence of `c` splits `s` into the text before it and the text after it. */
  function SplitAtFirst(s: string, c: char): (r: Option<(string, string)>)
    ensures r.None? <==> c !in s
    ensures r.Some? ==> c !in r.value.0 && s == r.value.0 + [c] + r.value.1
  {
    if |s| == 0 then None
    else if s[0] == c then Some(("", s[1..]))
    else match SplitAtFirst(s[1..], c)
      case None => None
      case Some(p) => Some(([s[0]] + p.0, p.1))
  }

  /** Splitting `a + [c] + b` at its first `c`, when `a` holds none, gives back `a` and `b`. */
  lemma SplitAtFirstJoin(a: string, c: char, b: string)
    requires c !in a
    ensures SplitAtFirst(a + [c] + b, c) == Some((a, b))
  {
    var s := a + [c] + b;
    assert s[|a|] == c;
    var p := SplitAtFirst(s, c).value;
    assert forall i :: 0 <= i < |a| ==> s[i] == a[i] && a[i] != c;
    assert forall i :: 0 <= i < |p.0| ==> s[i] == p.0[i] && p.0[i] != c;
    assert s[|p.0|] == c;
    assert |p.0| == |a|;
    assert p.0 == s[..|a|] == a;
    assert p.1 == s[|a| + 1..] == b;
  }

  /** A two-character zero-padded rendering of a number below 100. */
  lemma TwoDigitField(n: nat)
    requires n < 100
    ensures |PadStart(NatToString(n), 2, '0')| == 2
    ensures AllDigits(PadStart(NatToString(n), 2, '0')) && ParseDigits(PadStart(NatToString(n), 2, '0')) == n
  {
    PadZeroParses(n);
    ShortRendering(n);
  }

  /** A number below 100 is rendered with at most two digits. */
  lemma ShortRendering(n: nat)
    requires n < 100
    ensures |NatToString(n)| <= 2
  {
    if n >= 10 {
      var q := n / 10;
      assert q < 10 by {
        assert n == 10 * q + n % 10;
      }
      assert NatToString(q) == [DigitChar(q)];
    }
  }

  /** Reads an `m:ss` clock text back as a number of seconds; `None` when it is not two digit runs around a colon. */
  function ParseClock(s: string): (r: Option<nat>)
    ensures r.Some? ==> ':' in s
  {
    var split := SplitAtFirst(s, ':');
    if split.Some? && AllDigits(split.value.0) && AllDigits(split.value.1)
    then Some(ParseDigits(split.value.0) * 60 + ParseDigits(split.value.1))
    else None
  }

  /** A digit string holds no colon. */
  lemma NoColonInDigits(m: string)
    requires AllDigits(m)
    ensures ':' !in m
  {
    forall i | 0 <= i < |m|
      ensures m[i] != ':'
    {
      assert IsDigit(m[i]);
    }
  }

  /** `ParseClock` once the split at the first colon is known. */
  lemma ParseClockOfSplit(s: string, m: string, sec: string)
    requires AllDigits(m) && AllDigits(sec)
    requires SplitAtFirst(s, ':') == Some((m, sec))
    ensures ParseClock(s) == Some(ParseDigits(m) * 60 + ParseDigits(sec))
  {
  }

  /** A colon between two digit runs reads back as minutes and seconds. */
  lemma ParseClockJoin(m: string, sec: string)
    requires AllDigits(m) && AllDigits(sec)
    ensures ParseClock(m + ":" + sec) == Some(ParseDigits(m) * 60 + ParseDigits(sec))
  {
    NoColonInDigits(m);
    var s := m + ":" + sec;
    assert s == m + [':'] + sec;
    SplitAtFirstJoin(m, ':', sec);
    ParseClockOfSplit(s, m, sec);
  }

  /** A minutes field, a colon and a two-digit seconds field: where the colon sits, and what the text reads back as. */
  lemma ClockText(mins: string, secs: string, seconds: nat)
    requires AllDigits(mins) && AllDigits(secs) && |mins| >= 1 && |secs| == 2 && ParseDigits(secs) < 60
    requires ParseDigits(mins) * 60 + ParseDigits(secs) == seconds
    ensures var r := mins + ":" + secs;
      |r| == |mins| + 3 && r[|r| - 3] == ':' && ParseClock(r) == Some(seconds) &&
      AllDigits(r[..|r| - 3]) && AllDigits(r[|r| - 2..]) && ParseDigits(r[|r| - 2..]) < 60
  {
    var r := mins + ":" + secs;
    assert r[..|r| - 3] == mins && r[|r| - 2..] == secs;
    ParseClockJoin(mins, secs);
  }
}

=== FILE: training.dfy ===
/**
 * The phishing-prevention quiz: three scenario questions, each with three
 * answers of which exactly one is right, and the screen's state machine
 * for answering, moving on and starting over.  The question, answer and
 * explanation texts are display strings and are not modelled.
 */
module Training {
  import opened Base

  /** One answer of a question; `id` is its letter. */
  datatype Choice = Choice(id: string, isCorrect: bool)

  /** One question; `kind` is its `type` ("scenario", "voice" or "app"). */
  datatype Question = Question(id: nat, kind: string, choices: seq<Choice>)

  const QuizData: seq<Question> := [
    Question(1, "scenario", [Choice("a", false), Choice("b", true), Choice("c", false)]),
    Question(2, "voice", [Choice("a", false), Choice("b", false), Choice("c", true)]),
    Question(3, "app", [Choice("a", true), Choice("b", false), Choice("c", false)])
  ]

  function Point(c: Choice): nat {
    if c.isCorrect then 1 else 0
  }

  /** How many of the answers are right. */
  function CorrectCount(choices: seq<Choice>): nat {
    if |choices| == 0 then 0
    else CorrectCount(choices[..|choices| - 1]) + Point(choices[|choices| - 1])
  }

  /** The right answers among three. */
  lemma CountThree(x: Choice, y: Choice, z: Choice)
    ensures CorrectCount([x, y, z]) == Point(x) + Point(y) + Point(z)
  {
    assert CorrectCount([x]) == Point(x) by {
      assert [x][..0] == [];
    }
    assert CorrectCount([x, y]) == CorrectCount([x]) + Point(y) by {
      assert [x, y][..1] == [x];
    }
    assert CorrectCount([x, y, z]) == CorrectCount([x, y]) + Point(z) by {
      assert [x, y, z][..2] == [x, y];
    }
  }

  /** Every question of the quiz has exactly one right answer. */
  lemma OneRightAnswerEach()
    ensures forall k :: 0 <= k < |QuizData| ==> CorrectCount(QuizData[k].choices) == 1
  {
    forall k | 0 <= k < |QuizData|
      ensures CorrectCount(QuizData[k].choices) == 1
    {
      var cs := QuizData[k].choices;
      CountThree(cs[0], cs[1], cs[2]);
      assert cs == [cs[0], cs[1], cs[2]];
    }
  }

  /** The header label of a question's kind. */
  function KindLabel(kind: string): (text: string)
    ensures kind == "voice" ==> text == "가족 사칭"
    ensures kind == "app" ==> text == "악성 앱"
    ensures kind != "voice" && kind != "app" ==> text == "기관 사칭"
  {
    if kind == "voice" then "가족 사칭" else if kind == "app" then "악성 앱" else "기관 사칭"
  }

  /** The three questions of the quiz are of different kinds and so carry three different header labels. */
  lemma KindLabelsDistinct()
    ensures forall i, j :: 0 <= i < j < |QuizData| ==> KindLabel(QuizData[i].kind) != KindLabel(QuizData[j].kind)
  {
    assert KindLabel(QuizData[0].kind) == "기관 사칭";
    assert KindLabel(QuizData[1].kind) == "가족 사칭";
    assert KindLabel(QuizData[2].kind) == "악성 앱";
  }

  /** The screen's state: the question shown, the score, the result flag and the chosen answer. */
  datatype Quiz = Quiz(index: nat, score: nat, showResult: bool, selected: Option<Choice>)

  const Start: Quiz := Quiz(0, 0, false, None)

  /**
   * What the screen maintains: the index names a question, and the score
   * counts at most one right answer per question reached.
   */
  predicate Valid(q: Quiz) {
    q.index < |QuizData| && q.score <= q.index + (if q.selected.Some? then 1 else 0)
  }

  /**
   * `handleAnswer`, reachable only while no answer is chosen on the
   * question screen (the answers are disabled afterwards): the answer is
   * recorded and the score goes up exactly when it is right.
   */
  function Answer(q: Quiz, c: Choice): (r: Quiz)
    ensures q.selected.Some? || q.showResult ==> r == q
    ensures q.selected.None? && !q.showResult ==>
      r.selected == Some(c) && r.index == q.index && !r.showResult &&
      (r.score == q.score + 1 <==> c.isCorrect) && (r.score == q.score <==> !c.isCorrect)
    ensures Valid(q) ==> Valid(r)
  {
    if q.selected.Some? || q.showResult then q
    else q.(selected := Some(c), score := if c.isCorrect then q.score + 1 else q.score)
  }

  /**
   * `nextQuestion`: before the last question it moves on and clears the
   * choice; on the last it shows the result.
   */
  function Next(q: Quiz): (r: Quiz)
    ensures q.index < |QuizData| - 1 ==> r == q.(index := q.index + 1, selected := None)
    ensures q.index >= |QuizData| - 1 ==> r == q.(showResult := true)
    ensures Valid(q) ==> Valid(r)
  {
    if q.index < |QuizData| - 1 then q.(index := q.index + 1, selected := None)
    else q.(showResult := true)
  }

  /** `restartQuiz`: back to the first question with no score, no result and no choice. */
  function Restart(q: Quiz): (r: Quiz)
    ensures r == Start && Valid(r)
  {
    Quiz(0, 0, false, None)
  }

  /**
   * Starting over forgets the previous run: from any state, even the result
   * screen, a restart reaches the first question unanswered with no score,
   * and a right first answer then scores exactly one.
   */
  lemma RestartForgets(q: Quiz)
    ensures Restart(q).index == 0 && Restart(q).score == 0 && !Restart(q).showResult && Restart(q).selected.None?
    ensures Answer(Restart(q), RightChoice(0)).score == 1
  {
  }

  /** The score never passes the number of questions. */
  lemma ScoreBounded(q: Quiz)
    requires Valid(q)
    ensures q.score <= q.index + 1 <= |QuizData|
  {
  }

  /** The result screen's message: praise exactly for a perfect score. */
  function ResultMessage(score: nat): (msg: string)
    ensures msg == "완벽합니다! 보이스피싱 예방 전문가시네요." <==> score == |QuizData|
  {
    if score == |QuizData| then "완벽합니다! 보이스피싱 예방 전문가시네요."
    else "조금 더 주의가 필요합니다. 다시 한 번 복습해보세요."
  }

  /** The right answer of a question. */
  function RightChoice(k: nat): (c: Choice)
    requires k < |QuizData|
    ensures c in QuizData[k].choices && c.isCorrect
  {
    match k
    case 0 => QuizData[0].choices[1]
    case 1 => QuizData[1].choices[2]
    case _ => QuizData[2].choices[0]
  }

  /** Answering every question rightly and moving on ends on the result screen with a perfect score. */
  lemma PerfectRun()
    ensures var q1 := Next(Answer(Start, RightChoice(0)));
      var q2 := Next(Answer(q1, RightChoice(1)));
      var q3 := Next(Answer(q2, RightChoice(2)));
      q3.showResult && q3.score == |QuizData| && ResultMessage(q3.score) == "완벽합니다! 보이스피싱 예방 전문가시네요."
  {
  }
}

=== FILE: voice_analysis.dfy ===
/**
 * The simulated call analysis hook: every five seconds it draws a
 * confidence in [0, 100), and 1.5 s later shows the risk level for it,
 * raising the alert on danger.  The random draw is an input; the interval
 * and animation timers are not modelled.
 */
module VoiceAnalysis {
  import opened CallHelpers

  /** The hook's state: the shown level, the shown confidence, and whether an analysis is pending. */
  datatype Analyzer = Analyzer(level: Risk, confidence: real, analyzing: bool)

  /** The state when the hook mounts: safe, confidence 0, idle. */
  const Initial: Analyzer := Analyzer(Safe, 0.0, false)

  /**
   * The hook's own thresholds, as it writes them: safe, replaced by danger
   * above 70 or by warning above 40.  They agree with
   * `getRiskLevelFromConfidence` on every confidence.
   */
  method NewLevel(confidence: real) returns (level: Risk)
    ensures level == RiskFromConfidence(confidence)
    ensures level == Danger <==> confidence > 70.0
  {
    level := Safe;
    if confidence > 70.0 {
      level := Danger;
    } else if confidence > 40.0 {
      level := Warning;
    }
  }

  /** The first half of `performAnalysis`: the analysis is marked pending, nothing else changes. */
  function Begin(a: Analyzer): (r: Analyzer)
    ensures r.analyzing && r.level == a.level && r.confidence == a.confidence
  {
    a.(analyzing := true)
  }

  /** A full analysis cycle, marking it pending and then settling, shows the drawn confidence and its level and ends idle, whatever was shown before. */
  lemma BeginThenSettle(a: Analyzer, drawn: real)
    ensures Begin(a).analyzing
    ensures Settle(Begin(a), drawn).state == Analyzer(RiskFromConfidence(drawn), drawn, false)
  {
  }

  /** What the delayed half of `performAnalysis` produced: the new state, and whether the alert fired. */
  datatype Settled = Settled(state: Analyzer, alert: bool)

  /**
   * The delayed half: the drawn confidence and its level are shown, the
   * analysis is no longer pending, and the alert fires exactly on danger.
   */
  function Settle(a: Analyzer, drawn: real): (r: Settled)
    ensures !r.state.analyzing && r.state.confidence == drawn
    ensures r.state.level == RiskFromConfidence(drawn)
    ensures r.alert <==> drawn > 70.0
  {
    var level := RiskFromConfidence(drawn);
    Settled(Analyzer(level, drawn, false), level == Danger)
  }

  /** The shown state after an analysis does not depend on what was shown before. */
  lemma SettleForgetsPrevious(a: Analyzer, b: Analyzer, drawn: real)
    ensures Settle(a, drawn) == Settle(b, drawn)
  {
  }

  /** `getRiskColor`: red for danger, amber for warning, green otherwise. */
  function RiskColor(level: Risk): string {
    match level
    case Danger => "#ef4444"
    case Warning => "#f59e0b"
    case Safe => "#10b981"
  }

  /** `getRiskText`: the Korean label for the level. */
  function RiskText(level: Risk): string {
    match level
    case Danger => "위험"
    case Warning => "주의"
    case Safe => "안전"
  }

  /** Each level has its own colour and its own label, and the name the app stores it under. */
  lemma LevelPresentation(level: Risk)
    ensures level == Danger <==> RiskColor(level) == "#ef4444" && RiskText(level) == "위험" && RiskName(level) == "danger"
    ensures level == Warning <==> RiskColor(level) == "#f59e0b" && RiskText(level) == "주의" && RiskName(level) == "warning"
    ensures level == Safe <==> RiskColor(level) == "#10b981" && RiskText(level) == "안전" && RiskName(level) == "safe"
  {
  }

  /** Shown colour and label are one-to-one with the level. */
  lemma PresentationInjective(a: Risk, b: Risk)
    requires RiskColor(a) == RiskColor(b) || RiskText(a) == RiskText(b)
    ensures a == b
  {
  }
}

=== FILE: voice_registry.dfy ===
/**
 * The enrolled-voice table of the analysis server and the three rules over
 * it: registration (update the fingerprint of an existing name or insert a
 * new row), verification against one named voice, and identification of
 * the best-matching voice.  Fingerprints are opaque; the similarity
 * between two fingerprints (100 times one minus the cosine distance) is an
 * input function.  The table is a sequence in row order, since
 * identification scans rows in that order.
 */
module VoiceRegistry {
  import opened Base

  type Fingerprint = seq<real>

  datatype Voice = Voice(name: string, fingerprint: Fingerprint)

  /** The table's unique-name constraint on `voices.name`. */
  predicate NamesUnique(voices: seq<Voice>) {
    forall i, j :: 0 <= i < j < |voices| ==> voices[i].name != voices[j].name
  }

  predicate HasName(voices: seq<Voice>, name: string) {
    exists i :: 0 <= i < |voices| && voices[i].name == name
  }

  /** Index of the first row with `name`, as `query(...).filter(name == ...).first()` finds it. */
  function FirstIndexOf(voices: seq<Voice>, name: string): (k: nat)
    requires HasName(voices, name)
    ensures k < |voices| && voices[k].name == name
    ensures forall j :: 0 <= j < k ==> voices[j].name != name
  {
    if voices[0].name == name then 0
    else
      assert HasName(voices[1..], name) by {
        var i :| 0 <= i < |voices| && voices[i].name == name;
        assert voices[1..][i - 1].name == name;
      }
      1 + FirstIndexOf(voices[1..], name)
  }

  /** Registration of a fingerprint under `name`. */
  function Upsert(voices: seq<Voice>, name: string, fp: Fingerprint): (r: seq<Voice>)
    ensures HasName(voices, name) ==> |r| == |voices|
    ensures !HasName(voices, name) ==> |r| == |voices| + 1 && r[|voices|] == Voice(name, fp)
    ensures forall j :: 0 <= j < |voices| && voices[j].name != name ==> r[j] == voices[j]
    ensures Voice(name, fp) in r
    ensures NamesUnique(voices) ==> NamesUnique(r)
    ensures NamesUnique(voices) ==> forall j :: 0 <= j < |r| && r[j].name == name ==> r[j].fingerprint == fp
  {
    if HasName(voices, name) then
      var k := FirstIndexOf(voices, name);
      var r := voices[k := Voice(name, fp)];
      assert r[k] == Voice(name, fp);
      r
    else voices + [Voice(name, fp)]
  }

  /** After registration exactly one row carries the name, and it carries the new fingerprint. */
  lemma UpsertExactlyOne(voices: seq<Voice>, name: string, fp: Fingerprint)
    requires NamesUnique(voices)
    ensures var r := Upsert(voices, name, fp);
      exists k :: 0 <= k < |r| && r[k] == Voice(name, fp) && forall j :: 0 <= j < |r| && j != k ==> r[j].name != name
  {
    var r := Upsert(voices, name, fp);
    var k :| 0 <= k < |r| && r[k] == Voice(name, fp);
  }

  /** A second registration under the same name overrides the first. */
  lemma UpsertOverrides(voices: seq<Voice>, name: string, fp1: Fingerprint, fp2: Fingerprint)
    requires NamesUnique(voices)
    ensures Upsert(Upsert(voices, name, fp1), name, fp2) == Upsert(voices, name, fp2)
  {
    var once := Upsert(voices, name, fp1);
    assert HasName(once, name);
    if HasName(voices, name) {
      var k := FirstIndexOf(voices, name);
      assert FirstIndexOf(once, name) == k;
    } else {
      assert FirstIndexOf(once, name) == |voices|;
    }
  }

  datatype HttpError = HttpError(status: nat)

  /** The registration endpoint: a fingerprint that could not be extracted is a 400 and leaves the table alone. */
  function RegisterVoice(voices: seq<Voice>, name: string, fp: Option<Fingerprint>): (r: Result<seq<Voice>, HttpError>)
    ensures fp.None? <==> r == Err(HttpError(400))
    ensures fp.Some? ==> r == Ok(Upsert(voices, name, fp.value))
  {
    match fp
    case None => Err(HttpError(400))
    case Some(f) => Ok(Upsert(voices, name, f))
  }

  datatype Verification = Verification(targetName: string, similarity: real, isMatch: bool)

  /**
   * The verification endpoint: an unknown target name is a 404 (checked
   * first), a missing fingerprint a 400; otherwise a match means a
   * similarity above 80 to the first row with that name.
   */
  function VerifyVoice(voices: seq<Voice>, target: string, fp: Option<Fingerprint>,
                       similarity: (Fingerprint, Fingerprint) -> real): (r: Result<Verification, HttpError>)
    ensures !HasName(voices, target) ==> r == Err(HttpError(404))
    ensures HasName(voices, target) && fp.None? ==> r == Err(HttpError(400))
    ensures r.Ok? ==> r.value.targetName == target && (r.value.isMatch <==> r.value.similarity > 80.0)
    ensures HasName(voices, target) && fp.Some? ==>
      r.Ok? && r.value.similarity == similarity(fp.value, voices[FirstIndexOf(voices, target)].fingerprint)
    ensures r.Ok? ==> exists k :: (0 <= k < |voices| && voices[k].name == target &&
                                   r.value.similarity == similarity(fp.value, voices[k].fingerprint))
  {
    if !HasName(voices, target) then Err(HttpError(404))
    else match fp
      case None => Err(HttpError(400))
      case Some(f) =>
        var k := FirstIndexOf(voices, target);
        var s := similarity(f, voices[k].fingerprint);
        Ok(Verification(target, s, s > 80.0))
  }

  datatype Identification = Identification(speakerId: string, similarity: real)

  /**
   * Identification: scan the rows in order keeping the first strictly
   * greatest similarity (starting from 0); report "Unknown" when it is
   * below 70, or when no fingerprint could be extracted.
   */
  method Identify(fp: Option<Fingerprint>, voices: seq<Voice>, similarity: (Fingerprint, Fingerprint) -> real)
    returns (r: Identification)
    ensures fp.None? ==> r == Identification("Unknown", 0.0)
    ensures fp.Some? ==> r.similarity >= 0.0
    ensures fp.Some? ==> forall i :: 0 <= i < |voices| ==> similarity(fp.value, voices[i].fingerprint) <= r.similarity
    ensures fp.Some? && r.similarity > 0.0 ==> exists i :: 0 <= i < |voices| && similarity(fp.value, voices[i].fingerprint) == r.similarity
    ensures r.similarity < 70.0 ==> r.speakerId == "Unknown"
    ensures fp.Some? && r.similarity >= 70.0 ==>
      exists i :: 0 <= i < |voices| && similarity(fp.value, voices[i].fingerprint) == r.similarity &&
        r.speakerId == voices[i].name &&
        forall j :: 0 <= j < i ==> similarity(fp.value, voices[j].fingerprint) < r.similarity
  {
    if fp.None? {
      return Identification("Unknown", 0.0);
    }
    var f := fp.value;
    var best := 0.0;
    var id := "Unknown";
    var bestIndex := -1;
    var i := 0;
    while i < |voices|
      invariant 0 <= i <= |voices|
      invariant -1 <= bestIndex < i
      invariant best >= 0.0
      invariant forall j :: 0 <= j < i ==> similarity(f, voices[j].fingerprint) <= best
      invariant bestIndex == -1 ==> best == 0.0 && id == "Unknown"
      invariant bestIndex >= 0 ==> similarity(f, voices[bestIndex].fingerprint) == best && id == voices[bestIndex].name
      invariant bestIndex >= 0 ==> forall j :: 0 <= j < bestIndex ==> similarity(f, voices[j].fingerprint) < best
      invariant bestIndex >= 0 ==> best > 0.0
    {
      var s := similarity(f, voices[i].fingerprint);
      if s > best {
        best := s;
        id := voices[i].name;
        bestIndex := i;
      }
      i := i + 1;
    }
    if best < 70.0 {
      id := "Unknown";
    }
    r := Identification(id, best);
  }
}
